=== FILE: README.md ===
# acarelia pipeline — a Dafny model

acarelia checks the publications of one author. The gateway issues a job id
and queues a scrape request. After that the job goes through five services
that talk only through message queues and one Redis key/value store:

1. The **scholar scraper** lists the author's publications on Google Scholar,
   through `scholarly`, Playwright or Oxylabs.
2. The **DOI resolver** matches each publication against Crossref by fuzzy
   title and author similarity. It records `doi`, `verified` and `open_access`.
3. The **text extractor** downloads the open-access PDFs and fills in `text`.
4. The **AI analyzer** annotates each article with the Writer detector's label
   and score.
5. The **plagiarism checker** attaches a Winston report to each article. It
   merges the reports by position into the latest stored `job_data`.

The React frontend polls the job's status line. It turns the status text into
a progress stage, and at the end it lists the verified publications with
their badges.

## How the model is built

- **Stages are pure functions.** Each stage is a function from its input
  message (and the store contents it reads) to the ordered log of its effects:
  store writes and queue publishes (`Effects.Effect`). `Effects.Apply` replays
  the writes on the store.
- **The store is a map.** It is modelled as `map<string, string>` keyed
  `job:{job_id}:{field}` (`JobStore`).
- **External calls are parameters.** Crossref, Unpaywall, Writer, Winston, the
  Oxylabs and Scholar endpoints, the HTML and PDF parsers, `scholarly`,
  Playwright, JSON encoding and `rapidfuzz.token_sort_ratio` are all function
  parameters. Each returns a `Result` (an exception) or an abstract reply.
- **The similarity score is uninterpreted.** It is typed as a real in
  0..100.
- **Timestamps and publish outcomes are inputs.** Timestamps are string
  parameters. Whether a publish went through is a boolean parameter.

Modules:

- `Wrappers`, `Seqs` and `Text`: Option/Result; first-match search, filter
  and dedup; ASCII character classes, substring search, trimming and word
  splitting.
- `Records`: the publication record, queue payloads, the stored job document
  and a JSON codec.
- `JobStore`, `StateStore`, `GatewayStatus` and `Effects`: the store, the
  status line and the effect log.
- `DoiResolver`, `TextExtractorService`, `Extractor`, `OxylabsFetch`,
  `AiAnalyzer`, `PlagiarismChecker`, `ScholarWorker`, `FetchRouter` and
  `ScholarOxylabs`: one per service source file.
- `AnalysisJob`, `ProgressTracker` and `ResultsDisplay`: the frontend's job
  hook, step list and results page.

Two facts about the system as a whole come out of the model:

- **Two status fields.** The scraper and the DOI resolver write the field
  `state`. The gateway's status endpoint reads only `status`, which only the
  text extractor writes. So the scraping and DOI-resolution phases never show
  in the frontend (`ScholarWorker.ScraperInvisibleToStatus`,
  `StateStore.StateInvisibleToStatus`).
- **Colliding keys.** Store keys are plain string concatenation. A job id
  containing `:` could address another job's field (`JobStore.KeysCollide`).
  The lemmas that read the store back assume colon-free job ids, which the
  gateway's UUIDs are.

## Model

| member | source | states |
|---|---|---|
| JobStore.MakeKey | common/job_store.py:18-19 | a field's key is the job's scan prefix `job:{id}:` followed by the field name |
| JobStore.KeyLayout | common/job_store.py:18-19 | a key is `job:`, the job id, `:` and the field name, at those positions |
| JobStore.GetField | common/job_store.py:27-32 | a read gives the value stored under the job's key for the field, and `None` exactly when that key is absent |
| JobStore.SetField | common/job_store.py:21-25 | a write sets exactly the key `job:{id}:{field}` to the value and leaves every other key as it was |
| JobStore.DeleteField | common/job_store.py:34-38 | a delete removes exactly that key and leaves every other key as it was |
| JobStore.GetAllFields | common/job_store.py:40-54 | a field is in the result iff the job's key for it is in the store, and its value is what `get_field` returns for it |
| JobStore.SetThenGet | common/job_store.py:21-32 | `get_field` after `set_field` on the same job and field returns the value written |
| JobStore.LastWriteWins | common/job_store.py:21-25 | two writes to one field do not merge: the store is as if only the later one happened |
| JobStore.NeverWrittenIsNone | common/job_store.py:27-32 | a key that was never written reads as `None` |
| JobStore.DeleteThenGet | common/job_store.py:34-38 | `get_field` after `delete_field` returns `None` |
| JobStore.WriteFrame | common/job_store.py:18-38 | a write or delete changes no read of any other key string |
| JobStore.DifferentFieldsBothPersist | common/job_store.py:18-32 | writes to two different fields of one job both survive |
| JobStore.KeysCollide | common/job_store.py:18-19 | the key format is ambiguous: job `a:b` field `c` and job `a` field `b:c` share a key |
| JobStore.KeyInjective | common/job_store.py:18-19 | for job ids without `:`, equal keys mean the same job and the same field |
| JobStore.FirstColon | common/job_store.py:18-19 | after a colon-free job id, the first `:` is the separator |
| StateStore.SetStatus | common/state_store.py:26-30 | `set_status` stores the status under the job's `status` field and changes no other key |
| StateStore.GetStatus | common/state_store.py:32-36 | the status read is never empty: it is the stored value, or `pending` when the value is missing or empty |
| StateStore.StatusKey | common/state_store.py:28-34 | the status key `job:{id}:status` is the job-store key of the field `status` |
| StateStore.SetThenGetStatus | common/state_store.py:26-36 | a non-empty status is read back as written |
| StateStore.NeverSetIsPending | common/state_store.py:32-36 | a status that was never set reads `pending` |
| StateStore.EmptyIsPending | common/state_store.py:26-36 | a status set to the empty string also reads `pending` |
| StateStore.StatusLastWriteWins | common/state_store.py:26-36 | of two status writes, the later one is read back |
| StateStore.StateInvisibleToStatus | common/state_store.py:32-36 | a write to the field `state` of any job leaves every job's status reading unchanged |
| GatewayStatus.SetStatus | apps/gateway-api/app/services/state_store.py:17-19 | the gateway's write sets the status key and leaves every other key as it was |
| GatewayStatus.GetStatus | apps/gateway-api/app/services/state_store.py:21-24 | the gateway reads the stored status when it is non-empty, otherwise `pending` |
| GatewayStatus.AgreesWithStateStore | apps/gateway-api/app/services/state_store.py:17-24 | the gateway and the services' `StateStore` use the same key and agree on every read and write |
| GatewayStatus.SetThenGet | apps/gateway-api/app/services/state_store.py:17-24 | a non-empty status set through the gateway is read back as written |
| GatewayStatus.AbsentOrEmptyIsPending | apps/gateway-api/app/services/state_store.py:21-24 | an absent or empty gateway status reads `pending` |
| Effects.ApplyReadsLastWrite | common/job_store.py:21-32 | after a stage's writes are applied, a field reads as the stage's last write to it, or as before when the stage did not write it |
| Records.Paper | apps/scholar-scraper/app/scraper/oxylabs_scraper.py:121-126 | a scraped publication carries title, year, link and citations and none of the fields later stages add |
| Records.ResultsList | apps/ai-analyzer/app/service.py:69-72 | `results` defaults to the empty list when missing and is rejected when it is not a list |
| DoiResolver.KeepLower | apps/doi-resolver/app/service.py:22-23 | the kept characters are only lower-case letters, digits and whitespace, and there are no more of them than input characters |
| DoiResolver.Normalize | apps/doi-resolver/app/service.py:22-23 | `normalize` yields only lower-case alphanumerics and whitespace, with no whitespace at either end |
| DoiResolver.NormalizeIdempotent | apps/doi-resolver/app/service.py:22-23 | normalizing a normalized string changes nothing |
| DoiResolver.NormalizeIgnoresCase | apps/doi-resolver/app/service.py:22-23 | lower-casing the input first does not change the normalized form |
| DoiResolver.KeepLowerNoop | apps/doi-resolver/app/service.py:22-23 | text already made of lower-case alphanumerics and whitespace passes the filter unchanged |
| DoiResolver.TitleScores | apps/doi-resolver/app/service.py:41-48 | every candidate's title is scored against the normalized title in order; a candidate with an empty title list raises and aborts the lookup |
| DoiResolver.BestAuthorScore | apps/doi-resolver/app/service.py:55-59 | a candidate's author score is at least every author's score, and 0 for an empty list |
| DoiResolver.BestAuthorScoreAttained | apps/doi-resolver/app/service.py:55-59 | the author score is one of the authors' scores or the starting 0.0, so with the bound above it is their maximum |
| DoiResolver.ResolveDoi | apps/doi-resolver/app/service.py:37-66 | no candidates gives `(None, False)`; a candidate with an empty title list makes the lookup raise, and for a non-null author nothing else does; `verified = False` always comes with `doi = None`; a `null` author never verifies |
| DoiResolver.NullAuthorRaises | apps/doi-resolver/app/service.py:41-59 | with a `null` author and readable titles the lookup raises `TypeError` iff some title reaches the threshold, and otherwise answers `(None, False)` |
| DoiResolver.ResolveDoiIsFirstAccepted | apps/doi-resolver/app/service.py:37-66 | the accepted candidate is the first one in Crossref's order that reaches both the title and the author threshold, so a later one is taken when earlier title matches fail the author test; `verified` holds iff such a candidate exists |
| DoiResolver.NoTitleMatchIgnoresAuthor | apps/doi-resolver/app/service.py:43-52 | when no title reaches the threshold the result is `(None, False)` whatever the author, even `null` |
| DoiResolver.MissingTitleScoresEmpty | apps/doi-resolver/app/service.py:44 | a candidate without a `title` key is scored as the empty title |
| DoiResolver.EnrichRecord | apps/doi-resolver/app/service.py:101-110 | the lookup fails iff the Crossref query or the selection raises; otherwise a record keeps its other fields and gains `doi`, `verified` and `open_access`; `doi` and `verified` are the lookup's answer, `open_access` is Unpaywall's verdict on that DOI (false without one), and `citations` becomes the Crossref count when verified, a DOI is present and the old count was missing, and changes in no other case |
| DoiResolver.EnrichAll | apps/doi-resolver/app/service.py:100-110 | all records are enriched in input order, and one failing lookup fails the whole loop with that record's error |
| DoiResolver.ResolverLog | apps/doi-resolver/app/service.py:95-120 | `state` runs "DOIs resolving." then "DOIs resolved." with one publish to `text-extract-requests`, or "DOIs resolving." then "DOI resolver error." with nothing published |
| DoiResolver.AuthorArg | apps/doi-resolver/app/service.py:92 | a missing author reads as "", a `null` one as `None`, any other as itself |
| DoiResolver.OnMessage | apps/doi-resolver/app/service.py:90-97 | the start time is the first write, under the job id as given (even a missing one) |
| DoiResolver.OnMessageStates | apps/doi-resolver/app/service.py:96-120 | any exception, including one record's lookup or a `null` result list, yields "DOI resolver error." and no publish; success yields "DOIs resolved." and one publish; only the timestamps and `state` are written |
| DoiResolver.NullAuthorFailsJob | apps/doi-resolver/app/service.py:54-120 | a `null` author fails the job with "DOI resolver error." and no publish once one record's Crossref answer has a title reaching the threshold |
| DoiResolver.ResolverLogPublish | apps/doi-resolver/app/service.py:112-118 | in the effect log the one publish carries the message handed in and is followed only by writes, the last being "DOIs resolved." |
| DoiResolver.OnMessagePublish | apps/doi-resolver/app/service.py:112-118 | the publish carries the job id, the author as read ("" when missing, `null` when `null`) and every record enriched in input order; it happens only for a list of results and precedes "DOIs resolved." |
| ScholarWorker.HandleScrape | apps/scholar-scraper/app/worker.py:19-51 | a missing job id or author writes and publishes nothing; otherwise "Scraping started." is written first |
| ScholarWorker.HandleScrapeLog | apps/scholar-scraper/app/worker.py:26-50 | `state` goes "Scraping started." then "Scraper error." (fetch raised), "Scraper found no results." (empty list) or "Scraper completed successfully." followed by one publish to `doi-resolve-requests` of `{job_id, author, results}` holding exactly the fetched list |
| ScholarWorker.StateWritesKeepStatus | apps/scholar-scraper/app/worker.py:27-40 | writes only to `state` leave every job's status reading unchanged |
| ScholarWorker.ScraperInvisibleToStatus | apps/scholar-scraper/app/worker.py:19-51 | nothing the scraper writes changes what the status endpoint reports for any job |
| FetchRouter.FetchPublications | apps/scholar-scraper/app/scraper/fetch_router.py:4-9 | Scholarly's answer is returned unchanged when it does not raise; otherwise Playwright's answer or exception is the result |
| FetchRouter.EmptyIsFinal | apps/scholar-scraper/app/scraper/fetch_router.py:5-6 | an empty list from Scholarly does not trigger the fallback |
| FetchRouter.FailsOnlyIfBothFail | apps/scholar-scraper/app/scraper/fetch_router.py:4-9 | the router raises iff both scrapers raise, and then with Playwright's exception |
| ScholarOxylabs.FindYear | apps/scholar-scraper/app/scraper/oxylabs_scraper.py:105-108 | the search finds the leftmost word-bounded 19xx/20xx at or after a position, or reports that there is none |
| ScholarOxylabs.FourDigits | apps/scholar-scraper/app/scraper/oxylabs_scraper.py:108-110 | `int()` of four digits is their positional value |
| ScholarOxylabs.Year | apps/scholar-scraper/app/scraper/oxylabs_scraper.py:105-110 | the year is in 1900..2099, is `None` exactly when the meta text is missing or holds no word-bounded 19xx/20xx, and otherwise is the value of the leftmost such match |
| ScholarOxylabs.YearStandsAlone | apps/scholar-scraper/app/scraper/oxylabs_scraper.py:105-110 | a year set off by punctuation is found ("Nature, 2019" gives 2019) |
| ScholarOxylabs.YearNeedsBoundary | apps/scholar-scraper/app/scraper/oxylabs_scraper.py:105-110 | a year glued to a letter is not a year ("A2019" gives none) |
| ScholarOxylabs.LeadingDigits | apps/scholar-scraper/app/scraper/oxylabs_scraper.py:116-118 | the digit run taken is a maximal run of digits from where it starts |
| ScholarOxylabs.FirstDigitRun | apps/scholar-scraper/app/scraper/oxylabs_scraper.py:116-118 | `\d+` finds nothing iff the text has no digit; otherwise it finds the maximal run starting at the first digit |
| ScholarOxylabs.Citations | apps/scholar-scraper/app/scraper/oxylabs_scraper.py:112-119 | a count comes only from the first link whose lower-cased text contains "cited" or "alıntı" (its first number), and it is `None` without such a link |
| ScholarOxylabs.CitationsFromFirstCitedLink | apps/scholar-scraper/app/scraper/oxylabs_scraper.py:112-119 | the first citation link alone decides: its first number is the count, and a first citation link without a number gives `None` even when a later link has one |
| ScholarOxylabs.ToPaper | apps/scholar-scraper/app/scraper/oxylabs_scraper.py:99-126 | the title is "Unknown" when absent, the link is the href or `None`, and year and citations come from the meta text and the footer links |
| ScholarOxylabs.ToPapers | apps/scholar-scraper/app/scraper/oxylabs_scraper.py:99-126 | a page's publications are its items in item order |
| ScholarOxylabs.PageUrl | apps/scholar-scraper/app/scraper/oxylabs_scraper.py:51-57 | every page URL is a Google Scholar search URL |
| ScholarOxylabs.PageUrlQuery | apps/scholar-scraper/app/scraper/oxylabs_scraper.py:51-56 | every space of the author name becomes `+`, so the query holds no space |
| ScholarOxylabs.GeoAt | apps/scholar-scraper/app/scraper/oxylabs_scraper.py:59-61 | attempt `r` uses a country of the configured rotation, `geo_countries[r mod len]` |
| ScholarOxylabs.PageAttempts | apps/scholar-scraper/app/scraper/oxylabs_scraper.py:59-97 | a page gets at most `max_retries + 1` attempts, attempt `r` posts the page URL with `geo_countries[r mod len]`; a missing `content` ends pagination, an exception ends the search, a reCAPTCHA moves to the next attempt, a page without items ends pagination and otherwise its items become publications, each after one request; a reCAPTCHA's request is sent first |
| ScholarOxylabs.CaptchaStep | apps/scholar-scraper/app/scraper/oxylabs_scraper.py:83-89 | a reCAPTCHA on attempt `r` gives the outcome of attempt `r + 1` on the same page, after the captcha's own request |
| ScholarOxylabs.CaptchasRetrySamePage | apps/scholar-scraper/app/scraper/oxylabs_scraper.py:83-89 | after reCAPTCHAs on attempts `retry` to `k - 1`, the page's outcome is that of attempt `k` on the same page, after one request per captcha |
| ScholarOxylabs.CaptchasThenPage | apps/scholar-scraper/app/scraper/oxylabs_scraper.py:76-97 | reCAPTCHAs followed by a page without one give that page's outcome (its items, or the end of pagination) after `k - retry + 1` requests |
| ScholarOxylabs.Pages | apps/scholar-scraper/app/scraper/oxylabs_scraper.py:50-131 | only pages below `max_pages` are requested, each at the URL with `start = 10 * page` |
| ScholarOxylabs.PagesStep | apps/scholar-scraper/app/scraper/oxylabs_scraper.py:94-131 | a page that ends pagination ends the search with what came before and no later request; an exception fails it; a page of publications is followed by the later pages' publications and requests |
| ScholarOxylabs.FetchPublications | apps/scholar-scraper/app/scraper/oxylabs_scraper.py:37-133 | at most `max_pages` pages are visited and nothing is requested when `max_pages <= 0` |
| ScholarOxylabs.NoRetriesNoRequests | apps/scholar-scraper/app/scraper/oxylabs_scraper.py:59 | with a negative retry limit no page is requested and the result is empty |
| ScholarOxylabs.CaptchaExhaustionStops | apps/scholar-scraper/app/scraper/oxylabs_scraper.py:83-131 | when every attempt at the first page meets a reCAPTCHA, pagination stops with no publications after exactly `max_retries + 1` requests |
| ScholarOxylabs.AllCaptcha | apps/scholar-scraper/app/scraper/oxylabs_scraper.py:83-89 | a page whose every attempt is a reCAPTCHA stops pagination after using every remaining attempt |
| ScholarOxylabs.FirstPageFirst | apps/scholar-scraper/app/scraper/oxylabs_scraper.py:99-126 | publications are appended in page order: the first page's come first |
| TextExtractorService.AsModel | apps/text-extractor/app/models.py:4-18 | the `Article` model drops the AI and plagiarism fields and keeps everything else |
| TextExtractorService.ParseJob | apps/text-extractor/app/service.py:42-46 | a payload parses iff it has a job id, an author and a results list whose records parse; the job keeps every record in order |
| TextExtractorService.Eligible | apps/text-extractor/app/service.py:52 | an article is fetched when it has a non-empty DOI and is both verified and open access |
| TextExtractorService.Extracted | apps/text-extractor/app/service.py:51-64 | an article without a DOI, verification or open access, or whose extraction raised, is unchanged; otherwise its text becomes the extractor's result, even `None` |
| TextExtractorService.ArticleStatuses | apps/text-extractor/app/service.py:56-64 | each processed article writes "extracting:{doi}" and then "extracted:{doi}" or "error:{doi}" |
| TextExtractorService.ExtractLoop | apps/text-extractor/app/service.py:51-64 | the loop keeps the article count and order, changes each article only as above and writes only the status |
| TextExtractorService.LoopStatuses | apps/text-extractor/app/service.py:51-64 | the loop writes two statuses per eligible article, in article order, and publishes nothing |
| TextExtractorService.OnMessage | apps/text-extractor/app/service.py:41-48 | an unparsable payload writes nothing; otherwise "Extract service started." is the first status |
| TextExtractorService.OnMessageLog | apps/text-extractor/app/service.py:41-73 | the statuses run "started", the per-article pairs, then "Extract service successfully finished." after a successful publish of all articles in order to `ai-detection-requests`, or "error" with nothing published |
| TextExtractorService.FinalStatus | apps/text-extractor/app/service.py:66-73 | after a parsed job the status reads "Extract service successfully finished." or "error", whatever the articles did |
| TextExtractorService.SkippedArticles | apps/text-extractor/app/service.py:51-53 | articles lacking a DOI, verification or open access are forwarded untouched and write no status |
| Extractor.ResolveOaUrls | apps/text-extractor/app/extractor.py:39-63 | Unpaywall's PDF URL gives `{pdf, html}`; its landing URL alone gives `{None, html}` without asking Crossref; an HTTP error raises |
| Extractor.CrossrefFallback | apps/text-extractor/app/extractor.py:54-63 | otherwise the first Crossref link whose lower-cased content type is `application/pdf` is the PDF, and with none both URLs are `None` |
| Extractor.PageTexts | apps/text-extractor/app/extractor.py:65-72 | only non-empty page texts are kept |
| Extractor.PageTextsAppend | apps/text-extractor/app/extractor.py:66-71 | the page texts of two runs of pages are those of the first run followed by those of the second |
| Extractor.PageTextsOne | apps/text-extractor/app/extractor.py:68-71 | one page contributes its text exactly when it has any |
| Extractor.PdfTextAppend | apps/text-extractor/app/extractor.py:65-72 | the text of a PDF split into two parts that both have text is their texts joined by one newline |
| Text.JoinAppend | apps/text-extractor/app/extractor.py:72 | `sep.join` of two non-empty lists puts one separator between their joins |
| Extractor.PdfText | apps/text-extractor/app/extractor.py:65-72 | a PDF with no page text gives the empty string |
| Extractor.AllBlankPages | apps/text-extractor/app/extractor.py:68-71 | pages without text contribute nothing |
| Extractor.SinglePageText | apps/text-extractor/app/extractor.py:65-72 | with one page of text, the PDF text is exactly that page's text, with no separator added |
| Extractor.OnlyPage | apps/text-extractor/app/extractor.py:68-71 | with one page of text, exactly that text is collected |
| Extractor.LandingHtml | apps/text-extractor/app/extractor.py:74-89 | the landing page is fetched directly; on an HTTP status error it goes through Oxylabs when a scraper is configured and is `None` otherwise |
| Extractor.LandingPdfLink | apps/text-extractor/app/extractor.py:74-95 | the link returned is the first href ending in ".pdf" in any case, and it is `None` when there is none |
| Extractor.TryOrder | apps/text-extractor/app/extractor.py:99-112 | the list before de-duplication: landing-page PDF link (inserted at the front), PDF URL, landing URL, no empty entry |
| Extractor.Candidates | apps/text-extractor/app/extractor.py:99-116 | the candidates are exactly the non-empty landing-page link, PDF URL and landing URL, without duplicates, with the landing-page link first |
| Extractor.CandidatesOrder | apps/text-extractor/app/extractor.py:114-116 | the candidates keep the order of their first occurrence in the list as built |
| Extractor.PdfUrlBeforeLandingUrl | apps/text-extractor/app/extractor.py:101-106 | the PDF URL is tried before a different landing URL, unless the landing URL is itself the PDF link found on the page |
| Extractor.PdfUrlFirstWithoutLandingLink | apps/text-extractor/app/extractor.py:101-112 | without a landing-page PDF link, the PDF URL is the first candidate |
| Extractor.GetTextForDoi | apps/text-extractor/app/extractor.py:97-133 | text is returned only from a candidate that passed the PDF test and downloaded; an exception reaches the caller only from the URL lookup or the landing fetch |
| Extractor.Usable | apps/text-extractor/app/extractor.py:120-127 | a candidate gives a PDF when its HEAD succeeds, its content type contains `application/pdf` or its URL ends in `.pdf` (case-insensitively), and its download succeeds |
| Extractor.GetTextIsFirstUsable | apps/text-extractor/app/extractor.py:119-133 | the text is that of the first candidate that is a PDF (by content type or ".pdf" suffix) and downloads; failing candidates are skipped; `None` iff none succeeds |
| Extractor.LandingLinkFirst | apps/text-extractor/app/extractor.py:108-112 | a usable PDF link found on the landing page is tried before any other URL, so its text is the result |
| Extractor.NoUrlsNoText | apps/text-extractor/app/extractor.py:97-133 | without any open-access URL there is no text |
| OxylabsFetch.NewScraper | apps/text-extractor/app/oxylabs_scraper.py:19-35 | construction fails iff a credential is missing; an empty or missing country list falls back to the default rotation |
| OxylabsFetch.Content | apps/text-extractor/app/oxylabs_scraper.py:65-70 | the content is that of the first result, `None` when `results` is missing, and an empty list raises |
| OxylabsFetch.Classify | apps/text-extractor/app/oxylabs_scraper.py:58-85 | a reply is accepted iff it is OK, non-empty and has no "recaptcha" in any case; HTTP errors, empty content and captchas are retried; other exceptions abort |
| OxylabsFetch.GeoFor | apps/text-extractor/app/oxylabs_scraper.py:55 | attempt `k` uses `geo_countries[(k - 1) mod len]` |
| OxylabsFetch.FetchHtml | apps/text-extractor/app/oxylabs_scraper.py:46-87 | at most `max_retries` POSTs, none when it is not positive; attempts rotate the countries; the result is the first accepted page, and exhausting every attempt raises |
| OxylabsFetch.CaptchaNeverAccepted | apps/text-extractor/app/oxylabs_scraper.py:76-83 | a reCAPTCHA page is never returned, in any letter case |
| OxylabsFetch.DefaultRotation | apps/text-extractor/app/oxylabs_scraper.py:35-55 | with the default list, attempts 1, 3 and 6 use US, GB and US |
| AiAnalyzer.BlankIffAllSpace | apps/ai-analyzer/app/service.py:76-79 | a text strips to nothing exactly when it is all whitespace |
| AiAnalyzer.SlotOf | apps/ai-analyzer/app/service.py:103-113 | a missing label or score is stored as null |
| AiAnalyzer.Annotate | apps/ai-analyzer/app/service.py:76-113 | an article without text is unchanged; an HTTP or parse failure leaves it unchanged; a verdict sets only `ai_analyzer_label` and `ai_analyzer_score`; only another exception aborts |
| AiAnalyzer.AnnotateAll | apps/ai-analyzer/app/service.py:74-117 | the results keep their length and order, each annotated on its own, and a failure on one article does not stop the loop |
| AiAnalyzer.ProcessJob | apps/ai-analyzer/app/service.py:57-125 | a missing or unparsable `job_data`, or results that are not a list, means nothing is written back; a non-object document raises; a document without `results` is written back as read; a list is written back with every article annotated as `AnnotateAll` gives, and the job raises exactly when `AnnotateAll` does |
| AiAnalyzer.HandleMessage | apps/ai-analyzer/app/service.py:39-47 | a payload without job id writes nothing; otherwise "AI analyzer started." is the first write |
| AiAnalyzer.HandleMessageStatuses | apps/ai-analyzer/app/service.py:39-55 | the status goes started then finished, with the plagiarism status also set to finished, even when nothing was written back; or started then error; `job_data` is written only on success |
| AiAnalyzer.StoredResultReadsBack | apps/ai-analyzer/app/service.py:57-125 | after a run on a readable document, the stored `job_data` holds the same articles in order, each differing at most in the AI label and score, and each equal to what `Annotate` makes of the article read at its position |
| PlagiarismChecker.StripEscapes | apps/plagiarism-checker/app/service.py:144 | removing escapes never lengthens the text or adds characters |
| PlagiarismChecker.StripEscapesNoBackslash | apps/plagiarism-checker/app/service.py:144 | text without a backslash is left as it is |
| PlagiarismChecker.StripCanLeaveEscape | apps/plagiarism-checker/app/service.py:144-158 | one pass of the escape regex can leave a new `\uXXXX` behind |
| PlagiarismChecker.Window | apps/plagiarism-checker/app/service.py:146-154 | the window lies within the token list and has `word_count` tokens, or all of them when there are fewer; with at least `word_count` tokens it starts at `total // 2 - word_count // 2` |
| PlagiarismChecker.WindowCentred | apps/plagiarism-checker/app/service.py:150-154 | with at least `word_count` tokens the window drops as many tokens before as after, give or take one |
| PlagiarismChecker.WindowOf | apps/plagiarism-checker/app/service.py:146-154 | the snippet tokens are the contiguous window of the token list, all tokens in order when there are fewer than `word_count` |
| PlagiarismChecker.Tidy | apps/plagiarism-checker/app/service.py:156-160 | an empty snippet yields `None` |
| PlagiarismChecker.TidyPlain | apps/plagiarism-checker/app/service.py:156-160 | a snippet already stripped and free of backslashes is kept as it is |
| PlagiarismChecker.ExtractSnippet | apps/plagiarism-checker/app/service.py:143-160 | the snippet is never empty, and text without tokens gives `None` |
| Text.SplitWordsAreWords | apps/plagiarism-checker/app/service.py:146 | every token of `str.split()` is a non-empty run of non-whitespace characters |
| PlagiarismChecker.SnippetOfPlainText | apps/plagiarism-checker/app/service.py:143-160 | for text without escapes the snippet is the centred window of its words joined by single spaces |
| PlagiarismChecker.TruthyUrls | apps/plagiarism-checker/app/service.py:138 | exactly the non-empty URLs are kept |
| PlagiarismChecker.ExcludedSources | apps/plagiarism-checker/app/service.py:125-141 | a non-200 answer gives no sources; otherwise the sources are the non-empty link URLs without duplicates, in the order of their first occurrence |
| PlagiarismChecker.CheckArticle | apps/plagiarism-checker/app/service.py:58-91 | missing text or DOI or an empty snippet gives a null report; with text, DOI, Crossref links and a snippet, the report is Winston's answer on the snippet excluding the Crossref links, or null when Winston fails; a Crossref failure ends the job |
| PlagiarismChecker.CheckAll | apps/plagiarism-checker/app/service.py:57-91 | one report per article, in order, so the report list has the input's length |
| PlagiarismChecker.MergeByIndex | apps/plagiarism-checker/app/service.py:104-113 | the merged list has the latest list's length; each entry is the latest record with only its report replaced, by position, and null beyond the first list |
| PlagiarismChecker.ReadResults | apps/plagiarism-checker/app/service.py:46-55 | the job continues iff the stored document is non-empty, decodes to an object and has list-valued or missing results |
| PlagiarismChecker.FirstPass | apps/plagiarism-checker/app/service.py:46-91 | reports exist exactly when the first read gives a results list and every article's check succeeds, and they are the per-article reports of its results |
| PlagiarismChecker.MergedDoc | apps/plagiarism-checker/app/service.py:93-115 | the document written back is the latest document with its results replaced by the merged list |
| PlagiarismChecker.OnMessage | apps/plagiarism-checker/app/service.py:36-45 | a payload without job id writes nothing; otherwise the start time and "Plagiarism checker started." come first |
| PlagiarismChecker.OnMessageLog | apps/plagiarism-checker/app/service.py:36-123 | the end time, "finished successfully" and `job_data` are written only after both reads succeed with list-valued results; only the checker's own fields are written, and nothing is published |
| PlagiarismChecker.StoredReportsReadBack | apps/plagiarism-checker/app/service.py:57-119 | after a successful run the stored articles are the latest ones, each carrying the report computed for the first read's article at its position; entries past the first list, and articles without text or DOI, get null |
| PlagiarismChecker.NoConcurrentWriteKeepsArticles | apps/plagiarism-checker/app/service.py:93-115 | with no concurrent writer, the articles written back are the first read's, each with its own report |
| AnalysisJob.StageFromStatus | apps/frontend/src/hooks/useAnalysisJob.ts:14-34 | progress is one of 0, 5, 10, 25, 50, 75; the stage is error iff the progress is 0, and only when the text says "error"; "scraping started" in any case gives (scraping, 10) over all later rules |
| AnalysisJob.StageFromStatusIsRuleTable | apps/frontend/src/hooks/useAnalysisJob.ts:14-34 | the classification is the first rule of the ordered phrase table that fires, falling back to (scraping, 5) |
| AnalysisJob.Rules | apps/frontend/src/hooks/useAnalysisJob.ts:17-31 | five rules are tried in order; none yields idle or completed, and only the last yields error |
| AnalysisJob.StageOf | apps/frontend/src/hooks/useAnalysisJob.ts:14-34 | an error stage means the error rule fired; a status the completion rule matches is never an error |
| AnalysisJob.FinishesIsNotError | apps/frontend/src/hooks/useAnalysisJob.ts:26-65 | a status that passes the case-sensitive completion test is never classified as an error |
| AnalysisJob.Finishes | apps/frontend/src/hooks/useAnalysisJob.ts:65 | the case-sensitive test on the raw status text that starts the final checks of a round |
| AnalysisJob.Poll | apps/frontend/src/hooks/useAnalysisJob.ts:55-95 | polling stops iff the stage becomes error or completed; a throw from the status, sub-status or job-data request sets the error and stops (after the sub-statuses, with progress 100 and the completion message already set); completion requires the case-sensitive extractor phrase, "successfully" in both sub-statuses and the job data, and sets progress 100, the completion message and that data, leaving the error as it was; otherwise that branch keeps the new stage and sets 85 with "Finalizing analysis..." and continues |
| AnalysisJob.StopIffPollingEnds | apps/frontend/src/hooks/useAnalysisJob.ts:89-108 | the interval keeps running after a round exactly when the round did not ask to stop |
| AnalysisJob.Polling | apps/frontend/src/hooks/useAnalysisJob.ts:98 | the interval runs while there is a job id and the stage is neither completed nor error |
| AnalysisJob.PollProgress | apps/frontend/src/hooks/useAnalysisJob.ts:55-89 | after a successful request the progress is one of 0, 5, 10, 25, 50, 75, 85, 100 |
| AnalysisJob.Reset | apps/frontend/src/hooks/useAnalysisJob.ts:110-118 | reset restores no job, stage idle, progress 0, an empty message, no data, no error and not loading, so polling is off |
| AnalysisJob.ExtractorLabelMatchesNoRule | apps/frontend/src/hooks/useAnalysisJob.ts:17-31 | the text extractor's completion label matches none of the five phrase rules |
| AnalysisJob.ExtractorFinishStalls | apps/frontend/src/hooks/useAnalysisJob.ts:26-65 | as written, polling on "Extract service successfully finished." shows (scraping, 5), does not stop and never reaches completion |
| AnalysisJob.CorrectedPollCompletes | apps/frontend/src/hooks/useAnalysisJob.ts:65-82 | once the extractor's label is recognised, the same round completes with progress 100 and the job data as soon as both sub-statuses say "finished successfully" |
| AnalysisJob.CorrectedStageIsAnalyzing | apps/frontend/src/hooks/useAnalysisJob.ts:26-28 | once the extractor's label is recognised, it maps to (analyzing, 75) |
| ProgressTracker.IndexOf | apps/frontend/src/components/ProgressTracker.tsx:45-46 | the index is that of the first step with the stage's key, and -1 iff the stage is not a step |
| ProgressTracker.StatusOf | apps/frontend/src/components/ProgressTracker.tsx:44-52 | stage error makes every step error and completed makes every step completed; otherwise steps before the current one are completed, the current one is active, and later steps (or all steps, for a stage that is no step) are pending |
| ProgressTracker.IconOf | apps/frontend/src/components/ProgressTracker.tsx:25-52 | `getStageIcon` draws every step with the icon of the status `getStageStatus` gives it |
| ProgressTracker.AtMostOneActive | apps/frontend/src/components/ProgressTracker.tsx:44-51 | at most one step is active |
| ProgressTracker.StepsOrdered | apps/frontend/src/components/ProgressTracker.tsx:44-51 | outside the error stage, completed steps precede all others and pending steps follow all others |
| ProgressTracker.ResetAllPending | apps/frontend/src/components/ProgressTracker.tsx:44-51 | after reset (stage idle) every step is pending |
| ResultsDisplay.VerifiedArticles | apps/frontend/src/components/ResultsDisplay.tsx:11 | the listed articles are exactly the verified ones |
| ResultsDisplay.VerifiedInOrder | apps/frontend/src/components/ResultsDisplay.tsx:11-63 | listing keeps the document's order: the list of a concatenation is the concatenation of the lists |
| ResultsDisplay.EmptyStateIffNoneVerified | apps/frontend/src/components/ResultsDisplay.tsx:41-60 | the count is 0, and the empty state appears, iff no article is verified |
| ResultsDisplay.PlagiarismTone | apps/frontend/src/components/ResultsDisplay.tsx:21-25 | green iff the score is 0, red iff the score is at least 15, yellow otherwise |
| ResultsDisplay.PlagiarismToneMonotone | apps/frontend/src/components/ResultsDisplay.tsx:21-25 | for non-negative scores, a higher score never gets a milder colour |
| ResultsDisplay.NegativeScoreIsYellow | apps/frontend/src/components/ResultsDisplay.tsx:21-25 | a negative score is shown yellow |
| ResultsDisplay.AiLabelTone | apps/frontend/src/components/ResultsDisplay.tsx:13-15 | the AI label is green iff it is "real", and red otherwise |
| ResultsDisplay.AiPanel | apps/frontend/src/components/ResultsDisplay.tsx:107-128 | the AI badge is shown iff the label is present and non-empty and the score is not undefined, coloured by the label |
| ResultsDisplay.PlagiarismPanel | apps/frontend/src/components/ResultsDisplay.tsx:132-145 | the plagiarism badge is shown iff a report is present, coloured by its score, with its source count |
| ResultsDisplay.NullReportHidesPanel | apps/frontend/src/components/ResultsDisplay.tsx:132 | a null report shows no plagiarism badge |
| ResultsDisplay.DoiLink | apps/frontend/src/components/ResultsDisplay.tsx:91-101 | the DOI link is rendered iff the DOI is truthy, and it starts with "https://doi.org/" |
| ResultsDisplay.DoiLinkRoundTrip | apps/frontend/src/components/ResultsDisplay.tsx:91-101 | the link determines the DOI: stripping the prefix gives back the article's DOI |

Small helpers that only name a source expression carry no row of their
own: `DoiResolver.AuthorName`, `DoiResolver.CandidateTitle`,
`DoiResolver.AuthorScore`, `DoiResolver.FirstAccepted`,
`DoiResolver.RecordsOf` and `Extractor.FirstPdfHref`. Their behaviour is
stated on the rows of `TitleScores`, `BestAuthorScore`, `ResolveDoi`,
`ResolveDoiIsFirstAccepted`, `OnMessageStates` and `LandingPdfLink`.

## Left out

- Message transport (`common/messaging.py`, aio_pika): a queue is an append-only list of publishes in the effect log. Consumer registration, acknowledgement and redelivery are not modelled.
- HTTP clients and their timeouts: every call to Crossref, Unpaywall, Writer, Winston, Oxylabs and the landing pages is a parameter. It returns a success or an exception, plus the few reply details the code branches on: status 200 for Crossref links, a captcha or empty content for Oxylabs.
- Parsers: BeautifulSoup selectors, `pdfplumber` and `json.loads`/`json.dumps` are abstract. Parsed Scholar items, page texts and a `Codec` with a `RoundTrips` property stand in for them.
- `rapidfuzz.fuzz.token_sort_ratio` is an uninterpreted function into 0..100.
- `scholarly` and Playwright scrapers (`scholarly_scraper.py`, `playwright_scraper.py`): these adapters are the two parameters of `FetchRouter.FetchPublications`.
- Time and randomness: `datetime.now` timestamps are string parameters. The random sleeps, the back-off waits and the frontend's 2.5-second polling interval are not modelled; the model is a sequence of polling rounds.
- Concurrency: the stages run one after another. Two services racing on `job_data` appear only through the plagiarism checker's second read, which is a parameter.
- Text: character classes, lower-casing and whitespace are ASCII-only. Python's `str.isalnum`, `str.lower`, `str.split` and regex `\b`/`\d` also accept other Unicode letters, digits and spaces, and JavaScript's `toLowerCase` is Unicode too.
- JobStore.GetAllFields: models the prefix-strip mapping of the SCAN only. The cursor loop is not modelled, nor the `k.decode()` call on keys that are already strings.
- Store failures: Redis errors on a write are not modelled. In the services they would turn into the stage's error path.
- DoiResolver.OnMessage: a record that is not a dictionary is not represented, so the exception its `.get` would raise is not modelled.
- DoiResolver.AuthorName: a Crossref author whose `given` or `family` is JSON `null` is formatted by the f-string as "None"; the model's author entries are strings, so that spelling is not represented.
- ResultsDisplay.PlagiarismPanel: assumes a present Winston report has a `result` object with `score` and `sourceCounts`; a report without one would make the component throw, which is not modelled.
- ScholarWorker.HandleScrape: an exception from the final publish (after "Scraper completed successfully.") is not modelled.
- ScholarOxylabs.PageUrl: states the URL's prefix; `NatToString` and the exact query layout appear only in the body.
- The text extractor's second output queue (`OUTPUT_QUEUE_2`, `plagiarism-detection-requests`, in its settings) is not modelled: `_on_message` publishes only to `OUTPUT_QUEUE`.
- Frontend plumbing: `startAnalysis`, `App.tsx`, `SearchForm.tsx` and `services/api.ts` are not modelled. Neither is the formatting of numbers and badges (`formatConfidenceScore`, citation text, icons beyond the status icon class).
- Gateway FastAPI routers (`scan.py`, `status.py`) and every service's `main.py`: wiring only. The status route returns `get_status`, which `GatewayStatus.GetStatus` models.
- OxylabsScraper of the scholar scraper is not called by the fetch router, which uses only Scholarly and Playwright. It is modelled for its own logic.

## Findings

| source | as written | input that shows it | evidently intended | confidence | as-written member | corrected member |
|---|---|---|---|---|---|---|
| apps/frontend/src/hooks/useAnalysisJob.ts:26-65 | the stage table and the completion check look for "Extract service finished successfully", but the text extractor writes "Extract service successfully finished." (apps/text-extractor/app/service.py:69) | status text "Extract service successfully finished." | the extractor's completion label moves the job to (analyzing, 75) and lets polling complete once the AI and plagiarism statuses succeed | not executed | AnalysisJob.ExtractorFinishStalls | AnalysisJob.CorrectedPollCompletes |

=== FILE: ai_analyzer.dfy ===
/** The AI analyzer (`apps/ai-analyzer/app/service.py`): it reads the
    stored `job_data`, asks the Writer detector about every article that
    has text, records the returned label and score on the article, and
    writes the document back. The detector and JSON are parameters. */
module AiAnalyzer {
  import opened Wrappers
  import opened Records
  import Text
  import Effects
  import JobStore

  const StatusField := "ai_analyze_status"
  const PlagiarismStatusField := "plagiarism_check_status"
  const JobDataField := "job_data"
  const Started := "AI analyzer started."
  const Finished := "AI analyzer finished successfully."
  const Failed := "AI analyzer error."
  const PlagiarismFinished := "Plagiarism checker finished successfully."

  /** What one detector call comes to. */
  datatype WriterReply =
    | HttpFailure                                    // `httpx.HTTPError`, including a non-2xx status
    | Unreadable                                     // the body is not a JSON object
    | Crash(msg: string)                             // any other exception: it aborts the job
    | Verdict(aiClass: Option<string>, score: Option<real>)

  /** `text is None or text.strip() == ""`. */
  predicate Blank(text: Option<string>) {
    text.None? || Text.Trim(text.value) == ""
  }

  /** A string strips to nothing exactly when it is all whitespace. */
  lemma BlankIffAllSpace(t: string)
    ensures Text.Trim(t) == "" <==> forall k :: 0 <= k < |t| ==> Text.IsSpace(t[k])
  {
    var s := Text.TrimStart(t);
    if s != "" {
      assert !Text.IsSpace(s[0]);
      assert !Text.IsSpace(t[|t| - |s|]);
    } else {
      assert Text.TrimEnd(s) == "";
    }
  }

  function SlotOf<T>(o: Option<T>): (r: Slot<T>)
    ensures o.None? <==> r == Null
  {
    match o
    case None => Null
    case Some(v) => Val(v)
  }

  /** The loop body for one article. */
  function Annotate(a: Article, writer: string -> WriterReply): (r: Result<Article>)
    ensures Blank(a.text) ==> r == Success(a)
    ensures r.Failure? <==> !Blank(a.text) && writer(a.text.value).Crash?
    ensures r.Success? ==> r.value == a.(aiLabel := r.value.aiLabel, aiScore := r.value.aiScore)
    ensures r.Success? && r.value != a ==> !Blank(a.text) && writer(a.text.value).Verdict?
    ensures !Blank(a.text) && writer(a.text.value).Verdict? ==>
      r == Success(a.(aiLabel := SlotOf(writer(a.text.value).aiClass), aiScore := SlotOf(writer(a.text.value).score)))
  {
    if Blank(a.text) then Success(a)
    else
      match writer(a.text.value)
      case HttpFailure => Success(a)
      case Unreadable => Success(a)
      case Crash(msg) => Failure(msg)
      case Verdict(cls, score) => Success(a.(aiLabel := SlotOf(cls), aiScore := SlotOf(score)))
  }

  /** The loop over the results list: a failed or unreadable call leaves its
      article as it was and the loop goes on; only a crash stops it. */
  function AnnotateAll(arts: seq<Article>, writer: string -> WriterReply): (r: Result<seq<Article>>)
    ensures r.Success? <==> forall i :: 0 <= i < |arts| ==> Annotate(arts[i], writer).Success?
    ensures r.Success? ==> |r.value| == |arts|
    ensures r.Success? ==> forall i :: 0 <= i < |arts| ==> Success(r.value[i]) == Annotate(arts[i], writer)
    decreases |arts|
  {
    if |arts| == 0 then Success([])
    else
      var first :- Annotate(arts[0], writer);
      var rest :- AnnotateAll(arts[1..], writer);
      Success([first] + rest)
  }

  /** `process_job` given the stored `job_data` (`None` when the key is
      missing). `Success(Some(t))` writes `t` back, `Success(None)` returns
      without writing, `Failure` is an exception that reaches
      `handle_message`. */
  function ProcessJob(raw: Option<string>, codec: Codec, writer: string -> WriterReply): (r: Result<Option<string>>)
    ensures raw.None? ==> r == Success(None)
    ensures raw.Some? && codec.decode(raw.value).NotJson? ==> r == Success(None)
    ensures raw.Some? && codec.decode(raw.value).NotAnObject? ==> r.Failure?
    ensures raw.Some? && codec.decode(raw.value).Doc? && codec.decode(raw.value).doc.results.NotAList? ==> r == Success(None)
    ensures r.Success? && r.value.Some? ==> raw.Some? && codec.decode(raw.value).Doc?
    ensures raw.Some? && codec.decode(raw.value).Doc? && codec.decode(raw.value).doc.results.NoResults? ==>
      r == Success(Some(codec.encode(codec.decode(raw.value).doc)))
    ensures raw.Some? && codec.decode(raw.value).Doc? && codec.decode(raw.value).doc.results.Articles? ==>
      var doc := codec.decode(raw.value).doc;
      var annotated := AnnotateAll(doc.results.items, writer);
      (r.Success? <==> annotated.Success?)
      && (r.Success? ==> r.value == Some(codec.encode(doc.(results := Articles(annotated.value)))))
  {
    match raw
    case None => Success(None)
    case Some(text) =>
      match codec.decode(text)
      case NotJson => Success(None)
      case NotAnObject => Failure("AttributeError: 'get'")
      case Doc(doc) =>
        match doc.results
        case NotAList => Success(None)
        case NoResults => Success(Some(codec.encode(doc)))
        case Articles(items) =>
          var annotated :- AnnotateAll(items, writer);
          Success(Some(codec.encode(doc.(results := Articles(annotated)))))
  }

  /** `handle_message` against the store contents `st`. */
  function HandleMessage(payload: Payload, st: JobStore.Store, codec: Codec, writer: string -> WriterReply): (r: seq<Effects.Effect>)
    ensures !Truthy(payload.jobId) ==> r == []
    ensures Truthy(payload.jobId) ==> |r| >= 2 && r[0] == Effects.Write(payload.jobId.value, StatusField, Started)
  {
    if !Truthy(payload.jobId) then []
    else
      var j := payload.jobId.value;
      var started := [Effects.Write(j, StatusField, Started)];
      match ProcessJob(JobStore.GetField(st, j, JobDataField), codec, writer)
      case Failure(_) => started + [Effects.Write(j, StatusField, Failed)]
      case Success(out) =>
        var save := if out.Some? then [Effects.Write(j, JobDataField, out.value)] else [];
        started + save + [Effects.Write(j, StatusField, Finished)] + [Effects.Write(j, PlagiarismStatusField, PlagiarismFinished)]
  }

  /** The status labels: "started" and then "finished successfully" (with
      the plagiarism status forced to "finished successfully" as well), or
      "started" and then "error" when the job raised; `job_data` is written
      at most once, only on success, and only from a readable document with
      list-valued (or missing) results. */
  lemma HandleMessageStatuses(payload: Payload, st: JobStore.Store, codec: Codec, writer: string -> WriterReply)
    requires Truthy(payload.jobId)
    ensures var r := HandleMessage(payload, st, codec, writer);
      var j := payload.jobId.value;
      var out := ProcessJob(JobStore.GetField(st, j, JobDataField), codec, writer);
      Effects.WritesOnly(r, j, {StatusField, JobDataField, PlagiarismStatusField})
      && Effects.Published(r) == []
      && (out.Success? ==> (Effects.Written(r, j, StatusField) == [Started, Finished]
                            && Effects.Written(r, j, PlagiarismStatusField) == [PlagiarismFinished]))
      && (out.Failure? ==> (Effects.Written(r, j, StatusField) == [Started, Failed]
                            && Effects.Written(r, j, PlagiarismStatusField) == []))
      && (out.Success? && out.value.Some? ==> Effects.Written(r, j, JobDataField) == [out.value.value])
      && (out.Failure? || out.value.None? ==> Effects.Written(r, j, JobDataField) == [])
  {
    var j := payload.jobId.value;
    match ProcessJob(JobStore.GetField(st, j, JobDataField), codec, writer)
    case Failure(_) => FailedTrail(j);
    case Success(out) => FinishedTrail(j, out);
  }

  /** "started" then "error", nothing else. */
  lemma FailedTrail(j: string)
    ensures var r := [Effects.Write(j, StatusField, Started)] + [Effects.Write(j, StatusField, Failed)];
      Effects.WritesOnly(r, j, {StatusField, JobDataField, PlagiarismStatusField})
      && Effects.Published(r) == []
      && Effects.Written(r, j, StatusField) == [Started, Failed]
      && Effects.Written(r, j, PlagiarismStatusField) == [] && Effects.Written(r, j, JobDataField) == []
  {
    var w0 := Effects.Write(j, StatusField, Started);
    var w1 := Effects.Write(j, StatusField, Failed);
    assert [] + [w0] == [w0];
    Effects.Snoc([], w0, j, StatusField);
    Effects.Snoc([], w0, j, JobDataField);
    Effects.Snoc([], w0, j, PlagiarismStatusField);
    Effects.Snoc([w0], w1, j, StatusField);
    Effects.Snoc([w0], w1, j, JobDataField);
    Effects.Snoc([w0], w1, j, PlagiarismStatusField);
  }

  /** "started", the saved document if any, "finished successfully" and the
      forced plagiarism status. */
  lemma FinishedTrail(j: string, out: Option<string>)
    ensures var save := if out.Some? then [Effects.Write(j, JobDataField, out.value)] else [];
      var r := [Effects.Write(j, StatusField, Started)] + save + [Effects.Write(j, StatusField, Finished)]
        + [Effects.Write(j, PlagiarismStatusField, PlagiarismFinished)];
      Effects.WritesOnly(r, j, {StatusField, JobDataField, PlagiarismStatusField})
      && Effects.Published(r) == []
      && Effects.Written(r, j, StatusField) == [Started, Finished]
      && Effects.Written(r, j, PlagiarismStatusField) == [PlagiarismFinished]
      && Effects.Written(r, j, JobDataField) == (if out.Some? then [out.value] else [])
  {
    var w0 := Effects.Write(j, StatusField, Started);
    if out.Some? {
      var w1 := Effects.Write(j, JobDataField, out.value);
      assert [w0] + [w1] == [w0, w1];
      SavedHead(j, out.value);
      FinishedTail(j, [w0, w1]);
    } else {
      assert [w0] + [] == [w0];
      StartedHead(j);
      FinishedTail(j, [w0]);
    }
  }

  lemma StartedHead(j: string)
    ensures var r := [Effects.Write(j, StatusField, Started)];
      Effects.WritesOnly(r, j, {StatusField, JobDataField, PlagiarismStatusField})
      && Effects.Published(r) == [] && Effects.Written(r, j, StatusField) == [Started]
      && Effects.Written(r, j, PlagiarismStatusField) == [] && Effects.Written(r, j, JobDataField) == []
  {
    var w0 := Effects.Write(j, StatusField, Started);
    Effects.WrittenOne(w0, j, StatusField);
    Effects.WrittenOne(w0, j, JobDataField);
    Effects.WrittenOne(w0, j, PlagiarismStatusField);
    Effects.PublishedOne(w0);
  }

  lemma SavedHead(j: string, data: string)
    ensures var r := [Effects.Write(j, StatusField, Started), Effects.Write(j, JobDataField, data)];
      Effects.WritesOnly(r, j, {StatusField, JobDataField, PlagiarismStatusField})
      && Effects.Published(r) == [] && Effects.Written(r, j, StatusField) == [Started]
      && Effects.Written(r, j, PlagiarismStatusField) == [] && Effects.Written(r, j, JobDataField) == [data]
  {
    var w0 := Effects.Write(j, StatusField, Started);
    var w1 := Effects.Write(j, JobDataField, data);
    StartedHead(j);
    assert [w0] + [w1] == [w0, w1];
    Effects.Snoc([w0], w1, j, StatusField);
    Effects.Snoc([w0], w1, j, JobDataField);
    Effects.Snoc([w0], w1, j, PlagiarismStatusField);
  }

  /** Appending the two success labels to a head that wrote "started". */
  lemma FinishedTail(j: string, head: seq<Effects.Effect>)
    requires Effects.WritesOnly(head, j, {StatusField, JobDataField, PlagiarismStatusField})
    requires Effects.Published(head) == [] && Effects.Written(head, j, StatusField) == [Started]
    requires Effects.Written(head, j, PlagiarismStatusField) == []
    ensures var r := head + [Effects.Write(j, StatusField, Finished)] + [Effects.Write(j, PlagiarismStatusField, PlagiarismFinished)];
      Effects.WritesOnly(r, j, {StatusField, JobDataField, PlagiarismStatusField})
      && Effects.Published(r) == []
      && Effects.Written(r, j, StatusField) == [Started, Finished]
      && Effects.Written(r, j, PlagiarismStatusField) == [PlagiarismFinished]
      && Effects.Written(r, j, JobDataField) == Effects.Written(head, j, JobDataField)
  {
    var w2 := Effects.Write(j, StatusField, Finished);
    var w3 := Effects.Write(j, PlagiarismStatusField, PlagiarismFinished);
    var fs := {StatusField, JobDataField, PlagiarismStatusField};
    Effects.Snoc(head, w2, j, StatusField);
    Effects.Snoc(head, w2, j, JobDataField);
    Effects.Snoc(head, w2, j, PlagiarismStatusField);
    Effects.Snoc(head + [w2], w3, j, StatusField);
    Effects.Snoc(head + [w2], w3, j, JobDataField);
    Effects.Snoc(head + [w2], w3, j, PlagiarismStatusField);
    Effects.WritesOnlyAppend(head, [w2], j, fs);
    Effects.WritesOnlyAppend(head + [w2], [w3], j, fs);
  }

  /** After the analyzer ran on a readable document, the stored `job_data`
      decodes to the same document whose results list has kept its length
      and order, each article differing from its input at most in
      `ai_analyzer_label` and `ai_analyzer_score`, and carrying exactly the
      annotation the detector's reply for it gives. */
  lemma StoredResultReadsBack(payload: Payload, st: JobStore.Store, codec: Codec, writer: string -> WriterReply)
    requires RoundTrips(codec)
    requires Truthy(payload.jobId) && ':' !in payload.jobId.value
    requires var raw := JobStore.GetField(st, payload.jobId.value, JobDataField);
      raw.Some? && codec.decode(raw.value).Doc? && codec.decode(raw.value).doc.results.Articles?
    requires ProcessJob(JobStore.GetField(st, payload.jobId.value, JobDataField), codec, writer).Success?
    ensures var j := payload.jobId.value;
      var before := codec.decode(JobStore.GetField(st, j, JobDataField).value).doc;
      var after := JobStore.GetField(Effects.Apply(st, HandleMessage(payload, st, codec, writer)), j, JobDataField);
      after.Some? && codec.decode(after.value).Doc?
      && var doc := codec.decode(after.value).doc;
      doc.jobId == before.jobId && doc.author == before.author && doc.results.Articles?
      && |doc.results.items| == |before.results.items|
      && (forall i :: 0 <= i < |doc.results.items| ==>
           doc.results.items[i] == before.results.items[i].(aiLabel := doc.results.items[i].aiLabel, aiScore := doc.results.items[i].aiScore))
      && (forall i :: 0 <= i < |doc.results.items| ==>
           Success(doc.results.items[i]) == Annotate(before.results.items[i], writer))
  {
    var j := payload.jobId.value;
    var r := HandleMessage(payload, st, codec, writer);
    HandleMessageStatuses(payload, st, codec, writer);
    assert Effects.ColonFree(r);
    Effects.ApplyReadsLastWrite(st, r, j, JobDataField);
  }
}

=== FILE: analysis_job.dfy ===
/** The frontend's job hook (`apps/frontend/src/hooks/useAnalysisJob.ts`):
    the classification of the gateway's status text into a progress stage,
    one polling round and `reset`. The three HTTP requests of a polling
    round are parameters (their answer or the error they throw); React's
    state is the `View` record and the 2.5-second interval is left out. */
module AnalysisJob {
  import opened Wrappers
  import opened Records
  import Text
  import Seqs
  import TextExtractorService
  import AiAnalyzer
  import PlagiarismChecker

  datatype Stage = Idle | Scraping | Resolving | Extracting | Analyzing | Completed | Error

  /** What `getStageFromStatus` returns. */
  datatype Mapped = Mapped(stage: Stage, progress: int)

  // ------------------------------------------------- status classification

  /** `getStageFromStatus(status)` as the source spells it: substring tests
      on the lower-cased status, first match wins. */
  function StageFromStatus(status: string): (r: Mapped)
    ensures r.progress in {0, 5, 10, 25, 50, 75}
    ensures r.stage != Idle && r.stage != Completed
    ensures r.stage == Error <==> r.progress == 0
    ensures r.stage == Error ==> Text.Contains(Text.Lower(status), "error")
    ensures Text.Contains(Text.Lower(status), "scraping started") ==> r == Mapped(Scraping, 10)
  {
    var low := Text.Lower(status);
    if Text.Contains(low, "scraping started") then Mapped(Scraping, 10)
    else if Text.Contains(low, "scraper completed") || Text.Contains(low, "dois resolving") then Mapped(Resolving, 25)
    else if Text.Contains(low, "dois resolved") || Text.Contains(low, "extract service started") then Mapped(Extracting, 50)
    else if Text.Contains(low, "extract service finished successfully") then Mapped(Analyzing, 75)
    else if Text.Contains(low, "error") then Mapped(Error, 0)
    else Mapped(Scraping, 5)
  }

  /** The classification as written, and with the text extractor's actual
      completion label ("Extract service successfully finished.") accepted
      as well. */
  datatype Version = AsWritten | Corrected

  /** One classification rule: any of its phrases in the lower-cased status
      selects its result. */
  datatype Rule = Rule(phrases: seq<string>, result: Mapped)

  predicate Fires(rule: Rule, low: string) {
    exists k :: 0 <= k < |rule.phrases| && Text.Contains(low, rule.phrases[k])
  }

  function RuleTest(low: string): Rule -> bool {
    (rule: Rule) => Fires(rule, low)
  }

  const FinishedPhrase := "Extract service finished successfully"
  const ExtractorPhrase := "Extract service successfully finished"

  /** The phrases that mark the end of text extraction. */
  function FinishedPhrases(ver: Version): (r: seq<string>)
    ensures FinishedPhrase in r && (ver == Corrected <==> ExtractorPhrase in r)
  {
    match ver
    case AsWritten => [FinishedPhrase]
    case Corrected => [FinishedPhrase, ExtractorPhrase]
  }

  /** The rule table, in the order the rules are tried. */
  function Rules(ver: Version): (r: seq<Rule>)
    ensures |r| == 5
    ensures forall k :: 0 <= k < |r| ==> r[k].result.stage != Idle && r[k].result.stage != Completed
    ensures forall k :: 0 <= k < 4 ==> r[k].result.stage != Error
  {
    [ Rule(["scraping started"], Mapped(Scraping, 10)),
      Rule(["scraper completed", "dois resolving"], Mapped(Resolving, 25)),
      Rule(["dois resolved", "extract service started"], Mapped(Extracting, 50)),
      Rule(seq(|FinishedPhrases(ver)|, i requires 0 <= i < |FinishedPhrases(ver)| => Text.Lower(FinishedPhrases(ver)[i])),
           Mapped(Analyzing, 75)),
      Rule(["error"], Mapped(Error, 0)) ]
  }

  const Fallback := Mapped(Scraping, 5)

  /** The result of the first rule that fires, or the fallback. */
  function StageOf(ver: Version, status: string): (r: Mapped)
    ensures r.stage != Idle && r.stage != Completed
    ensures r.stage == Error ==> Fires(Rules(ver)[4], Text.Lower(status))
    ensures Fires(Rules(ver)[3], Text.Lower(status)) ==> r.stage != Error
  {
    var rules := Rules(ver);
    match Seqs.FirstWhere(rules, RuleTest(Text.Lower(status)))
    case None =>
      Fallback
    case Some(k) =>
      assert RuleTest(Text.Lower(status))(rules[k]);
      if k == 4 then
        assert !RuleTest(Text.Lower(status))(rules[3]);
        rules[k].result
      else
        rules[k].result
  }

  /** The spelled-out classification is the as-written rule table. */
  lemma StageFromStatusIsRuleTable(status: string)
    ensures StageFromStatus(status) == StageOf(AsWritten, status)
  {
    var low := Text.Lower(status);
    var rules := Rules(AsWritten);
    LowerFinishedPhrase();
    assert rules[3].phrases == ["extract service finished successfully"];
    FiresOne(rules[0], low);
    FiresTwo(rules[1], low);
    FiresTwo(rules[2], low);
    FiresOne(rules[3], low);
    FiresOne(rules[4], low);
  }

  lemma FiresOne(rule: Rule, low: string)
    requires |rule.phrases| == 1
    ensures RuleTest(low)(rule) <==> Text.Contains(low, rule.phrases[0])
  {
  }

  lemma FiresTwo(rule: Rule, low: string)
    requires |rule.phrases| == 2
    ensures RuleTest(low)(rule) <==> Text.Contains(low, rule.phrases[0]) || Text.Contains(low, rule.phrases[1])
  {
  }

  // The labels are lower-cased a half at a time: each half is short, and
  // the common first half is shared by all three labels.

  const ServiceWords := "Extract service "

  lemma LowerServiceWords()
    ensures Text.Lower(ServiceWords) == "extract service "
  {
  }

  lemma LowerFinishedTail()
    ensures Text.Lower("finished successfully") == "finished successfully"
  {
  }

  lemma LowerSuccessTail()
    ensures Text.Lower("successfully finished") == "successfully finished"
  {
  }

  lemma LowerSuccessDotTail()
    ensures Text.Lower("successfully finished.") == "successfully finished."
  {
  }

  lemma FinishedPhraseHalves()
    ensures FinishedPhrase == ServiceWords + "finished successfully"
  {
  }

  lemma FinishedPhraseLowHalves()
    ensures "extract service " + "finished successfully" == "extract service finished successfully"
  {
  }

  lemma ExtractorPhraseHalves()
    ensures ExtractorPhrase == ServiceWords + "successfully finished"
  {
  }

  lemma ExtractorPhraseLowHalves()
    ensures "extract service " + "successfully finished" == "extract service successfully finished"
  {
  }

  lemma ExtractorLabelHalves()
    ensures TextExtractorService.Finished == ServiceWords + "successfully finished."
  {
  }

  lemma ExtractorLabelLowHalves()
    ensures "extract service " + "successfully finished." == "extract service successfully finished."
  {
  }

  lemma LowerFinishedPhrase()
    ensures Text.Lower(FinishedPhrase) == "extract service finished successfully"
  {
    FinishedPhraseHalves();
    Text.LowerAppend(ServiceWords, "finished successfully");
    LowerServiceWords();
    LowerFinishedTail();
    FinishedPhraseLowHalves();
  }

  lemma LowerExtractorPhrase()
    ensures Text.Lower(ExtractorPhrase) == "extract service successfully finished"
  {
    ExtractorPhraseHalves();
    Text.LowerAppend(ServiceWords, "successfully finished");
    LowerServiceWords();
    LowerSuccessTail();
    ExtractorPhraseLowHalves();
  }

  /** The case-sensitive test that starts the final checks of a polling round. */
  predicate Finishes(ver: Version, status: string) {
    exists k :: 0 <= k < |FinishedPhrases(ver)| && Text.Contains(status, FinishedPhrases(ver)[k])
  }

  /** A status that passes the case-sensitive test also selects the
      "analyzing" rule, so it is never classified as an error. */
  lemma FinishesIsNotError(ver: Version, status: string)
    requires Finishes(ver, status)
    ensures StageOf(ver, status).stage != Error
  {
    var k :| 0 <= k < |FinishedPhrases(ver)| && Text.Contains(status, FinishedPhrases(ver)[k]);
    ContainsLower(status, FinishedPhrases(ver)[k]);
    assert Rules(ver)[3].phrases[k] == Text.Lower(FinishedPhrases(ver)[k]);
  }

  /** Lower-casing keeps every occurrence. */
  lemma ContainsLower(s: string, p: string)
    requires Text.Contains(s, p)
    ensures Text.Contains(Text.Lower(s), Text.Lower(p))
  {
    var i :| 0 <= i <= |s| - |p| && Text.MatchesAt(s, p, i);
    assert Text.Lower(s)[i..i + |p|] == Text.Lower(p) by {
      forall j | 0 <= j < |p| ensures Text.Lower(s)[i + j] == Text.Lower(p)[j] {
        assert s[i + j] == p[j];
      }
    }
    Text.ContainsAt(Text.Lower(s), Text.Lower(p), i);
  }

  // ------------------------------------------------------------ polling

  /** The hook's state. */
  datatype View = View(jobId: Option<string>, stage: Stage, progress: int, message: string,
                       jobData: Option<JobDoc>, error: Option<string>, loading: bool)

  /** The interval keeps polling while this holds. */
  predicate Polling(v: View) {
    v.jobId.Some? && v.stage != Completed && v.stage != Error
  }

  const CompletedMessage := "Analysis completed successfully"
  const FinalizingMessage := "Finalizing analysis..."

  /** `pollStatus`: `status` is the gateway's status text, `subs` the AI and
      plagiarism statuses (asked for only after extraction finished) and
      `data` the job document (asked for only when both report success); a
      `Failure` is the error the request throws. Returns the new state and
      whether polling stops. */
  function Poll(ver: Version, v: View, status: Result<string>, subs: Result<(string, string)>, data: Result<JobDoc>): (r: (View, bool))
    ensures r.1 <==> r.0.stage == Error || r.0.stage == Completed
    ensures r.0.jobId == v.jobId && r.0.loading == v.loading
    ensures status.Failure? ==> r.0 == v.(stage := Error, error := Some(status.error))
    ensures r.0.stage == Completed <==>
      (status.Success? && Finishes(ver, status.value) && subs.Success?
       && Text.Contains(subs.value.0, "successfully") && Text.Contains(subs.value.1, "successfully")
       && data.Success?)
    ensures r.0.stage == Completed ==>
      r == (v.(stage := Completed, progress := 100, message := CompletedMessage, jobData := Some(data.value)), true)
    ensures status.Success? && !Finishes(ver, status.value) ==>
      r == (v.(stage := StageOf(ver, status.value).stage, progress := StageOf(ver, status.value).progress,
               message := status.value), StageOf(ver, status.value).stage == Error)
    ensures status.Success? && Finishes(ver, status.value) && subs.Success?
      && !(Text.Contains(subs.value.0, "successfully") && Text.Contains(subs.value.1, "successfully"))
      ==> r == (v.(stage := StageOf(ver, status.value).stage, progress := 85, message := FinalizingMessage), false)
    ensures status.Success? && Finishes(ver, status.value) && subs.Failure? ==>
      r == (v.(stage := Error, progress := StageOf(ver, status.value).progress, message := status.value,
               error := Some(subs.error)), true)
    ensures (status.Success? && Finishes(ver, status.value) && subs.Success?
             && Text.Contains(subs.value.0, "successfully") && Text.Contains(subs.value.1, "successfully")
             && data.Failure?) ==>
      r == (v.(stage := Error, progress := 100, message := CompletedMessage, error := Some(data.error)), true)
  {
    match status
    case Failure(e) =>
      (v.(stage := Error, error := Some(e)), true)
    case Success(st) =>
      var m := StageOf(ver, st);
      var v1 := v.(stage := m.stage, progress := m.progress, message := st);
      if !Finishes(ver, st) then (v1, m.stage == Error)
      else
        FinishesIsNotError(ver, st);
        match subs
        case Failure(e) =>
          (v1.(stage := Error, error := Some(e)), true)
        case Success(pair) =>
          if Text.Contains(pair.0, "successfully") && Text.Contains(pair.1, "successfully") then
            var v2 := v1.(stage := Completed, progress := 100, message := CompletedMessage);
            match data
            case Failure(e) => (v2.(stage := Error, error := Some(e)), true)
            case Success(d) => (v2.(jobData := Some(d)), true)
          else
            (v1.(progress := 85, message := FinalizingMessage), false)
  }

  /** After a round the interval keeps running exactly when the round did
      not ask to stop. */
  lemma StopIffPollingEnds(ver: Version, v: View, status: Result<string>, subs: Result<(string, string)>, data: Result<JobDoc>)
    requires v.jobId.Some?
    ensures var r := Poll(ver, v, status, subs, data);
      r.1 <==> !Polling(r.0)
  {
  }

  /** A successful status request leaves the progress at one of the values
      the page knows. */
  lemma PollProgress(ver: Version, v: View, status: Result<string>, subs: Result<(string, string)>, data: Result<JobDoc>)
    requires status.Success?
    ensures Poll(ver, v, status, subs, data).0.progress in {0, 5, 10, 25, 50, 75, 85, 100}
  {
    var m := StageOf(ver, status.value);
    var k := Seqs.FirstWhere(Rules(ver), RuleTest(Text.Lower(status.value)));
    assert m.progress in {0, 5, 10, 25, 50, 75};
  }

  /** `reset`. */
  function Reset(): (v: View)
    ensures !Polling(v) && v.stage == Idle && v.progress == 0
    ensures v.jobId == None && v.jobData == None && v.error == None && v.message == "" && !v.loading
  {
    View(None, Idle, 0, "", None, None, false)
  }

  // ------------------------------------------------------------ the stall

  /** The lower-cased completion label of the text extractor. */
  lemma ExtractorLabelLowered()
    ensures Text.Lower(TextExtractorService.Finished) == "extract service successfully finished."
  {
    ExtractorLabelHalves();
    Text.LowerAppend(ServiceWords, "successfully finished.");
    LowerServiceWords();
    LowerSuccessDotTail();
    ExtractorLabelLowHalves();
  }

  /** None of the as-written phrases occurs in the extractor's label. */
  lemma ExtractorLabelMatchesNoRule()
    ensures var low := Text.Lower(TextExtractorService.Finished);
      forall k :: 0 <= k < 5 ==> !Fires(Rules(AsWritten)[k], low)
  {
    var low := Text.Lower(TextExtractorService.Finished);
    var rules := Rules(AsWritten);
    ExtractorLabelLowered();
    LowerFinishedPhrase();
    assert rules[3].phrases == ["extract service finished successfully"];
    NoScraperPhrase(low);
    NoExtractPhrase(low);
    FiresOne(rules[0], low);
    FiresTwo(rules[1], low);
    FiresTwo(rules[2], low);
    FiresOne(rules[3], low);
    FiresOne(rules[4], low);
  }

  lemma NoScraperPhrase(low: string)
    requires low == "extract service successfully finished."
    ensures !Text.Contains(low, "scraping started") && !Text.Contains(low, "scraper completed")
    ensures !Text.Contains(low, "dois resolving") && !Text.Contains(low, "dois resolved")
    ensures !Text.Contains(low, "error")
  {
    ExtractorLabelLowHalves();
    ServiceWordsLackGAndO();
    SuccessDotLacksGAndO();
    AbsentChar(low, "scraping started", 'g');
    AbsentChar(low, "scraper completed", 'o');
    AbsentChar(low, "dois resolving", 'o');
    AbsentChar(low, "dois resolved", 'o');
    AbsentChar(low, "error", 'o');
  }

  lemma ServiceWordsLackGAndO()
    ensures 'g' !in "extract service " && 'o' !in "extract service "
  {
  }

  lemma SuccessDotLacksGAndO()
    ensures 'g' !in "successfully finished." && 'o' !in "successfully finished."
  {
  }

  lemma NoExtractPhrase(low: string)
    requires low == "extract service successfully finished."
    ensures !Text.Contains(low, "extract service started")
    ensures !Text.Contains(low, "extract service finished successfully")
  {
    Text.NotContainsByAnchors(low, "extract service started", 0, 17);
    Text.NotContainsByAnchors(low, "extract service finished successfully", 0, 16);
  }

  /** A phrase with a character the text lacks does not occur in it. */
  lemma AbsentChar(s: string, p: string, c: char)
    requires c in p && c !in s
    ensures !Text.Contains(s, p)
  {
    var j :| 0 <= j < |p| && p[j] == c;
    forall i | 0 <= i <= |s| - |p| ensures !Text.MatchesAt(s, p, i) {
      assert s[i + j] in s;
    }
  }

  /** As written, a poll that reads the text extractor's completion label
      falls through every rule: the page shows "scraping" at 5%, never asks
      for the AI and plagiarism statuses, and keeps polling. */
  lemma ExtractorFinishStalls(v: View, subs: Result<(string, string)>, data: Result<JobDoc>)
    requires v.jobId.Some?
    ensures var r := Poll(AsWritten, v, Success(TextExtractorService.Finished), subs, data);
      r.0.stage == Scraping && r.0.progress == 5 && !r.1 && Polling(r.0)
  {
    var st := TextExtractorService.Finished;
    ExtractorLabelMatchesNoRule();
    Text.NotContainsByAnchors(st, FinishedPhrase, 0, 16);
    assert !Finishes(AsWritten, st);
    assert Seqs.FirstWhere(Rules(AsWritten), RuleTest(Text.Lower(st))).None? by {
      var low := Text.Lower(st);
      assert forall k :: 0 <= k < 5 ==> !RuleTest(low)(Rules(AsWritten)[k]);
    }
  }

  lemma LabelContains(s: string, p: string, i: nat)
    requires i + |p| <= |s| && s[i..i + |p|] == p
    ensures Text.Contains(s, p)
  {
    Text.ContainsAt(s, p, i);
  }

  // The success labels are also handled a part at a time.

  lemma ExtractorLabelHasPhrase()
    ensures Text.Contains(TextExtractorService.Finished, ExtractorPhrase)
  {
    ExtractorLabelEndsPhrase();
    Text.ContainsAt(ExtractorPhrase, ExtractorPhrase, 0);
    Text.ContainsLeft(ExtractorPhrase, ".", ExtractorPhrase);
  }

  lemma ExtractorLabelEndsPhrase()
    ensures TextExtractorService.Finished == ExtractorPhrase + "."
  {
  }

  lemma SuccessWithDot()
    ensures Text.Contains("successfully.", "successfully")
  {
    Text.ContainsAt("successfully.", "successfully", 0);
  }

  lemma AiLabelParts()
    ensures AiAnalyzer.Finished == "AI analyzer finished " + "successfully."
  {
  }

  lemma PlagiarismLabelParts()
    ensures PlagiarismChecker.Finished == "Plagiarism checker finished " + "successfully."
  {
  }

  lemma AiLabelSucceeds()
    ensures Text.Contains(AiAnalyzer.Finished, "successfully")
  {
    AiLabelParts();
    SuccessWithDot();
    Text.ContainsRight("AI analyzer finished ", "successfully.", "successfully");
  }

  lemma PlagiarismLabelSucceeds()
    ensures Text.Contains(PlagiarismChecker.Finished, "successfully")
  {
    PlagiarismLabelParts();
    SuccessWithDot();
    Text.ContainsRight("Plagiarism checker finished ", "successfully.", "successfully");
  }

  /** With the extractor's label accepted, the same round completes once
      the AI analyzer and the plagiarism checker have written their success
      labels: the page shows the results and stops polling. */
  lemma CorrectedPollCompletes(v: View, d: JobDoc)
    ensures var subs := Success((AiAnalyzer.Finished, PlagiarismChecker.Finished));
      var r := Poll(Corrected, v, Success(TextExtractorService.Finished), subs, Success(d));
      r.0.stage == Completed && r.0.progress == 100 && r.0.jobData == Some(d) && r.1
  {
    ExtractorLabelHasPhrase();
    assert FinishedPhrases(Corrected)[1] == ExtractorPhrase;
    AiLabelSucceeds();
    PlagiarismLabelSucceeds();
  }

  /** The corrected classification shows the extractor's label as the
      "analyzing" stage at 75%. */
  lemma CorrectedStageIsAnalyzing()
    ensures StageOf(Corrected, TextExtractorService.Finished) == Mapped(Analyzing, 75)
  {
    var low := Text.Lower(TextExtractorService.Finished);
    ExtractorLabelMatchesNoRule();
    ExtractorLabelLowered();
    LowerFinishedPhrase();
    LowerExtractorPhrase();
    var rules := Rules(Corrected);
    assert rules[3].phrases[1] == "extract service successfully finished";
    LabelContains(low, "extract service successfully finished", 0);
    assert RuleTest(low)(rules[3]);
    forall k | 0 <= k < 3 ensures !RuleTest(low)(rules[k]) {
      assert rules[k] == Rules(AsWritten)[k];
    }
  }
}

=== FILE: doi_resolver.dfy ===
/** The DOI resolver (`apps/doi-resolver/app/service.py`): for every
    scraped publication it asks Crossref for candidates, keeps the ones
    whose title is similar enough, takes the first of those with a
    similar enough author, and enriches the record with `doi`, `verified`
    and `open_access`. Crossref, Unpaywall and the fuzzy ratio
    (`rapidfuzz.fuzz.token_sort_ratio`) are parameters. */
module DoiResolver {
  import opened Wrappers
  import opened Records
  import Text
  import Effects
  import Seqs

  const ResolveQueue := "doi-resolve-requests"
  const TextExtractQueue := "text-extract-requests"

  /** `TITLE_SIM_THRESHOLD` and `AUTHOR_SIM_THRESHOLD` of the settings. */
  datatype Thresholds = Thresholds(title: real, author: real)
  const DefaultThresholds := Thresholds(60.0, 75.0)

  /** A fuzzy-match score in percent. */
  type Ratio = r: real | 0.0 <= r <= 100.0

  /** `fuzz.token_sort_ratio`, left uninterpreted. */
  type Similarity = (string, string) -> Ratio

  // ---------------------------------------------------------------- normalize

  predicate Kept(c: char) {
    Text.IsAlnum(c) || Text.IsSpace(c)
  }

  predicate NormalChar(c: char) {
    Text.IsLower(c) || Text.IsDigit(c) || Text.IsSpace(c)
  }

  /** The generator of `normalize`: the kept characters, lower-cased, in order. */
  function KeepLower(s: string): (r: string)
    ensures |r| <= |s|
    ensures forall c :: c in r ==> NormalChar(c)
    decreases |s|
  {
    if |s| == 0 then ""
    else (if Kept(s[0]) then [Text.LowerChar(s[0])] else []) + KeepLower(s[1..])
  }

  /** `normalize(text)`: alphanumerics and whitespace only, lower-cased,
      with surrounding whitespace stripped. */
  function Normalize(s: string): (r: string)
    ensures forall c :: c in r ==> NormalChar(c)
    ensures |r| > 0 ==> !Text.IsSpace(r[0]) && !Text.IsSpace(r[|r| - 1])
  {
    Text.Trim(KeepLower(s))
  }

  lemma {:induction false} KeepLowerNoop(s: string)
    requires forall c :: c in s ==> NormalChar(c)
    ensures KeepLower(s) == s
    decreases |s|
  {
    if |s| > 0 {
      assert s[0] in s;
      assert forall c :: c in s[1..] ==> c in s;
      KeepLowerNoop(s[1..]);
      assert s == [s[0]] + s[1..];
    }
  }

  /** Normalizing twice is normalizing once. */
  lemma NormalizeIdempotent(s: string)
    ensures Normalize(Normalize(s)) == Normalize(s)
  {
    var n := Normalize(s);
    KeepLowerNoop(n);
    assert KeepLower(n) == n;
    Text.TrimNoop(n);
    assert Text.Trim(n) == n;
  }

  lemma {:induction false} KeepLowerIgnoresCase(s: string)
    ensures KeepLower(Text.Lower(s)) == KeepLower(s)
    decreases |s|
  {
    if |s| > 0 {
      assert Text.Lower(s)[1..] == Text.Lower(s[1..]);
      KeepLowerIgnoresCase(s[1..]);
    }
  }

  /** Case never matters to `normalize`. */
  lemma NormalizeIgnoresCase(s: string)
    ensures Normalize(Text.Lower(s)) == Normalize(s)
  {
    KeepLowerIgnoresCase(s);
  }

  // ------------------------------------------------------------ candidates

  /** An author entry; a missing `given` or `family` reads as "". */
  datatype CrossrefAuthor = CrossrefAuthor(given: string, family: string)

  /** A Crossref work: its `title` list (`None` when the key is missing),
      its `author` list and its `DOI`. */
  datatype CrossrefItem = CrossrefItem(titles: Option<seq<string>>, authors: seq<CrossrefAuthor>, doi: Option<string>)

  function AuthorName(a: CrossrefAuthor): string {
    a.given + " " + a.family
  }

  /** `item.get("title", [""])[0]`: an empty title list raises `IndexError`. */
  function CandidateTitle(item: CrossrefItem): Result<string> {
    match item.titles
    case None => Success("")
    case Some(ts) => if |ts| == 0 then Failure("IndexError: list index out of range") else Success(ts[0])
  }

  /** The title score of every candidate, in order; the first empty title
      list aborts the whole lookup. */
  function TitleScores(titleNorm: string, items: seq<CrossrefItem>, sim: Similarity): (r: Result<seq<Ratio>>)
    ensures r.Success? <==> forall i :: 0 <= i < |items| ==> CandidateTitle(items[i]).Success?
    ensures r.Success? ==> |r.value| == |items|
    ensures r.Success? ==> forall i :: 0 <= i < |items| ==>
      r.value[i] == sim(titleNorm, Normalize(CandidateTitle(items[i]).value))
    decreases |items|
  {
    if |items| == 0 then Success([])
    else
      var t :- CandidateTitle(items[0]);
      var rest :- TitleScores(titleNorm, items[1..], sim);
      Success([sim(titleNorm, Normalize(t))] + rest)
  }

  /** How well one Crossref author matches the searched author. */
  function AuthorScore(authorNorm: string, a: CrossrefAuthor, sim: Similarity): Ratio {
    sim(authorNorm, Normalize(AuthorName(a)))
  }

  /** The best author score of a candidate: the maximum over its authors,
      starting from 0.0. */
  function BestAuthorScore(authorNorm: string, authors: seq<CrossrefAuthor>, sim: Similarity): (r: Ratio)
    ensures forall k :: 0 <= k < |authors| ==> AuthorScore(authorNorm, authors[k], sim) <= r
    ensures |authors| == 0 ==> r == 0.0
    decreases |authors|
  {
    if |authors| == 0 then 0.0
    else
      var s := AuthorScore(authorNorm, authors[0], sim);
      var rest := BestAuthorScore(authorNorm, authors[1..], sim);
      assert forall k :: 0 <= k < |authors| - 1 ==> authors[1..][k] == authors[k + 1];
      if s >= rest then s else rest
  }

  /** The best score is one of the authors' scores, or the starting 0.0. */
  lemma {:induction false} BestAuthorScoreAttained(authorNorm: string, authors: seq<CrossrefAuthor>, sim: Similarity)
    ensures var r := BestAuthorScore(authorNorm, authors, sim);
      r == 0.0 || exists k :: 0 <= k < |authors| && r == AuthorScore(authorNorm, authors[k], sim)
    decreases |authors|
  {
    if |authors| > 0 {
      var rest := BestAuthorScore(authorNorm, authors[1..], sim);
      BestAuthorScoreAttained(authorNorm, authors[1..], sim);
      if rest != 0.0 && BestAuthorScore(authorNorm, authors, sim) == rest {
        var k :| 0 <= k < |authors[1..]| && rest == AuthorScore(authorNorm, authors[1..][k], sim);
        assert authors[1..][k] == authors[k + 1];
      }
    }
  }

  datatype Resolution = Resolution(doi: Option<string>, verified: bool)

  // ---------------------------------------------- the selection, restated

  predicate TitlePasses(title: string, item: CrossrefItem, sim: Similarity, th: Thresholds) {
    CandidateTitle(item).Success?
    && sim(Normalize(title), Normalize(CandidateTitle(item).value)) >= th.title
  }

  predicate AuthorPasses(author: string, item: CrossrefItem, sim: Similarity, th: Thresholds) {
    BestAuthorScore(Normalize(author), item.authors, sim) >= th.author
  }

  predicate Accepts(title: string, author: string, item: CrossrefItem, sim: Similarity, th: Thresholds) {
    TitlePasses(title, item, sim, th) && AuthorPasses(author, item, sim, th)
  }

  function TitleTest(title: string, sim: Similarity, th: Thresholds): CrossrefItem -> bool {
    item => TitlePasses(title, item, sim, th)
  }

  function AuthorTest(author: string, sim: Similarity, th: Thresholds): CrossrefItem -> bool {
    item => AuthorPasses(author, item, sim, th)
  }

  function AcceptTest(title: string, author: string, sim: Similarity, th: Thresholds): CrossrefItem -> bool {
    item => Accepts(title, author, item, sim, th)
  }

  /** `resolve_doi_for_article` once Crossref has answered with `items`:
      every candidate's title is scored first (an empty title list raises),
      then the title matches are searched in order for an author match.
      `author` is `None` when the message carried `"author": null`; then
      `normalize(author)` raises as soon as some title matches. */
  function ResolveDoi(title: string, author: Option<string>, items: seq<CrossrefItem>, sim: Similarity, th: Thresholds): (r: Result<Resolution>)
    ensures (exists i :: 0 <= i < |items| && CandidateTitle(items[i]).Failure?) ==> r.Failure?
    ensures author.Some? && r.Failure? ==> exists i :: 0 <= i < |items| && CandidateTitle(items[i]).Failure?
    ensures r.Success? && !r.value.verified ==> r.value.doi == None
    ensures author.None? && r.Success? ==> r.value == Resolution(None, false)
    ensures |items| == 0 ==> r == Success(Resolution(None, false))
  {
    if |items| == 0 then Success(Resolution(None, false))
    else
      var _ :- TitleScores(Normalize(title), items, sim);
      var passed := Seqs.Filter(items, TitleTest(title, sim, th));
      if |passed| == 0 then Success(Resolution(None, false))
      else if author.None? then Failure(NullAuthorError)
      else
        match Seqs.At(passed, Seqs.FirstWhere(passed, AuthorTest(author.value, sim, th)))
        case Some(item) => Success(Resolution(item.doi, true))
        case None => Success(Resolution(None, false))
  }

  /** What `normalize(None)` raises. */
  const NullAuthorError := "TypeError: 'NoneType' object is not iterable"

  /** With a `null` author the lookup raises exactly when some candidate's
      title reaches the threshold (every title being readable); otherwise
      it answers `(None, False)`. */
  lemma NullAuthorRaises(title: string, items: seq<CrossrefItem>, sim: Similarity, th: Thresholds)
    requires forall i :: 0 <= i < |items| ==> CandidateTitle(items[i]).Success?
    ensures var r := ResolveDoi(title, None, items, sim, th);
      (r.Failure? <==> exists i :: 0 <= i < |items| && TitlePasses(title, items[i], sim, th))
      && (r.Failure? ==> r.error == NullAuthorError)
      && (r.Success? ==> r.value == Resolution(None, false))
  {
    var tp := TitleTest(title, sim, th);
    Seqs.FilterEmpty(items, tp);
    if |items| > 0 {
      assert TitleScores(Normalize(title), items, sim).Success?;
    }
    if exists i :: 0 <= i < |items| && TitlePasses(title, items[i], sim, th) {
      var i :| 0 <= i < |items| && TitlePasses(title, items[i], sim, th);
      assert tp(items[i]);
    } else {
      forall k | 0 <= k < |items| ensures !tp(items[k]) {
        assert !TitlePasses(title, items[k], sim, th);
      }
    }
  }

  /** The index-order reference search: the first candidate accepted by
      both tests. */
  function FirstAccepted(title: string, author: string, items: seq<CrossrefItem>, sim: Similarity, th: Thresholds): Option<nat> {
    Seqs.FirstWhere(items, AcceptTest(title, author, sim, th))
  }

  /** With every title readable, the lookup returns the candidate the
      index-order search for both tests finds. */
  lemma ResolveDoiSearches(title: string, author: string, items: seq<CrossrefItem>, sim: Similarity, th: Thresholds)
    requires forall i :: 0 <= i < |items| ==> CandidateTitle(items[i]).Success?
    ensures var hit := Seqs.At(items, FirstAccepted(title, author, items, sim, th));
      ResolveDoi(title, Some(author), items, sim, th)
        == if hit.Some? then Success(Resolution(hit.value.doi, true)) else Success(Resolution(None, false))
  {
    var tp := TitleTest(title, sim, th);
    var ap := AuthorTest(author, sim, th);
    var both := AcceptTest(title, author, sim, th);
    assert forall x :: both(x) == (tp(x) && ap(x));
    Seqs.FilterThenFirst(items, tp, ap, both);
    if |items| > 0 {
      assert TitleScores(Normalize(title), items, sim).Success?;
      var passed := Seqs.Filter(items, tp);
      if |passed| == 0 {
        assert Seqs.At(passed, Seqs.FirstWhere(passed, ap)).None?;
      }
    }
  }

  /** The index-order search finds the first candidate that both tests
      accept, or reports that none does. */
  lemma FirstAcceptedIsFirst(title: string, author: string, items: seq<CrossrefItem>, sim: Similarity, th: Thresholds)
    ensures var first := FirstAccepted(title, author, items, sim, th);
      (first.Some? ==> first.value < |items| && Accepts(title, author, items[first.value], sim, th))
      && (first.Some? ==> forall j :: 0 <= j < first.value ==> !Accepts(title, author, items[j], sim, th))
      && (first.None? ==> forall j :: 0 <= j < |items| ==> !Accepts(title, author, items[j], sim, th))
  {
    var both := AcceptTest(title, author, sim, th);
    assert forall x :: both(x) == Accepts(title, author, x, sim, th);
  }

  /** The candidate chosen is the first one, in Crossref's order, whose title
      and best author both reach their thresholds; a later candidate is
      chosen when every earlier title match fails the author test, and
      without any such candidate the answer is `(None, False)`. */
  lemma ResolveDoiIsFirstAccepted(title: string, author: string, items: seq<CrossrefItem>, sim: Similarity, th: Thresholds)
    requires forall i :: 0 <= i < |items| ==> CandidateTitle(items[i]).Success?
    ensures var r := ResolveDoi(title, Some(author), items, sim, th);
      var first := FirstAccepted(title, author, items, sim, th);
      r.Success?
      && (r.value.verified <==> first.Some?)
      && (first.Some? ==> r.value.doi == items[first.value].doi)
      && (first.Some? ==> Accepts(title, author, items[first.value], sim, th))
      && (first.Some? ==> forall j :: 0 <= j < first.value ==> !Accepts(title, author, items[j], sim, th))
      && (first.None? ==> forall j :: 0 <= j < |items| ==> !Accepts(title, author, items[j], sim, th))
  {
    ResolveDoiSearches(title, author, items, sim, th);
    FirstAcceptedIsFirst(title, author, items, sim, th);
  }

  /** Without a candidate whose title reaches the threshold the author is
      never looked at: the answer is `(None, False)` whoever the author is,
      even a `null` one. */
  lemma NoTitleMatchIgnoresAuthor(title: string, author: Option<string>, items: seq<CrossrefItem>, sim: Similarity, th: Thresholds)
    requires forall i :: 0 <= i < |items| ==> CandidateTitle(items[i]).Success? && !TitlePasses(title, items[i], sim, th)
    ensures ResolveDoi(title, author, items, sim, th) == Success(Resolution(None, false))
  {
    if author.Some? {
      ResolveDoiIsFirstAccepted(title, author.value, items, sim, th);
    } else {
      NullAuthorRaises(title, items, sim, th);
    }
  }

  /** A candidate without a `title` key is scored as the empty title. */
  lemma MissingTitleScoresEmpty(title: string, item: CrossrefItem, sim: Similarity)
    requires item.titles.None?
    ensures CandidateTitle(item) == Success("")
    ensures Normalize(CandidateTitle(item).value) == ""
  {
  }

  // --------------------------------------------------------- on_message

  /** The external calls of one record's lookup: the Crossref query (which
      may raise), Unpaywall's `is_oa` and Crossref's citation count (both
      of which swallow their errors). */
  datatype Services = Services(
    crossref: (string, string) -> Result<seq<CrossrefItem>>,
    isOpenAccess: string -> bool,
    citationCount: string -> Option<int>,
    sim: Similarity,
    th: Thresholds)

  /** The loop body of `on_message` for one record. A `null` author
      (`None`) goes to Crossref as an empty query value, as httpx sends a
      `None` parameter. */
  function EnrichRecord(rec: Article, author: Option<string>, svc: Services): (r: Result<Article>)
    ensures r.Success? <==> (svc.crossref(rec.title, author.GetOr("")).Success?
      && ResolveDoi(rec.title, author, svc.crossref(rec.title, author.GetOr("")).value, svc.sim, svc.th).Success?)
    ensures r.Success? ==> var a := r.value;
      a.title == rec.title && a.year == rec.year && a.link == rec.link && a.text == rec.text
      && a.aiLabel == rec.aiLabel && a.aiScore == rec.aiScore && a.plagiarism == rec.plagiarism
      && a.verified.Some? && a.openAccess.Some?
      && (a.verified == Some(false) ==> a.doi == None)
      && (!Truthy(a.doi) ==> a.openAccess == Some(false))
      && (a.citations != rec.citations ==> a.verified == Some(true) && rec.citations == None && Truthy(a.doi))
    ensures r.Success? ==>
      var res := ResolveDoi(rec.title, author, svc.crossref(rec.title, author.GetOr("")).value, svc.sim, svc.th).value;
      r.value.doi == res.doi && r.value.verified == Some(res.verified)
      && (Truthy(res.doi) ==> r.value.openAccess == Some(svc.isOpenAccess(res.doi.value)))
      && (res.verified && rec.citations.None? && Truthy(res.doi) ==> r.value.citations == svc.citationCount(res.doi.value))
  {
    var items :- svc.crossref(rec.title, author.GetOr(""));
    var res :- ResolveDoi(rec.title, author, items, svc.sim, svc.th);
    var oa := if Truthy(res.doi) then svc.isOpenAccess(res.doi.value) else false;
    var cites := if res.verified && rec.citations.None? && Truthy(res.doi)
      then svc.citationCount(res.doi.value) else rec.citations;
    Success(rec.(citations := cites, doi := res.doi, verified := Some(res.verified), openAccess := Some(oa)))
  }

  /** The whole loop: one failing record aborts it. */
  function EnrichAll(recs: seq<Article>, author: Option<string>, svc: Services): (r: Result<seq<Article>>)
    ensures r.Success? <==> forall i :: 0 <= i < |recs| ==> EnrichRecord(recs[i], author, svc).Success?
    ensures r.Success? ==> |r.value| == |recs|
    ensures r.Success? ==> forall i :: 0 <= i < |recs| ==>
      Success(r.value[i]) == EnrichRecord(recs[i], author, svc)
    ensures r.Failure? ==> exists i :: 0 <= i < |recs| && EnrichRecord(recs[i], author, svc) == Failure(r.error)
  {
    Seqs.MapAll(recs, EnrichStep(author, svc))
  }

  function EnrichStep(author: Option<string>, svc: Services): Article -> Result<Article> {
    (rec: Article) => EnrichRecord(rec, author, svc)
  }

  const StartTimeField := "doi_resolver_start_time"
  const EndTimeField := "doi_resolver_end_time"
  const StateField := "state"
  const Resolving := "DOIs resolving."
  const Resolved := "DOIs resolved."
  const ResolverError := "DOI resolver error."

  /** The effects of one `on_message` call once its outcome is known:
      `sent` is the message that was published, or `None` when a lookup or
      the publish raised. */
  function ResolverLog(k: string, t0: string, t1: string, sent: Option<Payload>): (r: seq<Effects.Effect>)
    ensures Effects.WritesOnly(r, k, {StartTimeField, StateField, EndTimeField})
    ensures sent.None? ==> Effects.Written(r, k, StateField) == [Resolving, ResolverError] && Effects.Published(r) == []
    ensures sent.Some? ==> Effects.Written(r, k, StateField) == [Resolving, Resolved]
    ensures sent.Some? ==> Effects.Published(r) == [Effects.Publish(TextExtractQueue, sent.value)]
  {
    var w0 := Effects.Write(k, StartTimeField, t0);
    var w1 := Effects.Write(k, StateField, Resolving);
    Effects.Snoc([], w0, k, StateField);
    Effects.Snoc([w0], w1, k, StateField);
    assert [w0] + [w1] == [w0, w1];
    match sent
    case None =>
      var w2 := Effects.Write(k, StateField, ResolverError);
      Effects.Snoc([w0, w1], w2, k, StateField);
      [w0, w1] + [w2]
    case Some(m) =>
      var p := Effects.Publish(TextExtractQueue, m);
      var w3 := Effects.Write(k, EndTimeField, t1);
      var w4 := Effects.Write(k, StateField, Resolved);
      Effects.Snoc([w0, w1], p, k, StateField);
      Effects.Snoc([w0, w1] + [p], w3, k, StateField);
      Effects.Snoc([w0, w1] + [p] + [w3], w4, k, StateField);
      [w0, w1] + [p] + [w3] + [w4]
  }

  /** The message as `on_message` reads it. `payload.get(key, default)`
      falls back to the default only for a missing key, so this stage tells
      a missing `author` or `results` from one sent as JSON `null`. */
  datatype Message = Message(jobId: Option<string>, author: Slot<string>, results: Slot<seq<Article>>)

  /** `payload.get("author", "")`: `None` stands for a `null` author. */
  function AuthorArg(a: Slot<string>): (r: Option<string>)
    ensures r.None? <==> a.Null?
    ensures r.Some? ==> r.value == if a.Val? then a.v else ""
  {
    match a
    case Absent => Some("")
    case Null => None
    case Val(name) => Some(name)
  }

  /** The records of `payload.get("results", [])` when it is a list. */
  function RecordsOf(results: Slot<seq<Article>>): seq<Article> {
    if results.Val? then results.v else []
  }

  /** What iterating over `None` raises. */
  const NotIterable := "TypeError: 'NoneType' object is not iterable"

  /** `on_message`: `t0` and `t1` are the two timestamps, `publishOk`
      whether the publish to `text-extract-requests` went through. The
      job id is not checked: a message without one is recorded under
      `job:None:…`. A `null` result list raises at the `for` loop. */
  function OnMessage(msg: Message, svc: Services, t0: string, t1: string, publishOk: bool): (r: seq<Effects.Effect>)
    ensures |r| >= 3 && r[0] == Effects.Write(KeyId(msg.jobId), StartTimeField, t0)
  {
    var author := AuthorArg(msg.author);
    var outcome := if msg.results.Null? then Failure(NotIterable) else EnrichAll(RecordsOf(msg.results), author, svc);
    var sent := if outcome.Success? && publishOk
      then Some(Payload(msg.jobId, author, Some(outcome.value))) else None;
    ResolverLog(KeyId(msg.jobId), t0, t1, sent)
  }

  /** The `state` labels: "DOIs resolving." first, then "DOIs resolved."
      exactly when the publish happened, otherwise "DOI resolver error."
      — also when a single record's lookup raised or the result list was
      `null`; nothing but the two timestamps and `state` is written. */
  lemma OnMessageStates(msg: Message, svc: Services, t0: string, t1: string, publishOk: bool)
    ensures var r := OnMessage(msg, svc, t0, t1, publishOk);
      var k := KeyId(msg.jobId);
      var ok := publishOk && !msg.results.Null? && EnrichAll(RecordsOf(msg.results), AuthorArg(msg.author), svc).Success?;
      Effects.WritesOnly(r, k, {StartTimeField, StateField, EndTimeField})
      && (ok ==> Effects.Written(r, k, StateField) == [Resolving, Resolved] && |Effects.Published(r)| == 1)
      && (!ok ==> Effects.Written(r, k, StateField) == [Resolving, ResolverError] && Effects.Published(r) == [])
  {
  }

  /** A `null` author fails the job as soon as one record's Crossref answer
      (all of whose titles are readable) has a title reaching the
      threshold: `normalize(None)` raises inside the loop. */
  lemma NullAuthorFailsJob(msg: Message, svc: Services, t0: string, t1: string, publishOk: bool, n: nat)
    requires msg.author.Null? && msg.results.Val? && n < |msg.results.v|
    requires var rec := msg.results.v[n];
      var items := svc.crossref(rec.title, "");
      items.Success? && (forall i :: 0 <= i < |items.value| ==> CandidateTitle(items.value[i]).Success?)
      && exists i :: 0 <= i < |items.value| && TitlePasses(rec.title, items.value[i], svc.sim, svc.th)
    ensures var r := OnMessage(msg, svc, t0, t1, publishOk);
      Effects.Written(r, KeyId(msg.jobId), StateField) == [Resolving, ResolverError] && Effects.Published(r) == []
  {
    var rec := msg.results.v[n];
    NullAuthorRaises(rec.title, svc.crossref(rec.title, "").value, svc.sim, svc.th);
    assert EnrichRecord(rec, None, svc).Failure?;
    OnMessageStates(msg, svc, t0, t1, publishOk);
  }

  /** The effects log around the publish: the one publish is the third
      effect, carries the message handed in, and only writes follow it,
      the last being "DOIs resolved.". */
  lemma ResolverLogPublish(k: string, t0: string, t1: string, sent: Option<Payload>, i: nat)
    requires var r := ResolverLog(k, t0, t1, sent); i < |r| && r[i].Publish?
    ensures var r := ResolverLog(k, t0, t1, sent);
      sent.Some? && r[i] == Effects.Publish(TextExtractQueue, sent.value)
      && (forall j :: i < j < |r| ==> r[j].Write?)
      && r[|r| - 1] == Effects.Write(k, StateField, Resolved)
  {
  }

  /** The one publish goes to `text-extract-requests` before "DOIs resolved."
      is written, and carries the job id, the author as read (`""` when
      missing, `null` when `null`) and every input record, enriched, in
      input order. */
  lemma OnMessagePublish(msg: Message, svc: Services, t0: string, t1: string, publishOk: bool, i: nat)
    requires var r := OnMessage(msg, svc, t0, t1, publishOk); i < |r| && r[i].Publish?
    ensures var r := OnMessage(msg, svc, t0, t1, publishOk);
      var m := r[i].msg;
      var recs := RecordsOf(msg.results);
      var author := AuthorArg(msg.author);
      r[i].queue == TextExtractQueue && m.jobId == msg.jobId && m.author == author
      && !msg.results.Null?
      && m.results.Some? && |m.results.value| == |recs|
      && (forall n :: 0 <= n < |recs| ==> EnrichRecord(recs[n], author, svc) == Success(m.results.value[n]))
      && (forall j :: i < j < |r| ==> r[j].Write?)
      && r[|r| - 1] == Effects.Write(KeyId(msg.jobId), StateField, Resolved)
  {
    var author := AuthorArg(msg.author);
    var outcome := if msg.results.Null? then Failure(NotIterable) else EnrichAll(RecordsOf(msg.results), author, svc);
    var sent := if outcome.Success? && publishOk
      then Some(Payload(msg.jobId, author, Some(outcome.value))) else None;
    ResolverLogPublish(KeyId(msg.jobId), t0, t1, sent, i);
  }
}

=== FILE: effects.dfy ===
/** What a stage does to the outside world, in order: store writes through
    the job store and publishes to a queue. A stage is modelled as a
    function returning this log; `Apply` replays its writes on a store. */
module Effects {
  import opened Wrappers
  import opened Records
  import JobStore

  datatype Effect =
    | Write(jobId: string, field: string, value: string)
    | Publish(queue: string, msg: Payload)

  /** Replays the writes of `log` on `st`, first to last. */
  function Apply(st: JobStore.Store, log: seq<Effect>): JobStore.Store
    decreases |log|
  {
    if |log| == 0 then st
    else
      var st' := match log[0]
        case Write(j, f, v) => JobStore.SetField(st, j, f, v)
        case Publish(_, _) => st;
      Apply(st', log[1..])
  }

  /** The values written to one field of one job, in the order written. */
  function Written(log: seq<Effect>, jobId: string, field: string): seq<string>
    decreases |log|
  {
    if |log| == 0 then []
    else
      var here := match log[0]
        case Write(j, f, v) => if j == jobId && f == field then [v] else []
        case Publish(_, _) => [];
      here + Written(log[1..], jobId, field)
  }

  /** The publishes of `log`, in the order sent. */
  function Published(log: seq<Effect>): seq<Effect>
    decreases |log|
  {
    if |log| == 0 then []
    else (if log[0].Publish? then [log[0]] else []) + Published(log[1..])
  }

  /** The (job, field) pairs written by `log`. */
  predicate WritesOnly(log: seq<Effect>, jobId: string, fields: set<string>) {
    forall i :: 0 <= i < |log| && log[i].Write? ==> log[i].jobId == jobId && log[i].field in fields
  }

  /** Every job id written to is free of ':' (gateway ids are hexadecimal
      UUIDs), so distinct (job, field) pairs never share a key. */
  predicate ColonFree(log: seq<Effect>) {
    forall i :: 0 <= i < |log| && log[i].Write? ==> ':' !in log[i].jobId
  }

  lemma {:induction false} WrittenAppend(a: seq<Effect>, b: seq<Effect>, jobId: string, field: string)
    ensures Written(a + b, jobId, field) == Written(a, jobId, field) + Written(b, jobId, field)
    decreases |a|
  {
    if |a| == 0 {
      assert a + b == b;
    } else {
      assert (a + b)[0] == a[0] && (a + b)[1..] == a[1..] + b;
      WrittenAppend(a[1..], b, jobId, field);
    }
  }

  lemma {:induction false} PublishedAppend(a: seq<Effect>, b: seq<Effect>)
    ensures Published(a + b) == Published(a) + Published(b)
    decreases |a|
  {
    if |a| == 0 {
      assert a + b == b;
    } else {
      assert (a + b)[0] == a[0] && (a + b)[1..] == a[1..] + b;
      PublishedAppend(a[1..], b);
    }
  }

  lemma WrittenOne(e: Effect, jobId: string, field: string)
    ensures Written([e], jobId, field) == if e.Write? && e.jobId == jobId && e.field == field then [e.value] else []
  {
    assert [e][1..] == [];
  }

  lemma PublishedOne(e: Effect)
    ensures Published([e]) == if e.Publish? then [e] else []
  {
    assert [e][1..] == [];
  }

  /** A log writes only the given fields exactly when both of its parts do. */
  lemma WritesOnlyAppend(a: seq<Effect>, b: seq<Effect>, jobId: string, fields: set<string>)
    ensures WritesOnly(a + b, jobId, fields) <==> WritesOnly(a, jobId, fields) && WritesOnly(b, jobId, fields)
  {
    assert forall i :: 0 <= i < |a| ==> (a + b)[i] == a[i];
    assert forall i :: 0 <= i < |b| ==> (a + b)[|a| + i] == b[i];
  }

  /** `Written` and `Published` of a log built by appending one effect. */
  lemma Snoc(log: seq<Effect>, e: Effect, jobId: string, field: string)
    ensures Written(log + [e], jobId, field)
         == Written(log, jobId, field) + (if e.Write? && e.jobId == jobId && e.field == field then [e.value] else [])
    ensures Published(log + [e]) == Published(log) + (if e.Publish? then [e] else [])
  {
    WrittenAppend(log, [e], jobId, field);
    PublishedAppend(log, [e]);
    WrittenOne(e, jobId, field);
    PublishedOne(e);
  }

  /** Reading a field after a stage ran gives the last value the stage
      wrote there, or the earlier value when the stage did not write it. */
  lemma {:induction false} ApplyReadsLastWrite(st: JobStore.Store, log: seq<Effect>, jobId: string, field: string)
    requires ColonFree(log) && ':' !in jobId
    ensures var w := Written(log, jobId, field);
      JobStore.GetField(Apply(st, log), jobId, field)
        == if w == [] then JobStore.GetField(st, jobId, field) else Some(w[|w| - 1])
    decreases |log|
  {
    if |log| > 0 {
      var st' := match log[0]
        case Write(j, f, v) => JobStore.SetField(st, j, f, v)
        case Publish(_, _) => st;
      assert ColonFree(log[1..]) by {
        forall i | 0 <= i < |log[1..]| && log[1..][i].Write? ensures ':' !in log[1..][i].jobId {
          assert log[1..][i] == log[i + 1];
        }
      }
      ApplyReadsLastWrite(st', log[1..], jobId, field);
      match log[0]
      case Write(j, f, v) =>
        if j != jobId || f != field {
          assert ':' !in j by { assert log[0].Write?; }
          if JobStore.MakeKey(j, f) == JobStore.MakeKey(jobId, field) {
            JobStore.KeyInjective(j, f, jobId, field);
          }
          JobStore.WriteFrame(st, j, f, v, jobId, field);
        }
      case Publish(_, _) =>
    }
  }
}

=== FILE: extractor.dfy ===
/** `Extractor` of the text extractor (`apps/text-extractor/app/extractor.py`):
    finds open-access URLs for a DOI (Unpaywall first, Crossref as the
    fallback), looks for a PDF link on the landing page, and returns the
    text of the first candidate URL that serves a PDF. HTTP, HTML parsing
    and PDF text extraction are parameters. */
module Extractor {
  import opened Wrappers
  import opened Records
  import Text
  import Seqs

  const PdfType := "application/pdf"
  const PdfSuffix := ".pdf"

  /** Unpaywall's `best_oa_location` (`url_for_pdf`, `url`); a missing or
      `null` location has neither. */
  datatype Location = Location(pdf: Option<string>, html: Option<string>)

  /** One item of Crossref's `message.link`: its `content-type` (`""` when
      missing) and `URL`. */
  datatype CrossrefLink = CrossrefLink(contentType: string, url: Option<string>)

  /** The direct fetch of a landing page: its HTML, an HTTP error status,
      or any other exception (which `_extract_from_landing` does not catch). */
  datatype Landing = Page(html: string) | StatusError | Raised(msg: string)

  /** The outside world. A `Failure` stands for an exception:
      `unpaywall`/`crossrefLinks` include `raise_for_status`; `head` yields
      the `content-type` header (`""` when missing); `download` is the GET,
      `raise_for_status` and pdfplumber together, yielding the text of each
      page (`None` for a page without text); `hrefs` lists the `href` of
      every `<a>` in document order; `scraper` is the optional Oxylabs
      client's `fetch_html`. */
  datatype Services = Services(
    unpaywall: string -> Result<Location>,
    crossrefLinks: string -> Result<seq<CrossrefLink>>,
    landing: string -> Landing,
    scraper: Option<string -> Result<string>>,
    hrefs: string -> seq<string>,
    head: string -> Result<string>,
    download: string -> Result<seq<Option<string>>>)

  /** The result of `resolve_oa_urls`. */
  datatype OaUrls = OaUrls(pdf: Option<string>, html: Option<string>)

  function PdfLinkTest(): CrossrefLink -> bool {
    (l: CrossrefLink) => Text.Lower(l.contentType) == PdfType
  }

  /** `resolve_oa_urls(doi)`. */
  function ResolveOaUrls(doi: string, svc: Services): (r: Result<OaUrls>)
    ensures svc.unpaywall(doi).Failure? ==> r.Failure?
    ensures svc.unpaywall(doi).Success? && Truthy(svc.unpaywall(doi).value.pdf) ==>
      r == Success(OaUrls(svc.unpaywall(doi).value.pdf, svc.unpaywall(doi).value.html))
    ensures svc.unpaywall(doi).Success? && !Truthy(svc.unpaywall(doi).value.pdf) && Truthy(svc.unpaywall(doi).value.html) ==>
      r == Success(OaUrls(None, svc.unpaywall(doi).value.html))
    ensures r.Failure? && svc.unpaywall(doi).Success? ==> svc.crossrefLinks(doi).Failure?
    ensures r.Success? && r.value.html.Some? ==> Truthy(r.value.html) || Truthy(r.value.pdf)
  {
    var loc :- svc.unpaywall(doi);
    if Truthy(loc.pdf) then Success(OaUrls(loc.pdf, loc.html))
    else if Truthy(loc.html) then Success(OaUrls(None, loc.html))
    else
      var links :- svc.crossrefLinks(doi);
      match Seqs.FirstWhere(links, PdfLinkTest())
      case None => Success(OaUrls(None, None))
      case Some(i) => Success(OaUrls(links[i].url, None))
  }

  /** When Unpaywall has no usable URL, the PDF URL is that of the first
      Crossref link whose content type is exactly `application/pdf` in any
      letter case, and there is no landing page. */
  lemma CrossrefFallback(doi: string, svc: Services)
    requires svc.unpaywall(doi).Success?
    requires !Truthy(svc.unpaywall(doi).value.pdf) && !Truthy(svc.unpaywall(doi).value.html)
    requires svc.crossrefLinks(doi).Success?
    ensures var links := svc.crossrefLinks(doi).value;
      var r := ResolveOaUrls(doi, svc);
      r.Success? && r.value.html == None
      && (r.value.pdf.Some? ==> exists i :: 0 <= i < |links| && Text.Lower(links[i].contentType) == PdfType && links[i].url == r.value.pdf)
      && ((forall i :: 0 <= i < |links| ==> Text.Lower(links[i].contentType) != PdfType) ==> r.value.pdf == None)
      && forall i :: 0 <= i < |links| && Text.Lower(links[i].contentType) == PdfType ==>
           exists j :: 0 <= j <= i && Text.Lower(links[j].contentType) == PdfType && links[j].url == r.value.pdf
  {
    var links := svc.crossrefLinks(doi).value;
    var hit := Seqs.FirstWhere(links, PdfLinkTest());
    if hit.Some? {
      var j := hit.value;
      assert PdfLinkTest()(links[j]);
      forall i | 0 <= i < |links| && Text.Lower(links[i].contentType) == PdfType
        ensures exists j :: 0 <= j <= i && Text.Lower(links[j].contentType) == PdfType && links[j].url == ResolveOaUrls(doi, svc).value.pdf
      {
        assert PdfLinkTest()(links[i]);
      }
    } else {
      forall i | 0 <= i < |links| ensures Text.Lower(links[i].contentType) != PdfType {
        assert !PdfLinkTest()(links[i]);
      }
    }
  }

  /** The non-empty page texts, in page order. */
  function PageTexts(pages: seq<Option<string>>): (r: seq<string>)
    ensures forall k :: 0 <= k < |r| ==> r[k] != ""
    ensures |r| <= |pages|
    decreases |pages|
  {
    if |pages| == 0 then []
    else (if Truthy(pages[0]) then [pages[0].value] else []) + PageTexts(pages[1..])
  }

  /** `extract_pdf_text`: the text of the pages that have any, one page
      per line. */
  function PdfText(pages: seq<Option<string>>): (r: string)
    ensures (forall k :: 0 <= k < |pages| ==> !Truthy(pages[k])) ==> r == ""
  {
    AllBlankPages(pages);
    Text.Join("\n", PageTexts(pages))
  }

  lemma {:induction false} AllBlankPages(pages: seq<Option<string>>)
    ensures (forall k :: 0 <= k < |pages| ==> !Truthy(pages[k])) ==> PageTexts(pages) == []
    decreases |pages|
  {
    if |pages| > 0 {
      AllBlankPages(pages[1..]);
      if forall k :: 0 <= k < |pages| ==> !Truthy(pages[k]) {
        assert forall k :: 0 <= k < |pages[1..]| ==> pages[1..][k] == pages[k + 1];
      }
    }
  }

  /** Page texts are collected page by page: the texts of two runs of
      pages are those of the first run followed by those of the second. */
  lemma {:induction false} PageTextsAppend(xs: seq<Option<string>>, ys: seq<Option<string>>)
    ensures PageTexts(xs + ys) == PageTexts(xs) + PageTexts(ys)
    decreases |xs|
  {
    if |xs| > 0 {
      assert (xs + ys)[0] == xs[0];
      assert (xs + ys)[1..] == xs[1..] + ys;
      PageTextsAppend(xs[1..], ys);
    } else {
      assert xs + ys == ys;
    }
  }

  /** One page contributes its text exactly when it has any. */
  lemma PageTextsOne(p: Option<string>)
    ensures PageTexts([p]) == if Truthy(p) then [p.value] else []
  {
    assert [p][1..] == [];
  }

  /** The text of a PDF split into two parts that both have text is the
      two texts on separate lines. */
  lemma PdfTextAppend(xs: seq<Option<string>>, ys: seq<Option<string>>)
    requires PageTexts(xs) != [] && PageTexts(ys) != []
    ensures PdfText(xs + ys) == PdfText(xs) + "\n" + PdfText(ys)
  {
    PageTextsAppend(xs, ys);
    Text.JoinAppend("\n", PageTexts(xs), PageTexts(ys));
  }

  /** A PDF with a single page of text yields exactly that text. */
  lemma SinglePageText(pages: seq<Option<string>>, i: nat)
    requires i < |pages| && Truthy(pages[i])
    requires forall k :: 0 <= k < |pages| && k != i ==> !Truthy(pages[k])
    ensures PdfText(pages) == pages[i].value
  {
    OnlyPage(pages, i);
  }

  lemma {:induction false} OnlyPage(pages: seq<Option<string>>, i: nat)
    requires i < |pages| && Truthy(pages[i])
    requires forall k :: 0 <= k < |pages| && k != i ==> !Truthy(pages[k])
    ensures PageTexts(pages) == [pages[i].value]
    decreases |pages|
  {
    var tail := pages[1..];
    assert forall k :: 0 <= k < |tail| ==> tail[k] == pages[k + 1];
    if i == 0 {
      AllBlankPages(tail);
    } else {
      OnlyPage(tail, i - 1);
    }
  }

  function PdfHrefTest(): string -> bool {
    (h: string) => Text.EndsWith(Text.Lower(h), PdfSuffix)
  }

  /** The landing page's HTML: the direct fetch, or on an HTTP error status
      the scraper's copy; `None` when neither is available. */
  function LandingHtml(url: string, svc: Services): (r: Result<Option<string>>)
    ensures r.Failure? <==> svc.landing(url).Raised?
    ensures svc.landing(url).Page? ==> r == Success(Some(svc.landing(url).html))
    ensures svc.landing(url).StatusError? && svc.scraper.None? ==> r == Success(None)
    ensures svc.landing(url).StatusError? && svc.scraper.Some? ==>
      r == Success(if svc.scraper.value(url).Success? then Some(svc.scraper.value(url).value) else None)
  {
    match svc.landing(url)
    case Page(html) => Success(Some(html))
    case Raised(msg) => Failure(msg)
    case StatusError =>
      match svc.scraper
      case None => Success(None)
      case Some(fetch) =>
        match fetch(url)
        case Success(html) => Success(Some(html))
        case Failure(_) => Success(None)
  }

  /** The first of the page's link targets whose lower-cased form ends in
      `.pdf`. */
  function FirstPdfHref(hs: seq<string>): (r: Option<string>)
    ensures r.Some? ==> Text.EndsWith(Text.Lower(r.value), PdfSuffix)
    ensures r.Some? ==>
      exists i :: 0 <= i < |hs| && hs[i] == r.value
        && forall k :: 0 <= k < i ==> !Text.EndsWith(Text.Lower(hs[k]), PdfSuffix)
    ensures r.None? ==> forall k :: 0 <= k < |hs| ==> !Text.EndsWith(Text.Lower(hs[k]), PdfSuffix)
  {
    match Seqs.FirstWhere(hs, PdfHrefTest())
    case None =>
      assert forall k :: 0 <= k < |hs| ==> !PdfHrefTest()(hs[k]);
      None
    case Some(i) =>
      assert PdfHrefTest()(hs[i]);
      assert forall k :: 0 <= k < i ==> !PdfHrefTest()(hs[k]);
      Some(hs[i])
  }

  /** `_extract_from_landing(url)`: the first link whose lower-cased target
      ends in `.pdf`. */
  function LandingPdfLink(url: string, svc: Services): (r: Result<Option<string>>)
    ensures r.Failure? <==> svc.landing(url).Raised?
    ensures r.Success? && r.value.Some? ==> LandingHtml(url, svc).Success? && LandingHtml(url, svc).value.Some?
    ensures r.Success? && r.value.Some? ==> Text.EndsWith(Text.Lower(r.value.value), PdfSuffix)
    ensures r.Success? && r.value.Some? ==>
      var hs := svc.hrefs(LandingHtml(url, svc).value.value);
      exists i :: 0 <= i < |hs| && hs[i] == r.value.value
        && forall k :: 0 <= k < i ==> !Text.EndsWith(Text.Lower(hs[k]), PdfSuffix)
    ensures r.Success? && LandingHtml(url, svc).value.Some? && r.value.None? ==>
      var hs := svc.hrefs(LandingHtml(url, svc).value.value);
      forall k :: 0 <= k < |hs| ==> !Text.EndsWith(Text.Lower(hs[k]), PdfSuffix)
  {
    match LandingHtml(url, svc)
    case Failure(e) => Failure(e)
    case Success(None) => Success(None)
    case Success(Some(h)) => Success(FirstPdfHref(svc.hrefs(h)))
  }

  /** The candidate list before de-duplication, in the order it is built:
      the landing page's PDF link (inserted at the front), the
      Unpaywall/Crossref PDF URL, the landing page itself; empty ones
      dropped. */
  function TryOrder(urls: OaUrls, landingLink: Option<string>): (r: seq<string>)
    ensures forall k :: 0 <= k < |r| ==> r[k] != ""
    ensures forall u :: u in r <==> u != "" && (landingLink == Some(u) || urls.pdf == Some(u) || urls.html == Some(u))
    ensures |r| <= 3
    ensures Truthy(landingLink) ==> |r| > 0 && r[0] == landingLink.value
  {
    (if Truthy(landingLink) then [landingLink.value] else [])
    + (if Truthy(urls.pdf) then [urls.pdf.value] else [])
    + (if Truthy(urls.html) then [urls.html.value] else [])
  }

  /** The candidate URLs in the order tried: `TryOrder` with repeats
      removed, each URL kept at its first position. */
  function Candidates(urls: OaUrls, landingLink: Option<string>): (r: seq<string>)
    ensures Seqs.NoDuplicates(r)
    ensures forall u :: u in r <==> u != "" && (landingLink == Some(u) || urls.pdf == Some(u) || urls.html == Some(u))
    ensures Truthy(landingLink) ==> |r| > 0 && r[0] == landingLink.value
    ensures |r| <= 3
  {
    var raw := TryOrder(urls, landingLink);
    Seqs.DedupSpec(raw);
    Seqs.DedupLength(raw);
    if Truthy(landingLink) then
      Seqs.DedupHead(raw);
      Seqs.Dedup(raw)
    else
      Seqs.Dedup(raw)
  }

  /** The candidates keep the order in which they are first listed in
      `TryOrder`. */
  lemma CandidatesOrder(urls: OaUrls, landingLink: Option<string>)
    ensures var raw := TryOrder(urls, landingLink);
      var r := Candidates(urls, landingLink);
      forall i, j :: 0 <= i < j < |r| ==>
        r[i] in raw && r[j] in raw && Seqs.FirstIndex(raw, r[i]) < Seqs.FirstIndex(raw, r[j])
  {
    Seqs.DedupSpec(TryOrder(urls, landingLink));
  }

  /** The PDF URL is tried before the landing page, unless the landing
      page is itself the PDF link found on it; without a landing-page PDF
      link, the PDF URL is tried first. */
  lemma PdfUrlBeforeLandingUrl(urls: OaUrls, landingLink: Option<string>)
    requires Truthy(urls.pdf) && Truthy(urls.html) && urls.pdf != urls.html
    requires landingLink != urls.html
    ensures var r := Candidates(urls, landingLink);
      exists i, j :: 0 <= i < j < |r| && r[i] == urls.pdf.value && r[j] == urls.html.value
  {
    var r := Candidates(urls, landingLink);
    var raw := TryOrder(urls, landingLink);
    CandidatesOrder(urls, landingLink);
    var i := Seqs.FirstIndex(r, urls.pdf.value);
    var j := Seqs.FirstIndex(r, urls.html.value);
    var off := if Truthy(landingLink) then 1 else 0;
    assert raw[off] == urls.pdf.value && raw[off + 1] == urls.html.value;
    assert Seqs.FirstIndex(raw, urls.html.value) == off + 1;
    assert Seqs.FirstIndex(raw, urls.pdf.value) <= off;
    assert i != j;
  }

  /** Without a PDF link from the landing page, the PDF URL is tried first. */
  lemma PdfUrlFirstWithoutLandingLink(urls: OaUrls, landingLink: Option<string>)
    requires !Truthy(landingLink) && Truthy(urls.pdf)
    ensures var r := Candidates(urls, landingLink);
      |r| > 0 && r[0] == urls.pdf.value
  {
    var r := Candidates(urls, landingLink);
    var raw := TryOrder(urls, landingLink);
    CandidatesOrder(urls, landingLink);
    var i := Seqs.FirstIndex(r, urls.pdf.value);
    assert raw[0] == urls.pdf.value;
    assert Seqs.FirstIndex(raw, r[i]) == 0;
  }

  /** A candidate from which a PDF was obtained: its HEAD succeeds, it
      looks like a PDF (by content type or by URL), and its download and
      parsing succeed. */
  predicate Usable(url: string, svc: Services) {
    svc.head(url).Success?
    && (Text.Contains(Text.Lower(svc.head(url).value), PdfType) || Text.EndsWith(Text.Lower(url), PdfSuffix))
    && svc.download(url).Success?
  }

  function UsableTest(svc: Services): string -> bool {
    (u: string) => Usable(u, svc)
  }

  /** `get_text_for_doi(doi)`: `Failure` is an exception that reaches the
      caller, `Success(None)` means no candidate gave a PDF. */
  function GetTextForDoi(doi: string, svc: Services): (r: Result<Option<string>>)
    ensures ResolveOaUrls(doi, svc).Failure? ==> r.Failure?
    ensures r.Failure? && ResolveOaUrls(doi, svc).Success? ==>
      Truthy(ResolveOaUrls(doi, svc).value.html) && svc.landing(ResolveOaUrls(doi, svc).value.html.value).Raised?
    ensures r.Success? && r.value.Some? ==>
      exists u :: Usable(u, svc) && r.value.value == PdfText(svc.download(u).value)
  {
    var urls :- ResolveOaUrls(doi, svc);
    var link :- if Truthy(urls.html) then LandingPdfLink(urls.html.value, svc) else Success(None);
    var cands := Candidates(urls, link);
    match Seqs.FirstWhere(cands, UsableTest(svc))
    case None => Success(None)
    case Some(i) =>
      assert UsableTest(svc)(cands[i]);
      Success(Some(PdfText(svc.download(cands[i]).value)))
  }

  /** The text returned is that of the first usable candidate, and there is
      none exactly when no candidate is usable. */
  lemma GetTextIsFirstUsable(doi: string, svc: Services)
    requires GetTextForDoi(doi, svc).Success?
    ensures var urls := ResolveOaUrls(doi, svc).value;
      var link := if Truthy(urls.html) then LandingPdfLink(urls.html.value, svc).value else None;
      var cands := Candidates(urls, link);
      var r := GetTextForDoi(doi, svc).value;
      (r.None? <==> forall k :: 0 <= k < |cands| ==> !Usable(cands[k], svc))
      && (r.Some? ==> (exists i :: 0 <= i < |cands| && Usable(cands[i], svc)
                        && (forall k :: 0 <= k < i ==> !Usable(cands[k], svc))
                        && r.value == PdfText(svc.download(cands[i]).value)))
  {
    var urls := ResolveOaUrls(doi, svc).value;
    var link := if Truthy(urls.html) then LandingPdfLink(urls.html.value, svc).value else None;
    var cands := Candidates(urls, link);
    var hit := Seqs.FirstWhere(cands, UsableTest(svc));
    match hit
    case None =>
      forall k | 0 <= k < |cands| ensures !Usable(cands[k], svc) {
        assert !UsableTest(svc)(cands[k]);
      }
    case Some(i) =>
      assert UsableTest(svc)(cands[i]);
      forall k | 0 <= k < i ensures !Usable(cands[k], svc) {
        assert !UsableTest(svc)(cands[k]);
      }
  }

  /** A PDF link found on the landing page is tried before any other URL:
      when it is usable, its text is the result. */
  lemma LandingLinkFirst(doi: string, svc: Services)
    requires ResolveOaUrls(doi, svc).Success?
    requires var urls := ResolveOaUrls(doi, svc).value;
      Truthy(urls.html) && LandingPdfLink(urls.html.value, svc).Success?
      && Truthy(LandingPdfLink(urls.html.value, svc).value)
      && Usable(LandingPdfLink(urls.html.value, svc).value.value, svc)
    ensures var link := LandingPdfLink(ResolveOaUrls(doi, svc).value.html.value, svc).value.value;
      GetTextForDoi(doi, svc) == Success(Some(PdfText(svc.download(link).value)))
  {
    var urls := ResolveOaUrls(doi, svc).value;
    var link := LandingPdfLink(urls.html.value, svc).value;
    var cands := Candidates(urls, link);
    assert UsableTest(svc)(cands[0]);
  }

  /** A DOI for which no open-access URL exists yields no text and makes no
      further request. */
  lemma NoUrlsNoText(doi: string, svc: Services)
    requires ResolveOaUrls(doi, svc) == Success(OaUrls(None, None))
    ensures GetTextForDoi(doi, svc) == Success(None)
  {
    assert Candidates(OaUrls(None, None), None) == [];
  }
}

=== FILE: fetch_router.dfy ===
/** The scraper's fetch router (`apps/scholar-scraper/app/scraper/fetch_router.py`):
    the `scholarly` library is tried first and the Playwright browser
    scraper only when it raises. Both scrapers are parameters. */
module FetchRouter {
  import opened Wrappers
  import opened Records

  /** A publication scraper: the list it returns, or the exception it raises. */
  type Scraper = string -> Result<seq<Article>>

  /** `fetch_publications(author_name)`. */
  function FetchPublications(author: string, scholarly: Scraper, playwright: Scraper): (r: Result<seq<Article>>)
    ensures scholarly(author).Success? ==> r == scholarly(author)
    ensures scholarly(author).Failure? ==> r == playwright(author)
  {
    match scholarly(author)
    case Success(pubs) => Success(pubs)
    case Failure(_) => playwright(author)
  }

  /** An empty answer from `scholarly` is an answer: the fallback is not
      consulted, so no publications are reported even when the browser
      scraper would have found some. */
  lemma EmptyIsFinal(author: string, scholarly: Scraper, playwright: Scraper)
    requires scholarly(author) == Success([])
    ensures FetchPublications(author, scholarly, playwright) == Success([])
  {
  }

  /** The router fails only when both scrapers fail, and then with the
      browser scraper's error. */
  lemma FailsOnlyIfBothFail(author: string, scholarly: Scraper, playwright: Scraper)
    ensures FetchPublications(author, scholarly, playwright).Failure?
        <==> scholarly(author).Failure? && playwright(author).Failure?
    ensures FetchPublications(author, scholarly, playwright).Failure?
        ==> FetchPublications(author, scholarly, playwright) == playwright(author)
  {
  }
}

=== FILE: gateway_status.dfy ===
/** The gateway's own status helpers (`apps/gateway-api/app/services/state_store.py`),
    which talk to Redis directly with the key written out as an f-string
    rather than through the job store. */
module GatewayStatus {
  import opened Wrappers
  import JobStore
  import StateStore

  function StatusKey(jobId: string): string {
    "job:" + jobId + ":status"
  }

  /** `set_status`: a Redis `SET` of the status key. */
  function SetStatus(st: JobStore.Store, jobId: string, status: string): (r: JobStore.Store)
    ensures StatusKey(jobId) in r && r[StatusKey(jobId)] == status
    ensures forall k :: k in st && k != StatusKey(jobId) ==> k in r && r[k] == st[k]
  {
    st[StatusKey(jobId) := status]
  }

  /** `get_status`: `status or "pending"`. */
  function GetStatus(st: JobStore.Store, jobId: string): (r: string)
    ensures r != ""
    ensures StatusKey(jobId) in st && st[StatusKey(jobId)] != "" ==> r == st[StatusKey(jobId)]
    ensures StatusKey(jobId) !in st || st[StatusKey(jobId)] == "" ==> r == "pending"
  {
    if StatusKey(jobId) in st && st[StatusKey(jobId)] != "" then st[StatusKey(jobId)] else "pending"
  }

  /** The gateway and the services' `StateStore` address the same key and
      agree on every read and every write. */
  lemma AgreesWithStateStore(st: JobStore.Store, jobId: string, status: string)
    ensures StatusKey(jobId) == JobStore.MakeKey(jobId, StateStore.StatusField)
    ensures GetStatus(st, jobId) == StateStore.GetStatus(st, jobId)
    ensures SetStatus(st, jobId, status) == StateStore.SetStatus(st, jobId, status)
  {
  }

  /** A non-empty status set through the gateway is read back as written. */
  lemma SetThenGet(st: JobStore.Store, jobId: string, status: string)
    requires status != ""
    ensures GetStatus(SetStatus(st, jobId, status), jobId) == status
  {
  }

  /** An absent or empty status reads `"pending"`. */
  lemma AbsentOrEmptyIsPending(st: JobStore.Store, jobId: string)
    ensures StatusKey(jobId) !in st ==> GetStatus(st, jobId) == "pending"
    ensures GetStatus(SetStatus(st, jobId, ""), jobId) == "pending"
  {
  }
}

=== FILE: job_store.dfy ===
/** The Redis-backed job store of `common/job_store.py`: a flat map from
    key strings to string values, where a job's field lives under the key
    `job:{job_id}:{field}`. Every stage of the pipeline reads and writes
    its fields through these operations. */
module JobStore {
  import opened Wrappers
  import Text
  import Seqs

  type Store = map<string, string>

  /** The common prefix of every key that belongs to one job. */
  function Prefix(jobId: string): string {
    "job:" + jobId + ":"
  }

  /** `_make_key`: `job:`, the job id, `:` and the field name. */
  function MakeKey(jobId: string, field: string): (r: string)
    ensures r == Prefix(jobId) + field
  {
    "job:" + jobId + ":" + field
  }

  /** The parts of a key, by position. */
  lemma KeyLayout(jobId: string, field: string)
    ensures var r := MakeKey(jobId, field);
      |r| == |jobId| + |field| + 5
      && r[..4] == "job:" && r[4..4 + |jobId|] == jobId && r[4 + |jobId|] == ':' && r[5 + |jobId|..] == field
  {
  }

  /** Redis `SET`: the key now holds `value`; no other key changes. */
  function SetField(st: Store, jobId: string, field: string, value: string): (r: Store)
    ensures r.Keys == st.Keys + {MakeKey(jobId, field)}
    ensures r[MakeKey(jobId, field)] == value
    ensures forall k :: k in st && k != MakeKey(jobId, field) ==> r[k] == st[k]
  {
    st[MakeKey(jobId, field) := value]
  }

  /** Redis `GET`: `None` stands for a key that was never written or was deleted. */
  function GetField(st: Store, jobId: string, field: string): (r: Option<string>)
    ensures r.Some? <==> MakeKey(jobId, field) in st
    ensures r.Some? ==> r.value == st[MakeKey(jobId, field)]
  {
    var key := MakeKey(jobId, field);
    if key in st then Some(st[key]) else None
  }

  /** Redis `DEL`: the key disappears; no other key changes. */
  function DeleteField(st: Store, jobId: string, field: string): (r: Store)
    ensures r.Keys == st.Keys - {MakeKey(jobId, field)}
    ensures forall k :: k in r ==> r[k] == st[k]
  {
    st - {MakeKey(jobId, field)}
  }

  /** The field names found under a job's prefix. */
  function FieldsOf(st: Store, jobId: string): set<string> {
    var p := Prefix(jobId);
    set k | k in st && Text.StartsWith(k, p) :: k[|p|..]
  }

  lemma FieldsOfInStore(st: Store, jobId: string)
    ensures forall f :: f in FieldsOf(st, jobId) ==> MakeKey(jobId, f) in st
  {
    var p := Prefix(jobId);
    forall f | f in FieldsOf(st, jobId) ensures MakeKey(jobId, f) in st {
      var k :| k in st && Text.StartsWith(k, p) && f == k[|p|..];
      assert k == p + f;
    }
  }

  /** The SCAN over `job:{job_id}:*`: every key of the job, keyed by the
      part after the prefix. */
  function GetAllFields(st: Store, jobId: string): (r: map<string, string>)
    ensures forall f :: f in r <==> MakeKey(jobId, f) in st
    ensures forall f :: f in r ==> Some(r[f]) == GetField(st, jobId, f)
  {
    FieldsOfInStore(st, jobId);
    var r := map f | f in FieldsOf(st, jobId) :: st[MakeKey(jobId, f)];
    forall f | MakeKey(jobId, f) in st ensures f in r {
      var k := MakeKey(jobId, f);
      assert Text.StartsWith(k, Prefix(jobId)) && k[|Prefix(jobId)|..] == f;
    }
    r
  }

  /** A write is read back by the next read of the same field. */
  lemma SetThenGet(st: Store, jobId: string, field: string, value: string)
    ensures GetField(SetField(st, jobId, field, value), jobId, field) == Some(value)
  {
  }

  /** Writes do not merge: the later of two writes is the one read back. */
  lemma LastWriteWins(st: Store, jobId: string, field: string, v1: string, v2: string)
    ensures SetField(SetField(st, jobId, field, v1), jobId, field, v2)
         == SetField(st, jobId, field, v2)
  {
  }

  /** A key that holds nothing reads as `None`. */
  lemma NeverWrittenIsNone(st: Store, jobId: string, field: string)
    requires MakeKey(jobId, field) !in st
    ensures GetField(st, jobId, field) == None
  {
  }

  lemma DeleteThenGet(st: Store, jobId: string, field: string)
    ensures GetField(DeleteField(st, jobId, field), jobId, field) == None
  {
  }

  /** A write or delete leaves every other key string exactly as it was. */
  lemma WriteFrame(st: Store, jobId: string, field: string, value: string, j2: string, f2: string)
    requires MakeKey(j2, f2) != MakeKey(jobId, field)
    ensures GetField(SetField(st, jobId, field, value), j2, f2) == GetField(st, j2, f2)
    ensures GetField(DeleteField(st, jobId, field), j2, f2) == GetField(st, j2, f2)
  {
  }

  /** Two writes to different fields of the same job both survive. */
  lemma DifferentFieldsBothPersist(st: Store, jobId: string, f1: string, v1: string, f2: string, v2: string)
    requires f1 != f2
    ensures var st' := SetField(SetField(st, jobId, f1, v1), jobId, f2, v2);
      GetField(st', jobId, f1) == Some(v1) && GetField(st', jobId, f2) == Some(v2)
  {
    assert MakeKey(jobId, f1)[|Prefix(jobId)|..] == f1;
    assert MakeKey(jobId, f2)[|Prefix(jobId)|..] == f2;
  }

  /** Key strings are ambiguous: a job id holding ':' can name another job's field. */
  lemma KeysCollide()
    ensures MakeKey("a:b", "c") == MakeKey("a", "b:c")
  {
  }

  /** Without ':' in job ids (the gateway issues hexadecimal UUIDs) every
      (job, field) pair has a key of its own. */
  lemma KeyInjective(j1: string, f1: string, j2: string, f2: string)
    requires ':' !in j1 && ':' !in j2
    requires MakeKey(j1, f1) == MakeKey(j2, f2)
    ensures j1 == j2 && f1 == f2
  {
    var k := MakeKey(j1, f1);
    assert k[4..] == j1 + ":" + f1 == j2 + ":" + f2;
    FirstColon(j1, f1);
    FirstColon(j2, f2);
    assert j1 == k[4..4 + |j1|] == j2;
    assert f1 == k[5 + |j1|..] == f2;
  }

  /** After a job id without ':', the first ':' is the separator. */
  lemma FirstColon(j: string, f: string)
    requires ':' !in j
    ensures ':' in j + ":" + f && Seqs.FirstIndex(j + ":" + f, ':') == |j|
  {
    var s := j + ":" + f;
    assert s[|j|] == ':';
    assert forall i :: 0 <= i < |j| ==> s[i] == j[i];
  }
}

=== FILE: oxylabs_fetch.dfy ===
/** The text extractor's Oxylabs client
    (`apps/text-extractor/app/oxylabs_scraper.py`): it fetches a page
    through the Oxylabs realtime API, rotating the geo-location on every
    attempt and retrying on an HTTP error status, on empty content and on a
    reCAPTCHA page. The API is a parameter; the randomised sleeps and the
    back-off delays are left out. */
module OxylabsFetch {
  import opened Wrappers
  import Text

  const DefaultGeos: seq<string> := ["US", "DE", "GB", "FR", "CA"]
  const DefaultMaxRetries := 3

  /** A configured scraper. */
  datatype Scraper = Scraper(maxRetries: int, geos: seq<string>)

  /** The constructor: the credentials must both be set (non-empty), and an
      empty or missing country list falls back to the default rotation. */
  function NewScraper(username: Option<string>, password: Option<string>, maxRetries: int, geos: Option<seq<string>>): (r: Result<Scraper>)
    ensures r.Success? <==> username.Some? && username.value != "" && password.Some? && password.value != ""
    ensures r.Success? ==> r.value.maxRetries == maxRetries && |r.value.geos| > 0
    ensures r.Success? && geos.Some? && geos.value != [] ==> r.value.geos == geos.value
    ensures r.Success? && (geos.None? || geos.value == []) ==> r.value.geos == DefaultGeos
  {
    if username.None? || username.value == "" || password.None? || password.value == "" then
      Failure("OXY_USERNAME or OXY_PASSWORD env vars are not set")
    else
      Success(Scraper(maxRetries, if geos.Some? && geos.value != [] then geos.value else DefaultGeos))
  }

  /** One response of the realtime endpoint: an exception out of `post` or
      `json()` (or a first result that is not an object), an HTTP error
      status, or the decoded body, whose `results` entry is missing (`None`)
      or lists each result's `content`. */
  datatype Reply =
    | Raised(msg: string)
    | HttpStatusError
    | Body(results: Option<seq<Option<string>>>)

  /** What the loop does with a reply. */
  datatype Step = Accept(html: string) | Retry | Abort(msg: string)

  /** `data.get("results", [{}])[0].get("content")`, with the empty list
      raising as in Python. */
  function Content(results: Option<seq<Option<string>>>): (r: Result<Option<string>>)
    ensures results.None? ==> r == Success(None)
    ensures results.Some? && results.value == [] ==> r.Failure?
    ensures results.Some? && results.value != [] ==> r == Success(results.value[0])
  {
    match results
    case None => Success(None)
    case Some(rs) => if rs == [] then Failure("IndexError: list index out of range") else Success(rs[0])
  }

  function Classify(reply: Reply): (r: Step)
    ensures r.Accept? ==> reply.Body? && Content(reply.results) == Success(Some(r.html))
    ensures r.Accept? ==> r.html != "" && !Text.Contains(Text.Lower(r.html), "recaptcha")
    ensures reply.Body? && Content(reply.results).Success? && Content(reply.results).value.Some?
      && Content(reply.results).value.value != "" && !Text.Contains(Text.Lower(Content(reply.results).value.value), "recaptcha")
      ==> r.Accept?
    ensures r.Abort? <==> reply.Raised? || (reply.Body? && Content(reply.results).Failure?)
  {
    match reply
    case Raised(msg) => Abort(msg)
    case HttpStatusError => Retry
    case Body(results) =>
      match Content(results)
      case Failure(msg) => Abort(msg)
      case Success(html) =>
        if html.None? || html.value == "" then Retry
        else if Text.Contains(Text.Lower(html.value), "recaptcha") then Retry
        else Accept(html.value)
  }

  /** The geo-location of attempt number `attempt` (counted from 1). */
  function GeoFor(s: Scraper, attempt: nat): (g: string)
    requires attempt >= 1 && |s.geos| > 0
    ensures g in s.geos
  {
    s.geos[(attempt - 1) % |s.geos|]
  }

  /** `fetch_html(url)`: `post(attempt, geo)` is the realtime API's answer to
      attempt `attempt`. Returns the page and the geo-locations tried, in
      order. Every attempt before the last was retried; the last one either
      delivered the page, aborted, or was retried with no attempt left. */
  method FetchHtml(s: Scraper, url: string, post: (nat, string) -> Reply) returns (r: Result<string>, tried: seq<string>)
    requires |s.geos| > 0
    ensures |tried| <= if s.maxRetries < 0 then 0 else s.maxRetries
    ensures forall k :: 0 <= k < |tried| ==> tried[k] == GeoFor(s, k + 1)
    ensures forall k :: 0 <= k < |tried| - 1 ==> Classify(post(k + 1, tried[k])).Retry?
    ensures r.Success? ==> |tried| > 0 && Classify(post(|tried|, tried[|tried| - 1])) == Accept(r.value)
    ensures r.Failure? ==>
      (|tried| > 0 && Classify(post(|tried|, tried[|tried| - 1])).Abort?)
      || (|tried| == (if s.maxRetries < 0 then 0 else s.maxRetries)
          && forall k :: 0 <= k < |tried| ==> Classify(post(k + 1, tried[k])).Retry?)
  {
    tried := [];
    var attempt := 1;
    while attempt <= s.maxRetries
      invariant 1 <= attempt && |tried| == attempt - 1
      invariant s.maxRetries >= 0 ==> attempt <= s.maxRetries + 1
      invariant s.maxRetries < 0 ==> attempt == 1
      invariant forall k :: 0 <= k < |tried| ==> tried[k] == GeoFor(s, k + 1)
      invariant forall k :: 0 <= k < |tried| ==> Classify(post(k + 1, tried[k])).Retry?
      decreases s.maxRetries - attempt
    {
      var geo := GeoFor(s, attempt);
      tried := tried + [geo];
      match Classify(post(attempt, geo))
      case Accept(html) =>
        return Success(html), tried;
      case Abort(msg) =>
        return Failure(msg), tried;
      case Retry =>
        attempt := attempt + 1;
    }
    r := Failure("Oxylabs failed to fetch HTML for " + url);
  }

  /** A reCAPTCHA page is never returned, in any letter case. */
  lemma CaptchaNeverAccepted(html: string)
    requires Text.Contains(Text.Lower(html), "recaptcha")
    ensures !Classify(Body(Some([Some(html)]))).Accept?
  {
  }

  /** With the default rotation, attempt `n` uses the `(n - 1) % 5`-th
      country, so six attempts revisit the first one. */
  lemma DefaultRotation()
    ensures var s := Scraper(DefaultMaxRetries, DefaultGeos);
      GeoFor(s, 1) == "US" && GeoFor(s, 3) == "GB" && GeoFor(s, 6) == "US"
  {
  }
}

=== FILE: plagiarism_checker.dfy ===
/** The plagiarism checker (`apps/plagiarism-checker/app/service.py`). For
    every stored article that has text and a DOI, it takes a window of about
    thirty words from the middle of the text, asks Winston for a plagiarism
    report, and excludes the publisher's own URLs (from Crossref) from the
    sources. It then re-reads `job_data` and merges the reports into the
    latest articles by position. Crossref, Winston, JSON and the clock are
    parameters. */
module PlagiarismChecker {
  import opened Wrappers
  import opened Records
  import Text
  import Seqs
  import Effects
  import JobStore

  const StartTimeField := "plagiarism_checker_start_time"
  const EndTimeField := "plagiarism_checker_end_time"
  const StatusField := "plagiarism_check_status"
  const JobDataField := "job_data"
  const Started := "Plagiarism checker started."
  const Finished := "Plagiarism checker finished successfully."
  const SnippetWords: nat := 30

  // ---------------------------------------------------------------- snippet

  predicate IsHexDigit(c: char) {
    Text.IsDigit(c) || 'a' <= c <= 'f' || 'A' <= c <= 'F'
  }

  /** `s` starts with a literal `\uXXXX` escape: a backslash, `u` and four
      hexadecimal digits. */
  predicate EscapeAt(s: string) {
    |s| >= 6 && s[0] == '\\' && s[1] == 'u'
    && IsHexDigit(s[2]) && IsHexDigit(s[3]) && IsHexDigit(s[4]) && IsHexDigit(s[5])
  }

  /** `re.sub(r"\\u[0-9A-Fa-f]{4}", "", text)`: removes the escapes left to
      right, without rescanning what the removal brings together. */
  function StripEscapes(s: string): (r: string)
    ensures |r| <= |s|
    ensures forall c :: c in r ==> c in s
    decreases |s|
  {
    if |s| == 0 then ""
    else if EscapeAt(s) then StripEscapes(s[6..])
    else [s[0]] + StripEscapes(s[1..])
  }

  /** Text without a backslash has nothing to clean. */
  lemma {:induction false} StripEscapesNoBackslash(s: string)
    requires '\\' !in s
    ensures StripEscapes(s) == s
    decreases |s|
  {
    if |s| > 0 {
      assert s[0] != '\\';
      assert '\\' !in s[1..] by {
        forall k | 0 <= k < |s[1..]| ensures s[1..][k] != '\\' {
          assert s[1..][k] == s[k + 1];
        }
      }
      StripEscapesNoBackslash(s[1..]);
      assert s == [s[0]] + s[1..];
    }
  }

  /** One pass of the cleaning can leave a new escape behind, which is why
      the snippet is cleaned of `\u` once more afterwards. */
  lemma StripCanLeaveEscape()
    ensures StripEscapes("\\\\u0041u0041") == "\\u0041"
    ensures EscapeAt(StripEscapes("\\\\u0041u0041"))
  {
    StripKeepsDoubledBackslash();
    StripDropsEscape();
    StripKeepsPlainTail();
    LeftOverEscape();
  }

  lemma StripKeepsPlainTail()
    ensures StripEscapes("u0041") == "u0041"
  {
    StripEscapesNoBackslash("u0041");
  }

  lemma LeftOverEscape()
    ensures "\\" + "u0041" == "\\u0041" && EscapeAt("\\u0041")
  {
  }

  lemma StripKeepsDoubledBackslash()
    ensures StripEscapes("\\\\u0041u0041") == "\\" + StripEscapes("\\u0041u0041")
  {
    var s := "\\\\u0041u0041";
    assert !EscapeAt(s);
    assert s[1..] == "\\u0041u0041";
  }

  lemma StripDropsEscape()
    ensures StripEscapes("\\u0041u0041") == StripEscapes("u0041")
  {
    var s := "\\u0041u0041";
    assert EscapeAt(s);
    assert s[6..] == "u0041";
  }

  /** The token range `[start, end)` kept for the snippet: everything when
      there are fewer than `wc` tokens, otherwise `wc` tokens starting at
      `total // 2 - wc // 2`, with Python's clamping to the list. */
  function Window(total: nat, wc: nat): (r: (nat, nat))
    ensures r.0 <= r.1 <= total
    ensures r.1 - r.0 == if total < wc then total else wc
    ensures total >= wc ==> r.0 == total / 2 - wc / 2
  {
    if total < wc then (0, total)
    else
      var mid := total / 2;
      var start := if mid - wc / 2 < 0 then 0 else mid - wc / 2;
      var end := if start + wc < total then start + wc else total;
      (start, end)
  }

  /** The window is centred: as many tokens are dropped before it as after
      it, up to one. */
  lemma WindowCentred(total: nat, wc: nat)
    requires total >= wc
    ensures var w := Window(total, wc);
      var before := w.0;
      var after := total - w.1;
      before - 1 <= after <= before + 1
  {
  }

  /** The centred window of at most `wc` tokens. */
  function WindowOf(tokens: seq<string>, wc: nat): (r: seq<string>)
    ensures |r| == if |tokens| < wc then |tokens| else wc
    ensures forall k :: 0 <= k < |r| ==> r[k] == tokens[Window(|tokens|, wc).0 + k]
  {
    var w := Window(|tokens|, wc);
    tokens[w.0..w.1]
  }

  /** The end of `_extract_snippet`: `.strip()`, removal of the literal
      `\u` pairs if there are any, and `or None`. */
  function Tidy(joined: string): (r: Option<string>)
    ensures r.Some? ==> r.value != "" && |r.value| <= |joined|
  {
    var stripped := Text.Trim(joined);
    var snippet := if Text.Contains(stripped, "\\u") then Text.RemovePair(stripped, "\\u") else stripped;
    if snippet == "" then None else Some(snippet)
  }

  /** `_extract_snippet(text, word_count)`. */
  function ExtractSnippet(text: string, wc: nat): (r: Option<string>)
    ensures r.Some? ==> r.value != ""
    ensures wc == 0 || |Text.SplitWords(StripEscapes(text))| == 0 ==> r.None?
  {
    Tidy(Text.Join(" ", WindowOf(Text.SplitWords(StripEscapes(text)), wc)))
  }

  /** A non-empty string with no whitespace at its ends and no backslash
      passes through unchanged. */
  lemma TidyPlain(joined: string)
    requires |joined| > 0 && !Text.IsSpace(joined[0]) && !Text.IsSpace(joined[|joined| - 1])
    requires '\\' !in joined
    ensures Tidy(joined) == Some(joined)
  {
    Text.TrimNoop(joined);
    forall j | 0 <= j <= |joined| - 2 ensures joined[j] != '\\' {
      assert joined[j] in joined;
    }
    Text.NotContainsByAnchors(joined, "\\u", 0, 0);
  }

  /** A character found in neither the separator nor any part is not in
      the joined string. */
  lemma {:induction false} JoinAvoids(sep: string, parts: seq<string>, x: char)
    requires x !in sep
    requires forall k :: 0 <= k < |parts| ==> x !in parts[k]
    ensures x !in Text.Join(sep, parts)
    decreases |parts|
  {
    if |parts| > 1 {
      JoinAvoids(sep, parts[1..], x);
      assert Text.Join(sep, parts) == parts[0] + sep + Text.Join(sep, parts[1..]);
    }
  }

  /** Joining words leaves no whitespace at either end. */
  lemma {:induction false} JoinWordsEnds(sep: string, parts: seq<string>)
    requires |parts| > 0
    requires forall k :: 0 <= k < |parts| ==> Text.IsWord(parts[k])
    ensures var j := Text.Join(sep, parts);
      |j| > 0 && !Text.IsSpace(j[0]) && !Text.IsSpace(j[|j| - 1])
    decreases |parts|
  {
    var p0 := parts[0];
    assert p0[0] in p0;
    if |parts| > 1 {
      JoinWordsEnds(sep, parts[1..]);
      var rest := Text.Join(sep, parts[1..]);
      var j := p0 + sep + rest;
      assert Text.Join(sep, parts) == j;
      assert j[0] == p0[0];
      assert j[|j| - 1] == rest[|rest| - 1];
    } else {
      assert p0[|p0| - 1] in p0;
    }
  }

  lemma PrefixAvoids(s: string, p: string, x: char)
    requires x !in s && |p| <= |s| && p == s[..|p|]
    ensures x !in p
  {
    forall k | 0 <= k < |p| ensures p[k] != x {
      assert p[k] == s[k];
    }
  }

  lemma SuffixAvoids(s: string, q: string, x: char)
    requires x !in s && |q| <= |s| && q == s[|s| - |q|..]
    ensures x !in q
  {
    forall k | 0 <= k < |q| ensures q[k] != x {
      assert q[k] == s[|s| - |q| + k];
    }
  }

  /** A character absent from the text is absent from every token. */
  lemma {:induction false} SplitWordsAvoid(s: string, x: char)
    requires x !in s
    ensures forall k :: 0 <= k < |Text.SplitWords(s)| ==> x !in Text.SplitWords(s)[k]
    decreases |s|
  {
    var t := Text.TrimStart(s);
    if |t| > 0 {
      var w := Text.TakeWord(t);
      var rest := t[|w|..];
      FirstWordAvoids(s, x);
      SplitWordsAvoid(rest, x);
      ConsAvoids(w, Text.SplitWords(rest), x);
    }
  }

  /** The first token and what follows it both come from the text. */
  lemma FirstWordAvoids(s: string, x: char)
    requires x !in s
    ensures var t := Text.TrimStart(s);
      |t| > 0 ==>
        var w := Text.TakeWord(t);
        x !in w && x !in t[|w|..] && |t[|w|..]| < |s|
        && Text.SplitWords(s) == [w] + Text.SplitWords(t[|w|..])
  {
    var t := Text.TrimStart(s);
    SuffixAvoids(s, t, x);
    if |t| > 0 {
      var w := Text.TakeWord(t);
      PrefixAvoids(t, w, x);
      SuffixAvoids(t, t[|w|..], x);
    }
  }

  lemma ConsAvoids(w: string, tail: seq<string>, x: char)
    requires x !in w && forall k :: 0 <= k < |tail| ==> x !in tail[k]
    ensures forall k :: 0 <= k < |[w] + tail| ==> x !in ([w] + tail)[k]
  {
    forall k | 0 <= k < |[w] + tail| ensures x !in ([w] + tail)[k] {
      if k > 0 {
        assert ([w] + tail)[k] == tail[k - 1];
      }
    }
  }

  /** Text with a non-whitespace character has at least one token. */
  lemma SplitWordsNonEmpty(s: string, i: int)
    requires 0 <= i < |s| && !Text.IsSpace(s[i])
    ensures |Text.SplitWords(s)| > 0
  {
  }

  /** The window holds words free of `x` when all tokens are. */
  lemma WindowKeeps(tokens: seq<string>, wc: nat, x: char)
    requires forall k :: 0 <= k < |tokens| ==> Text.IsWord(tokens[k]) && x !in tokens[k]
    ensures forall k :: 0 <= k < |WindowOf(tokens, wc)| ==>
      Text.IsWord(WindowOf(tokens, wc)[k]) && x !in WindowOf(tokens, wc)[k]
  {
  }

  /** For text without escapes the snippet is exactly the centred window of
      `wc` whitespace-separated words, joined by single spaces. */
  lemma SnippetOfPlainText(text: string, wc: nat, i: int)
    requires '\\' !in text
    requires wc > 0 && 0 <= i < |text| && !Text.IsSpace(text[i])
    ensures var window := WindowOf(Text.SplitWords(text), wc);
      |window| > 0 && ExtractSnippet(text, wc) == Some(Text.Join(" ", window))
  {
    StripEscapesNoBackslash(text);
    SplitWordsNonEmpty(text, i);
    var tokens := Text.SplitWords(text);
    Text.SplitWordsAreWords(text);
    SplitWordsAvoid(text, '\\');
    var window := WindowOf(tokens, wc);
    WindowKeeps(tokens, wc, '\\');
    JoinWordsEnds(" ", window);
    JoinAvoids(" ", window, '\\');
    var joined := Text.Join(" ", window);
    TidyPlain(joined);
    assert ExtractSnippet(text, wc) == Tidy(joined);
  }

  // ------------------------------------------------------------ crossref

  /** What `_fetch_crossref_links` read: the HTTP status and the `URL`
      entry of every item of `message.link`. */
  datatype LinkReply = LinkReply(status: int, urls: seq<Option<string>>)

  /** `[item.get("URL") for item in links if item.get("URL")]`. */
  function TruthyUrls(urls: seq<Option<string>>): (r: seq<string>)
    ensures forall u :: u in r <==> Some(u) in urls && u != ""
    decreases |urls|
  {
    if |urls| == 0 then []
    else
      (if Truthy(urls[0]) then [urls[0].value] else []) + TruthyUrls(urls[1..])
  }

  /** The sources excluded from the Winston search. */
  function ExcludedSources(reply: LinkReply): (r: seq<string>)
    ensures reply.status != 200 ==> r == []
    ensures Seqs.NoDuplicates(r)
    ensures reply.status == 200 ==> forall u :: u in r <==> Some(u) in reply.urls && u != ""
    ensures reply.status == 200 ==> forall k :: 0 <= k < |r| ==> r[k] in TruthyUrls(reply.urls)
    ensures reply.status == 200 ==> forall i, j :: 0 <= i < j < |r| ==>
      Seqs.FirstIndex(TruthyUrls(reply.urls), r[i]) < Seqs.FirstIndex(TruthyUrls(reply.urls), r[j])
  {
    if reply.status != 200 then []
    else
      var urls := TruthyUrls(reply.urls);
      Seqs.DedupSpec(urls);
      Seqs.Dedup(urls)
  }

  // ------------------------------------------------------------ articles

  /** Crossref's link list (a failure is an exception that ends the whole
      job) and the Winston call (a failure makes that article's report
      `None`). */
  datatype Services = Services(
    links: string -> Result<LinkReply>,
    winston: (string, seq<string>) -> Result<PlagiarismReport>)

  /** The report the first pass computes for one article. */
  function CheckArticle(a: Article, svc: Services): (r: Result<Slot<PlagiarismReport>>)
    ensures !Truthy(a.text) || !Truthy(a.doi) ==> r == Success(Null)
    ensures r.Failure? <==> Truthy(a.text) && Truthy(a.doi) && svc.links(a.doi.value).Failure?
    ensures r.Success? && r.value.Val? ==>
      Truthy(a.text) && Truthy(a.doi) && svc.links(a.doi.value).Success?
      && ExtractSnippet(a.text.value, SnippetWords).Some?
      && svc.winston(ExtractSnippet(a.text.value, SnippetWords).value, ExcludedSources(svc.links(a.doi.value).value))
         == Success(r.value.v)
    ensures r.Success? && Truthy(a.text) && Truthy(a.doi) && ExtractSnippet(a.text.value, SnippetWords).None? ==>
      r.value == Null
    ensures (Truthy(a.text) && Truthy(a.doi) && svc.links(a.doi.value).Success?
             && ExtractSnippet(a.text.value, SnippetWords).Some?) ==>
      var report := svc.winston(ExtractSnippet(a.text.value, SnippetWords).value, ExcludedSources(svc.links(a.doi.value).value));
      r == Success(if report.Success? then Val(report.value) else Null)
  {
    if !Truthy(a.text) || !Truthy(a.doi) then Success(Null)
    else
      var reply :- svc.links(a.doi.value);
      match ExtractSnippet(a.text.value, SnippetWords)
      case None => Success(Null)
      case Some(snippet) =>
        match svc.winston(snippet, ExcludedSources(reply))
        case Success(report) => Success(Val(report))
        case Failure(_) => Success(Null)
  }

  /** The first loop: one report per article, in order; a Crossref failure
      anywhere ends the job. */
  function CheckAll(arts: seq<Article>, svc: Services): (r: Result<seq<Slot<PlagiarismReport>>>)
    ensures r.Success? <==> forall i :: 0 <= i < |arts| ==> CheckArticle(arts[i], svc).Success?
    ensures r.Success? ==> |r.value| == |arts|
    ensures r.Success? ==> forall i :: 0 <= i < |arts| ==> Success(r.value[i]) == CheckArticle(arts[i], svc)
    decreases |arts|
  {
    if |arts| == 0 then Success([])
    else
      var first :- CheckArticle(arts[0], svc);
      var rest :- CheckAll(arts[1..], svc);
      Success([first] + rest)
  }

  /** The second loop: every article of the latest list keeps all it holds
      and gets the report computed at the same position, or `None` past the
      end of the first list. */
  function MergeByIndex(latest: seq<Article>, reports: seq<Slot<PlagiarismReport>>): (r: seq<Article>)
    ensures |r| == |latest|
    ensures forall i :: 0 <= i < |r| ==> r[i] == latest[i].(plagiarism := r[i].plagiarism)
    ensures forall i :: 0 <= i < |r| ==> r[i].plagiarism == if i < |reports| then reports[i] else Null
  {
    seq(|latest|, i requires 0 <= i < |latest| =>
      latest[i].(plagiarism := if i < |reports| then reports[i] else Null))
  }

  // ------------------------------------------------------------ message

  /** A readable stored document with list-valued (or missing) results. */
  function ReadResults(raw: Option<string>, codec: Codec): (r: Option<(JobDoc, seq<Article>)>)
    ensures r.Some? <==> Truthy(raw) && codec.decode(raw.value).Doc? && !codec.decode(raw.value).doc.results.NotAList?
    ensures r.Some? ==> r.value.0 == codec.decode(raw.value).doc && Some(r.value.1) == ResultsList(r.value.0)
  {
    if !Truthy(raw) then None
    else
      match codec.decode(raw.value)
      case Doc(doc) =>
        (match ResultsList(doc)
         case None => None
         case Some(items) => Some((doc, items)))
      case _ => None
  }

  /** The reports of the first pass; `None` when the job stops (no
      document, unreadable JSON, results not a list, Crossref failure). */
  function FirstPass(raw: Option<string>, codec: Codec, svc: Services): (r: Option<seq<Slot<PlagiarismReport>>>)
    ensures r.Some? <==> ReadResults(raw, codec).Some? && CheckAll(ReadResults(raw, codec).value.1, svc).Success?
    ensures r.Some? ==> CheckAll(ReadResults(raw, codec).value.1, svc) == Success(r.value)
  {
    match ReadResults(raw, codec)
    case None => None
    case Some((_, items)) =>
      match CheckAll(items, svc)
      case Failure(_) => None
      case Success(reports) => Some(reports)
  }

  /** The document written back: the latest document with its results
      replaced by the merged list; `None` when the latest read stops the job. */
  function MergedDoc(latestRaw: Option<string>, codec: Codec, reports: seq<Slot<PlagiarismReport>>): (r: Option<JobDoc>)
    ensures r.Some? <==> ReadResults(latestRaw, codec).Some?
    ensures r.Some? ==> var (doc, items) := ReadResults(latestRaw, codec).value;
      r.value == doc.(results := Articles(MergeByIndex(items, reports)))
  {
    match ReadResults(latestRaw, codec)
    case None => None
    case Some((doc, items)) => Some(doc.(results := Articles(MergeByIndex(items, reports))))
  }

  /** `_on_message`: `st` is the store when the message arrives, `latestRaw`
      the `job_data` read again after the first pass (another stage may have
      written it meanwhile), `t0`/`t1` the two timestamps. */
  function OnMessage(payload: Payload, st: JobStore.Store, latestRaw: Option<string>, codec: Codec,
                     svc: Services, t0: string, t1: string): (r: seq<Effects.Effect>)
    ensures !Truthy(payload.jobId) ==> r == []
    ensures Truthy(payload.jobId) ==> |r| >= 2
    ensures Truthy(payload.jobId) ==> r[0] == Effects.Write(payload.jobId.value, StartTimeField, t0)
    ensures Truthy(payload.jobId) ==> r[1] == Effects.Write(payload.jobId.value, StatusField, Started)
  {
    if !Truthy(payload.jobId) then []
    else
      var j := payload.jobId.value;
      var head := [Effects.Write(j, StartTimeField, t0), Effects.Write(j, StatusField, Started)];
      match FirstPass(JobStore.GetField(st, j, JobDataField), codec, svc)
      case None => head
      case Some(reports) =>
        match MergedDoc(latestRaw, codec, reports)
        case None => head
        case Some(doc) =>
          head + [Effects.Write(j, EndTimeField, t1)] + [Effects.Write(j, StatusField, Finished)]
            + [Effects.Write(j, JobDataField, codec.encode(doc))]
  }

  /** The checker writes only its own fields and `job_data`, publishes
      nothing, and writes `job_data` exactly when it reports success. */
  lemma OnMessageLog(payload: Payload, st: JobStore.Store, latestRaw: Option<string>, codec: Codec,
                     svc: Services, t0: string, t1: string)
    requires Truthy(payload.jobId)
    ensures var r := OnMessage(payload, st, latestRaw, codec, svc, t0, t1);
      var j := payload.jobId.value;
      var first := FirstPass(JobStore.GetField(st, j, JobDataField), codec, svc);
      var done := first.Some? && MergedDoc(latestRaw, codec, first.value).Some?;
      Effects.WritesOnly(r, j, {StartTimeField, StatusField, EndTimeField, JobDataField})
      && Effects.Published(r) == []
      && (done ==> (Effects.Written(r, j, StatusField) == [Started, Finished]
                    && Effects.Written(r, j, JobDataField)
                       == [codec.encode(MergedDoc(latestRaw, codec, first.value).value)]))
      && (!done ==> (Effects.Written(r, j, StatusField) == [Started]
                     && Effects.Written(r, j, JobDataField) == []))
  {
    var j := payload.jobId.value;
    var first := FirstPass(JobStore.GetField(st, j, JobDataField), codec, svc);
    HeadTrail(j, t0);
    if first.Some? && MergedDoc(latestRaw, codec, first.value).Some? {
      DoneTrail(j, t0, t1, codec.encode(MergedDoc(latestRaw, codec, first.value).value));
    }
  }

  /** The two writes every run starts with. */
  lemma HeadTrail(j: string, t0: string)
    ensures var r := [Effects.Write(j, StartTimeField, t0), Effects.Write(j, StatusField, Started)];
      Effects.WritesOnly(r, j, {StartTimeField, StatusField, EndTimeField, JobDataField})
      && Effects.Published(r) == []
      && Effects.Written(r, j, StatusField) == [Started] && Effects.Written(r, j, JobDataField) == []
  {
    var w0 := Effects.Write(j, StartTimeField, t0);
    var w1 := Effects.Write(j, StatusField, Started);
    assert [] + [w0] == [w0];
    assert [w0, w1] == [w0] + [w1];
    Effects.Snoc([], w0, j, StatusField);
    Effects.Snoc([], w0, j, JobDataField);
    Effects.Snoc([w0], w1, j, StatusField);
    Effects.Snoc([w0], w1, j, JobDataField);
  }

  /** The whole log of a run that reports success. */
  lemma DoneTrail(j: string, t0: string, t1: string, data: string)
    ensures var head := [Effects.Write(j, StartTimeField, t0), Effects.Write(j, StatusField, Started)];
      var r := head + [Effects.Write(j, EndTimeField, t1)] + [Effects.Write(j, StatusField, Finished)]
        + [Effects.Write(j, JobDataField, data)];
      Effects.WritesOnly(r, j, {StartTimeField, StatusField, EndTimeField, JobDataField})
      && Effects.Published(r) == []
      && Effects.Written(r, j, StatusField) == [Started, Finished] && Effects.Written(r, j, JobDataField) == [data]
  {
    var head := [Effects.Write(j, StartTimeField, t0), Effects.Write(j, StatusField, Started)];
    var w2 := Effects.Write(j, EndTimeField, t1);
    var w3 := Effects.Write(j, StatusField, Finished);
    var w4 := Effects.Write(j, JobDataField, data);
    HeadTrail(j, t0);
    Effects.Snoc(head, w2, j, StatusField);
    Effects.Snoc(head, w2, j, JobDataField);
    Effects.Snoc(head + [w2], w3, j, StatusField);
    Effects.Snoc(head + [w2], w3, j, JobDataField);
    Effects.Snoc(head + [w2] + [w3], w4, j, StatusField);
    Effects.Snoc(head + [w2] + [w3], w4, j, JobDataField);
  }

  /** After a successful run, `job_data` reads back as the latest document
      whose articles keep everything other stages wrote and carry, by
      position, the report computed from the first read; an article without
      text or DOI in the first read gets no report. */
  lemma StoredReportsReadBack(payload: Payload, st: JobStore.Store, latestRaw: Option<string>, codec: Codec,
                              svc: Services, t0: string, t1: string)
    requires RoundTrips(codec)
    requires Truthy(payload.jobId) && ':' !in payload.jobId.value
    requires var first := FirstPass(JobStore.GetField(st, payload.jobId.value, JobDataField), codec, svc);
      first.Some? && MergedDoc(latestRaw, codec, first.value).Some?
    ensures var j := payload.jobId.value;
      var (initialDoc, initial) := ReadResults(JobStore.GetField(st, j, JobDataField), codec).value;
      var (latestDoc, latest) := ReadResults(latestRaw, codec).value;
      var after := JobStore.GetField(Effects.Apply(st, OnMessage(payload, st, latestRaw, codec, svc, t0, t1)), j, JobDataField);
      after.Some? && codec.decode(after.value).Doc?
      && var doc := codec.decode(after.value).doc;
      doc.jobId == latestDoc.jobId && doc.author == latestDoc.author && doc.results.Articles?
      && |doc.results.items| == |latest|
      && (forall i :: 0 <= i < |latest| ==> doc.results.items[i] == latest[i].(plagiarism := doc.results.items[i].plagiarism))
      && (forall i :: 0 <= i < |latest| && |initial| <= i ==> doc.results.items[i].plagiarism == Null)
      && (forall i :: 0 <= i < |latest| && i < |initial| ==>
            Success(doc.results.items[i].plagiarism) == CheckArticle(initial[i], svc))
      && (forall i :: 0 <= i < |latest| && i < |initial| && (!Truthy(initial[i].text) || !Truthy(initial[i].doi)) ==>
            doc.results.items[i].plagiarism == Null)
  {
    var j := payload.jobId.value;
    var r := OnMessage(payload, st, latestRaw, codec, svc, t0, t1);
    OnMessageLog(payload, st, latestRaw, codec, svc, t0, t1);
    assert Effects.ColonFree(r);
    Effects.ApplyReadsLastWrite(st, r, j, JobDataField);
    var initial := ReadResults(JobStore.GetField(st, j, JobDataField), codec).value.1;
    var reports := FirstPass(JobStore.GetField(st, j, JobDataField), codec, svc).value;
    assert |reports| == |initial|;
    forall i | 0 <= i < |initial| && (!Truthy(initial[i].text) || !Truthy(initial[i].doi))
      ensures reports[i] == Null
    {
      assert Success(reports[i]) == CheckArticle(initial[i], svc);
    }
  }

  /** With no concurrent writer (the second read sees the first document),
      the results written back are the first read's articles, each with its
      own report. */
  lemma NoConcurrentWriteKeepsArticles(raw: Option<string>, codec: Codec, svc: Services)
    requires FirstPass(raw, codec, svc).Some?
    ensures var reports := FirstPass(raw, codec, svc).value;
      var (doc, items) := ReadResults(raw, codec).value;
      var merged := MergedDoc(raw, codec, reports);
      merged.Some? && merged.value.results.Articles?
      && |merged.value.results.items| == |items|
      && forall i :: 0 <= i < |items| ==>
           Success(merged.value.results.items[i].plagiarism) == CheckArticle(items[i], svc)
           && merged.value.results.items[i] == items[i].(plagiarism := merged.value.results.items[i].plagiarism)
  {
  }
}

=== FILE: progress_tracker.dfy ===
/** The step list of the progress page
    (`apps/frontend/src/components/ProgressTracker.tsx`): four fixed steps,
    each shown as done, in progress, waiting or failed according to the
    hook's current stage. Only the classification is modelled, not the
    markup. */
module ProgressTracker {
  import AnalysisJob

  type Stage = AnalysisJob.Stage

  /** The four steps, in display order. */
  const Steps: seq<Stage> := [AnalysisJob.Scraping, AnalysisJob.Resolving, AnalysisJob.Extracting, AnalysisJob.Analyzing]

  datatype StepStatus = StepError | StepCompleted | StepActive | StepPending

  datatype Icon = AlertIcon | CheckIcon | SpinnerIcon | ClockIcon

  /** `stages.findIndex(s => s.key === stage)`: -1 when the stage is not a step. */
  function IndexOf(stage: Stage): (r: int)
    ensures -1 <= r < |Steps|
    ensures r == -1 <==> stage !in Steps
    ensures r >= 0 ==> Steps[r] == stage && forall j :: 0 <= j < r ==> Steps[j] != stage
  {
    match stage
    case Scraping => 0
    case Resolving => 1
    case Extracting => 2
    case Analyzing => 3
    case _ => -1
  }

  /** `getStageStatus(stages[i].key, stage)`. */
  function StatusOf(i: nat, stage: Stage): (r: StepStatus)
    requires i < |Steps|
    ensures stage == AnalysisJob.Error <==> r == StepError
    ensures stage == AnalysisJob.Completed ==> r == StepCompleted
    ensures stage != AnalysisJob.Error && stage != AnalysisJob.Completed ==>
      (r == StepCompleted <==> i < IndexOf(stage))
      && (r == StepActive <==> Steps[i] == stage)
      && (r == StepPending <==> IndexOf(stage) < i || stage !in Steps)
  {
    var cur := IndexOf(stage);
    if stage == AnalysisJob.Error then StepError
    else if i < cur || stage == AnalysisJob.Completed then StepCompleted
    else if i == cur && stage != AnalysisJob.Completed then StepActive
    else StepPending
  }

  /** `getStageIcon(stages[i].key, stage)`. */
  function IconOf(i: nat, stage: Stage): (r: Icon)
    requires i < |Steps|
    ensures r == IconFor(StatusOf(i, stage))
  {
    var cur := IndexOf(stage);
    if stage == AnalysisJob.Error then AlertIcon
    else if i < cur || stage == AnalysisJob.Completed then CheckIcon
    else if i == cur && stage != AnalysisJob.Completed then SpinnerIcon
    else ClockIcon
  }

  /** The icon a status is drawn with. */
  function IconFor(s: StepStatus): Icon {
    match s
    case StepError => AlertIcon
    case StepCompleted => CheckIcon
    case StepActive => SpinnerIcon
    case StepPending => ClockIcon
  }

  /** At most one step is in progress at any time. */
  lemma AtMostOneActive(i: nat, j: nat, stage: Stage)
    requires i < |Steps| && j < |Steps|
    requires StatusOf(i, stage) == StepActive && StatusOf(j, stage) == StepActive
    ensures i == j
  {
  }

  /** The steps read left to right as done, then at most one in progress,
      then waiting. */
  lemma StepsOrdered(i: nat, j: nat, stage: Stage)
    requires i < j < |Steps|
    requires stage != AnalysisJob.Error
    ensures StatusOf(j, stage) == StepCompleted ==> StatusOf(i, stage) == StepCompleted
    ensures StatusOf(i, stage) == StepPending ==> StatusOf(j, stage) == StepPending
  {
  }

  /** After `reset` the hook is idle, which is no step: all four steps wait. */
  lemma ResetAllPending(i: nat)
    requires i < |Steps|
    ensures StatusOf(i, AnalysisJob.Reset().stage) == StepPending
  {
  }
}

=== FILE: records.dfy ===
/** The records that travel between the pipeline stages: the publication
    dictionaries the scraper produces and later stages enrich, the queue
    messages carrying them, and the `job_data` document kept in the store.
    JSON is not parsed here: a stage that reads `job_data` is handed a
    `Codec` whose decoder classifies the stored text. */
module Records {
  import opened Wrappers

  /** A dictionary entry that may be missing, present with JSON `null`, or
      present with a value. Only the fields where the difference is
      observable use it. */
  datatype Slot<+T> = Absent | Null | Val(v: T)

  /** The parts of a Winston plagiarism report that the results page reads
      (`result.score`, `result.sourceCounts`). */
  datatype PlagiarismReport = PlagiarismReport(score: real, sourceCounts: int)

  /** One publication. `None` in an `Option` field stands for a missing key
      or `null`, which every reader of that field treats alike. */
  datatype Article = Article(
    title: string,
    year: Option<int>,
    link: Option<string>,
    citations: Option<int>,
    doi: Option<string>,
    verified: Option<bool>,
    openAccess: Option<bool>,
    text: Option<string>,
    aiLabel: Slot<string>,
    aiScore: Slot<real>,
    plagiarism: Slot<PlagiarismReport>)

  /** Python truthiness of an optional string: present and non-empty. */
  predicate Truthy(s: Option<string>) {
    s.Some? && s.value != ""
  }

  /** Python truthiness of an optional boolean. */
  predicate IsTrue(b: Option<bool>) {
    b == Some(true)
  }

  /** A fresh publication as the scraper emits it: title, year, link and
      citations, nothing else. */
  function Paper(title: string, year: Option<int>, link: Option<string>, citations: Option<int>): (a: Article)
    ensures a.title == title && a.year == year && a.link == link && a.citations == citations
    ensures a.doi == None && a.verified == None && a.openAccess == None && a.text == None
    ensures a.aiLabel == Absent && a.aiScore == Absent && a.plagiarism == Absent
  {
    Article(title, year, link, citations, None, None, None, None, Absent, Absent, Absent)
  }

  /** A queue message: `{job_id, author, results}`; a field the sender
      left out is `None`. */
  datatype Payload = Payload(jobId: Option<string>, author: Option<string>, results: Option<seq<Article>>)

  /** The `results` entry of a stored job document. */
  datatype ResultsField = NoResults | NotAList | Articles(items: seq<Article>)

  /** The stored `job_data` document. */
  datatype JobDoc = JobDoc(jobId: Option<string>, author: Option<string>, results: ResultsField)

  /** What `json.loads` makes of the stored text. */
  datatype Decoded = NotJson | NotAnObject | Doc(doc: JobDoc)

  /** `json.loads` and `json.dumps` for job documents. */
  datatype Codec = Codec(decode: string -> Decoded, encode: JobDoc -> string)

  /** A document written with `encode` reads back unchanged. */
  ghost predicate RoundTrips(c: Codec) {
    forall d: JobDoc :: c.decode(c.encode(d)) == Doc(d)
  }

  /** `doc.get("results", [])` where the entry is known to be a list. */
  function ResultsList(doc: JobDoc): (r: Option<seq<Article>>)
    ensures r.None? <==> doc.results.NotAList?
    ensures doc.results.Articles? ==> r == Some(doc.results.items)
    ensures doc.results.NoResults? ==> r == Some([])
  {
    match doc.results
    case NoResults => Some([])
    case NotAList => None
    case Articles(items) => Some(items)
  }

  /** The job id as it appears inside a store key: Python renders a
      missing id as `None`. */
  function KeyId(jobId: Option<string>): (r: string)
    ensures jobId.Some? ==> r == jobId.value
    ensures jobId.None? ==> r == "None"
  {
    match jobId
    case Some(j) => j
    case None => "None"
  }
}

=== FILE: results_display.dfy ===
/** The results page (`apps/frontend/src/components/ResultsDisplay.tsx`):
    which publications are listed, and how the AI label, the plagiarism
    score and the DOI are presented. Only the decisions are modelled, not
    the markup or the number formatting. */
module ResultsDisplay {
  import opened Wrappers
  import opened Records
  import Seqs
  import Text

  function VerifiedTest(): Article -> bool {
    (a: Article) => IsTrue(a.verified)
  }

  /** `jobData.results.filter(article => article.verified)`: the listed
      publications. */
  function VerifiedArticles(results: seq<Article>): (r: seq<Article>)
    ensures |r| <= |results|
    ensures forall a :: a in r <==> a in results && IsTrue(a.verified)
  {
    var r := Seqs.Filter(results, VerifiedTest());
    forall a | a in results && IsTrue(a.verified) ensures a in r {
      Seqs.FilterKeeps(results, VerifiedTest(), a);
    }
    r
  }

  /** The listed publications keep the order of the job document: listing
      a concatenation lists each part in turn. */
  lemma VerifiedInOrder(xs: seq<Article>, ys: seq<Article>)
    ensures VerifiedArticles(xs + ys) == VerifiedArticles(xs) + VerifiedArticles(ys)
  {
    Seqs.FilterAppend(xs, ys, VerifiedTest());
  }

  /** The "No Verified Publications Found" panel replaces the list exactly
      when the header's count is zero, that is when no publication is
      verified. */
  lemma EmptyStateIffNoneVerified(results: seq<Article>)
    ensures |VerifiedArticles(results)| == 0 <==> forall k :: 0 <= k < |results| ==> !IsTrue(results[k].verified)
  {
    Seqs.FilterEmpty(results, VerifiedTest());
  }

  /** The colour of a badge. */
  datatype Tone = Green | Yellow | Red

  function Severity(t: Tone): nat {
    match t
    case Green => 0
    case Yellow => 1
    case Red => 2
  }

  /** `getPlagiarismColor(score)`. */
  function PlagiarismTone(score: real): (t: Tone)
    ensures t == Green <==> score == 0.0
    ensures t == Red <==> score >= 15.0
  {
    if score == 0.0 then Green
    else if score < 15.0 then Yellow
    else Red
  }

  /** For the scores Winston reports (0 to 100) the badge never gets milder
      as the score grows. */
  lemma PlagiarismToneMonotone(s1: real, s2: real)
    requires 0.0 <= s1 <= s2
    ensures Severity(PlagiarismTone(s1)) <= Severity(PlagiarismTone(s2))
  {
  }

  /** A negative score, which the banding does not expect, is shown yellow. */
  lemma NegativeScoreIsYellow(score: real)
    requires score < 0.0
    ensures PlagiarismTone(score) == Yellow
  {
  }

  /** `getAILabelColor(label)`: anything but "real" is flagged. */
  function AiLabelTone(aiClass: string): (t: Tone)
    ensures t == Green <==> aiClass == "real"
    ensures t != Yellow
  {
    if aiClass == "real" then Green else Red
  }

  /** The AI panel: shown when the label is present and non-empty and a
      score entry exists (a `null` score still shows it); its badge tone. */
  function AiPanel(a: Article): (r: Option<Tone>)
    ensures r.Some? <==> a.aiLabel.Val? && a.aiLabel.v != "" && !a.aiScore.Absent?
    ensures r.Some? ==> r.value == AiLabelTone(a.aiLabel.v)
  {
    if a.aiLabel.Val? && a.aiLabel.v != "" && !a.aiScore.Absent? then Some(AiLabelTone(a.aiLabel.v)) else None
  }

  /** The plagiarism panel: shown when a report is present; its badge tone
      and the number of sources. */
  function PlagiarismPanel(a: Article): (r: Option<(Tone, int)>)
    ensures r.Some? <==> a.plagiarism.Val?
    ensures r.Some? ==> r.value == (PlagiarismTone(a.plagiarism.v.score), a.plagiarism.v.sourceCounts)
  {
    match a.plagiarism
    case Val(rep) => Some((PlagiarismTone(rep.score), rep.sourceCounts))
    case _ => None
  }

  /** Whether an article that went through both analyzers shows a panel:
      the checker's `None` result hides the plagiarism panel. */
  lemma NullReportHidesPanel(a: Article)
    requires a.plagiarism == Null
    ensures PlagiarismPanel(a).None?
  {
  }

  const DoiPrefix := "https://doi.org/"

  /** The DOI link, rendered only for a non-empty DOI. */
  function DoiLink(a: Article): (r: Option<string>)
    ensures r.Some? <==> Truthy(a.doi)
    ensures r.Some? ==> Text.StartsWith(r.value, DoiPrefix)
  {
    if Truthy(a.doi) then Some(DoiPrefix + a.doi.value) else None
  }

  /** The DOI back from a link. */
  function DoiOfLink(link: string): (r: Option<string>)
    ensures r.Some? ==> DoiPrefix + r.value == link
  {
    if Text.StartsWith(link, DoiPrefix) then Some(link[|DoiPrefix|..]) else None
  }

  /** The link determines the DOI: reading it back gives the article's DOI. */
  lemma DoiLinkRoundTrip(a: Article)
    requires Truthy(a.doi)
    ensures DoiLink(a).Some? && DoiOfLink(DoiLink(a).value) == a.doi
  {
    var link := DoiPrefix + a.doi.value;
    assert link[..|DoiPrefix|] == DoiPrefix;
    assert link[|DoiPrefix|..] == a.doi.value;
  }
}

=== FILE: scholar_oxylabs.dfy ===
/** The Google Scholar client over Oxylabs
    (`apps/scholar-scraper/app/scraper/oxylabs_scraper.py`): pages through
    the search results for an author, retrying a page with the next
    geo-location when Scholar answers with a reCAPTCHA, and turns every
    result item into a publication record. The realtime API and the HTML
    parsing (`div.gs_ri` items and their parts) are parameters; the sleeps
    and back-off delays are left out. */
module ScholarOxylabs {
  import opened Wrappers
  import opened Records
  import Text
  import Seqs
  import OxylabsFetch

  const DefaultMaxPages := 5
  const DefaultLang := "en"
  const Unknown := "Unknown"

  // ---------------------------------------------------------------- items

  /** One `div.gs_ri` item as the parser sees it: the text of `h3.gs_rt`
      (if present), the `href` of `div.gs_or_ggsm a` (if present), the text
      of `div.gs_a` (if present) and the texts of the `div.gs_fl a` links. */
  datatype RawItem = RawItem(title: Option<string>, href: Option<string>, meta: Option<string>, footerLinks: seq<string>)

  /** `\b(20\d{2}|19\d{2})\b` matches at position `i`. */
  predicate YearAt(t: string, i: nat) {
    i + 4 <= |t|
    && ((t[i] == '2' && t[i + 1] == '0') || (t[i] == '1' && t[i + 1] == '9'))
    && Text.IsDigit(t[i + 2]) && Text.IsDigit(t[i + 3])
    && (i == 0 || !Text.IsWordChar(t[i - 1]))
    && (i + 4 == |t| || !Text.IsWordChar(t[i + 4]))
  }

  /** The leftmost match position at or after `from` (`re.search`). */
  function FindYear(t: string, from: nat): (r: Option<nat>)
    ensures r.Some? ==> from <= r.value && YearAt(t, r.value)
    ensures r.Some? ==> forall j :: from <= j < r.value ==> !YearAt(t, j)
    ensures r.None? ==> forall j :: from <= j ==> !YearAt(t, j)
    decreases |t| - from
  {
    if from + 4 > |t| then None
    else if YearAt(t, from) then Some(from)
    else FindYear(t, from + 1)
  }

  /** The value of four decimal digits. */
  lemma FourDigits(d: string)
    requires |d| == 4 && forall c :: c in d ==> Text.IsDigit(c)
    ensures Text.DigitsValue(d) == 1000 * (d[0] as int - '0' as int) + 100 * (d[1] as int - '0' as int)
                                   + 10 * (d[2] as int - '0' as int) + (d[3] as int - '0' as int)
  {
    var v1 := d[0] as int - '0' as int;
    assert Text.DigitsValue(d[..1]) == v1 by { assert d[..1][..0] == []; }
    assert Text.DigitsValue(d[..2]) == v1 * 10 + (d[1] as int - '0' as int) by { assert d[..2][..1] == d[..1]; }
    assert Text.DigitsValue(d[..3]) == Text.DigitsValue(d[..2]) * 10 + (d[2] as int - '0' as int) by { assert d[..3][..2] == d[..2]; }
    assert d[..4] == d;
  }

  /** The publication year read from the `div.gs_a` text. */
  function Year(meta: Option<string>): (r: Option<int>)
    ensures r.Some? ==> 1900 <= r.value <= 2099
    ensures meta.None? ==> r.None?
    ensures meta.Some? ==> (r.None? <==> forall j :: !YearAt(meta.value, j))
    ensures meta.Some? && r.Some? ==>
      exists i: nat :: (YearAt(meta.value, i)
                        && (forall j :: 0 <= j < i ==> !YearAt(meta.value, j))
                        && r.value == Text.DigitsValue(meta.value[i..i + 4]))
  {
    match meta
    case None => None
    case Some(t) =>
      match FindYear(t, 0)
      case None => None
      case Some(i) =>
        var d := t[i..i + 4];
        assert forall c :: c in d ==> Text.IsDigit(c) by {
          assert d[0] == t[i] && d[1] == t[i + 1] && d[2] == t[i + 2] && d[3] == t[i + 3];
        }
        FourDigits(d);
        Some(Text.DigitsValue(d))
  }

  /** A footer link that counts citations ("Cited by …" or the Turkish
      "Alıntılanma sayısı …"). */
  predicate CitedLink(txt: string) {
    Text.Contains(Text.Lower(txt), "cited") || Text.Contains(Text.Lower(txt), "alıntı")
  }

  function CitedTest(): string -> bool {
    (txt: string) => CitedLink(txt)
  }

  function DigitTest(): char -> bool {
    (c: char) => Text.IsDigit(c)
  }

  /** The longest prefix of `s` made of digits. */
  function LeadingDigits(s: string): (r: string)
    ensures |r| <= |s| && r == s[..|r|]
    ensures forall c :: c in r ==> Text.IsDigit(c)
    ensures |r| < |s| ==> !Text.IsDigit(s[|r|])
  {
    if |s| == 0 || !Text.IsDigit(s[0]) then "" else [s[0]] + LeadingDigits(s[1..])
  }

  /** `run` sits at `i` in `t`, `i` is the first digit of `t` and the run
      cannot be extended to the right. */
  predicate RunAt(t: string, i: int, run: string) {
    0 <= i && i + |run| <= |t| && t[i..i + |run|] == run
    && (forall k :: 0 <= k < i ==> !Text.IsDigit(t[k]))
    && (i + |run| == |t| || !Text.IsDigit(t[i + |run|]))
  }

  /** `re.search(r"\d+", txt)`: the maximal run of digits that starts at
      the first digit. */
  function FirstDigitRun(t: string): (r: Option<string>)
    ensures r.None? <==> forall k :: 0 <= k < |t| ==> !Text.IsDigit(t[k])
    ensures r.Some? ==> |r.value| > 0 && forall c :: c in r.value ==> Text.IsDigit(c)
    ensures r.Some? ==> exists i :: RunAt(t, i, r.value)
  {
    match Seqs.FirstWhere(t, DigitTest())
    case None => None
    case Some(i) =>
      assert DigitTest()(t[i]);
      var run := LeadingDigits(t[i..]);
      assert t[i..i + |run|] == run;
      assert forall k :: 0 <= k < i ==> !DigitTest()(t[k]);
      assert RunAt(t, i, run);
      Some(run)
  }

  /** The citation count: taken from the first citation link only (its
      first number, if it has one); later links are never looked at. */
  function Citations(links: seq<string>): (r: Option<int>)
    ensures (forall k :: 0 <= k < |links| ==> !CitedLink(links[k])) ==> r.None?
    ensures r.Some? ==> r.value >= 0
    ensures r.Some? ==> exists k :: (0 <= k < |links| && CitedLink(links[k])
      && (forall j :: 0 <= j < k ==> !CitedLink(links[j]))
      && FirstDigitRun(links[k]).Some? && r.value == Text.DigitsValue(FirstDigitRun(links[k]).value))
  {
    match Seqs.FirstWhere(links, CitedTest())
    case None =>
      None
    case Some(k) =>
      assert CitedTest()(links[k]);
      assert forall j :: 0 <= j < k ==> !CitedTest()(links[j]);
      match FirstDigitRun(links[k])
      case None => None
      case Some(d) => Some(Text.DigitsValue(d))
  }

  /** The count is decided by the first citation link alone: its first
      number, or no count when it has none. */
  lemma CitationsFromFirstCitedLink(links: seq<string>, k: nat)
    requires k < |links| && CitedLink(links[k])
    requires forall j :: 0 <= j < k ==> !CitedLink(links[j])
    ensures Citations(links) == if FirstDigitRun(links[k]).Some? then Some(Text.DigitsValue(FirstDigitRun(links[k]).value)) else None
  {
    var test := CitedTest();
    assert forall j :: 0 <= j < k ==> !test(links[j]);
    assert test(links[k]);
    assert Seqs.FirstWhere(links, test) == Some(k);
  }

  /** The publication built from one item. */
  function ToPaper(raw: RawItem): (a: Article)
    ensures a == Paper(a.title, a.year, a.link, a.citations)
    ensures raw.title.None? ==> a.title == Unknown
    ensures raw.title.Some? ==> a.title == raw.title.value
    ensures a.link == raw.href
    ensures a.year == Year(raw.meta) && a.citations == Citations(raw.footerLinks)
  {
    Paper(raw.title.GetOr(Unknown), Year(raw.meta), raw.href, Citations(raw.footerLinks))
  }

  function ToPapers(raws: seq<RawItem>): (r: seq<Article>)
    ensures |r| == |raws|
    ensures forall k :: 0 <= k < |r| ==> r[k] == ToPaper(raws[k])
  {
    seq(|raws|, k requires 0 <= k < |raws| => ToPaper(raws[k]))
  }

  /** A year set off by punctuation is found. */
  lemma YearStandsAlone()
    ensures Year(Some("Nature, 2019")) == Some(2019)
  {
    var t := "Nature, 2019";
    assert YearAt(t, 8);
    assert FindYear(t, 0) == Some(8) by {
      assert !YearAt(t, 0) && !YearAt(t, 1) && !YearAt(t, 2) && !YearAt(t, 3);
      assert !YearAt(t, 4) && !YearAt(t, 5) && !YearAt(t, 6) && !YearAt(t, 7);
    }
    FourDigits(t[8..12]);
  }

  /** A year glued to a letter is not a year (the `\b` anchors). */
  lemma YearNeedsBoundary()
    ensures Year(Some("A2019")) == None
  {
    var u := "A2019";
    forall j: nat ensures !YearAt(u, j) {
      if j + 4 <= |u| {
        assert j == 0 || j == 1;
      }
    }
  }

  // ------------------------------------------------------------ pagination

  /** One POST of the realtime API. */
  datatype Request = Request(url: string, geo: string, retry: nat)

  /** The answer: an exception (from `post`, `raise_for_status`, `json()`,
      or a `content` that is not a string), no `results[0].content`
      (`KeyError`/`IndexError`), or the page's HTML. */
  datatype Reply = Raised(msg: string) | NoContent | Html(content: string)

  /** A page that is Scholar's reCAPTCHA challenge, in any letter case. */
  predicate Captcha(reply: Reply) {
    reply.Html? && Text.Contains(Text.Lower(reply.content), "recaptcha")
  }

  /** How a page ended: an exception, the end of pagination (no content,
      no items, or every retry met a reCAPTCHA), or its publications. */
  datatype PageOutcome = PageRaised(msg: string) | Stop | Papers(papers: seq<Article>)

  /** The search URL of page `page`. */
  function PageUrl(author: string, page: nat, lang: string): (u: string)
    ensures Text.StartsWith(u, "https://scholar.google.com/scholar?start=")
  {
    "https://scholar.google.com/scholar?start=" + Text.NatToString(10 * page)
      + "&q=" + Text.ReplaceChar(author, ' ', '+') + "&hl=" + lang + "&as_sdt=0,5"
  }

  /** The query carries no space: every space of the author name became `+`. */
  lemma PageUrlQuery(author: string, page: nat, lang: string)
    ensures ' ' !in Text.ReplaceChar(author, ' ', '+')
    ensures |Text.ReplaceChar(author, ' ', '+')| == |author|
  {
  }

  function GeoAt(s: OxylabsFetch.Scraper, retry: nat): (g: string)
    requires |s.geos| > 0
    ensures g in s.geos
  {
    s.geos[retry % |s.geos|]
  }

  /** The `while retry <= max_retries` loop for one page, from attempt
      `retry`: the outcome and the requests sent. */
  function PageAttempts(s: OxylabsFetch.Scraper, url: string, post: Request -> Reply,
                        parse: string -> seq<RawItem>, retry: nat): (r: (PageOutcome, seq<Request>))
    requires |s.geos| > 0
    ensures |r.1| <= if s.maxRetries + 1 - retry < 0 then 0 else s.maxRetries + 1 - retry
    ensures forall k :: 0 <= k < |r.1| ==> r.1[k] == Request(url, GeoAt(s, retry + k), retry + k)
    ensures r.0.Papers? ==> |r.0.papers| > 0
    ensures retry > s.maxRetries ==> r == (Stop, [])
    ensures retry <= s.maxRetries ==> var req := Request(url, GeoAt(s, retry), retry);
      (post(req).NoContent? ==> r == (Stop, [req]))
      && (post(req).Raised? ==> r == (PageRaised(post(req).msg), [req]))
      && (post(req).Html? && !Captcha(post(req)) ==>
            r == (if parse(post(req).content) == [] then Stop else Papers(ToPapers(parse(post(req).content))), [req]))
      && (Captcha(post(req)) ==> |r.1| > 0 && r.1[0] == req)
    decreases s.maxRetries - retry
  {
    if retry > s.maxRetries then (Stop, [])
    else
      var req := Request(url, GeoAt(s, retry), retry);
      match post(req)
      case Raised(msg) => (PageRaised(msg), [req])
      case NoContent => (Stop, [req])
      case Html(h) =>
        if Captcha(Html(h)) then
          var (out, sent) := PageAttempts(s, url, post, parse, retry + 1);
          (out, [req] + sent)
        else
          var items := parse(h);
          if items == [] then (Stop, [req]) else (Papers(ToPapers(items)), [req])
  }

  /** The page loop from page `page` on: the publications (or the
      exception) and every request sent, in order. */
  function Pages(s: OxylabsFetch.Scraper, author: string, lang: string, maxPages: int,
                 post: Request -> Reply, parse: string -> seq<RawItem>, page: nat): (r: (Result<seq<Article>>, seq<Request>))
    requires |s.geos| > 0
    ensures page >= maxPages ==> r == (Success([]), [])
    ensures forall k :: 0 <= k < |r.1| ==> exists p: nat :: page <= p < maxPages && r.1[k].url == PageUrl(author, p, lang)
    decreases maxPages - page
  {
    if page >= maxPages then (Success([]), [])
    else
      var url := PageUrl(author, page, lang);
      var (out, sent) := PageAttempts(s, url, post, parse, 0);
      assert forall k :: 0 <= k < |sent| ==> sent[k].url == PageUrl(author, page, lang);
      match out
      case PageRaised(msg) => (Failure(msg), sent)
      case Stop => (Success([]), sent)
      case Papers(papers) =>
        var (rest, more) := Pages(s, author, lang, maxPages, post, parse, page + 1);
        var all := sent + more;
        assert forall k :: |sent| <= k < |all| ==> all[k] == more[k - |sent|];
        (if rest.Success? then Success(papers + rest.value) else rest, all)
  }

  /** One step of the page loop: a page that ends pagination ends the
      search with what came before and no later page is requested; an
      exception ends it as a failure; a page of publications is followed by
      those of the later pages and their requests. */
  lemma PagesStep(s: OxylabsFetch.Scraper, author: string, lang: string, maxPages: int,
                  post: Request -> Reply, parse: string -> seq<RawItem>, page: nat)
    requires |s.geos| > 0 && page < maxPages
    ensures var (out, sent) := PageAttempts(s, PageUrl(author, page, lang), post, parse, 0);
      var r := Pages(s, author, lang, maxPages, post, parse, page);
      (out.Stop? ==> r == (Success([]), sent))
      && (out.PageRaised? ==> r == (Failure(out.msg), sent))
      && (out.Papers? ==> var (rest, more) := Pages(s, author, lang, maxPages, post, parse, page + 1);
            r.1 == sent + more && (r.0.Success? <==> rest.Success?)
            && (r.0.Success? ==> r.0.value == out.papers + rest.value))
  {
  }

  /** `fetch_publications(author_name, max_pages, lang)`. */
  function FetchPublications(s: OxylabsFetch.Scraper, author: string, maxPages: int, lang: string,
                             post: Request -> Reply, parse: string -> seq<RawItem>): (r: (Result<seq<Article>>, seq<Request>))
    requires |s.geos| > 0
    ensures maxPages <= 0 ==> r == (Success([]), [])
    ensures forall k :: 0 <= k < |r.1| ==> exists p: nat :: p < maxPages && r.1[k].url == PageUrl(author, p, lang)
  {
    Pages(s, author, lang, maxPages, post, parse, 0)
  }

  /** With a negative retry limit no page is ever requested. */
  lemma NoRetriesNoRequests(s: OxylabsFetch.Scraper, author: string, maxPages: int, lang: string,
                            post: Request -> Reply, parse: string -> seq<RawItem>)
    requires |s.geos| > 0 && s.maxRetries < 0
    ensures FetchPublications(s, author, maxPages, lang, post, parse) == (Success([]), [])
  {
  }

  /** When every attempt at the first page meets a reCAPTCHA, the search
      gives up quietly: no publications, no error, and no other page is
      requested. */
  lemma CaptchaExhaustionStops(s: OxylabsFetch.Scraper, author: string, maxPages: int, lang: string,
                               post: Request -> Reply, parse: string -> seq<RawItem>)
    requires |s.geos| > 0 && maxPages > 0
    requires forall r: nat :: Captcha(post(Request(PageUrl(author, 0, lang), GeoAt(s, r), r)))
    ensures var (res, sent) := FetchPublications(s, author, maxPages, lang, post, parse);
      res == Success([]) && |sent| == (if s.maxRetries < 0 then 0 else s.maxRetries + 1)
      && forall k :: 0 <= k < |sent| ==> sent[k] == Request(PageUrl(author, 0, lang), GeoAt(s, k), k)
  {
    AllCaptcha(s, PageUrl(author, 0, lang), post, parse, 0);
  }

  lemma {:induction false} AllCaptcha(s: OxylabsFetch.Scraper, url: string, post: Request -> Reply,
                                      parse: string -> seq<RawItem>, retry: nat)
    requires |s.geos| > 0
    requires forall r: nat :: Captcha(post(Request(url, GeoAt(s, r), r)))
    ensures var (out, sent) := PageAttempts(s, url, post, parse, retry);
      out == Stop && |sent| == if s.maxRetries + 1 - retry < 0 then 0 else s.maxRetries + 1 - retry
    decreases s.maxRetries - retry
  {
    if retry <= s.maxRetries {
      AllCaptcha(s, url, post, parse, retry + 1);
    }
  }

  /** A reCAPTCHA sends the loop on to the next attempt at the same page,
      after the captcha's own request. */
  lemma CaptchaStep(s: OxylabsFetch.Scraper, url: string, post: Request -> Reply,
                    parse: string -> seq<RawItem>, retry: nat)
    requires |s.geos| > 0 && retry <= s.maxRetries
    requires Captcha(post(Request(url, GeoAt(s, retry), retry)))
    ensures var next := PageAttempts(s, url, post, parse, retry + 1);
      PageAttempts(s, url, post, parse, retry) == (next.0, [Request(url, GeoAt(s, retry), retry)] + next.1)
  {
  }

  /** When attempts `retry` to `k - 1` all meet a reCAPTCHA, the page's
      outcome is that of attempt `k`, after those captcha requests. */
  lemma {:induction false} CaptchasRetrySamePage(s: OxylabsFetch.Scraper, url: string, post: Request -> Reply,
                                                 parse: string -> seq<RawItem>, retry: nat, k: nat)
    requires |s.geos| > 0 && retry <= k
    requires forall a: nat :: retry <= a < k ==> Captcha(post(Request(url, GeoAt(s, a), a)))
    requires k <= s.maxRetries + 1
    ensures var here := PageAttempts(s, url, post, parse, retry);
      var later := PageAttempts(s, url, post, parse, k);
      here.0 == later.0 && |here.1| == k - retry + |later.1|
    decreases k - retry
  {
    if retry < k {
      CaptchaStep(s, url, post, parse, retry);
      CaptchasRetrySamePage(s, url, post, parse, retry + 1, k);
    }
  }

  /** Captchas followed by a page without one: the outcome is that page's,
      after one request per attempt. */
  lemma CaptchasThenPage(s: OxylabsFetch.Scraper, url: string, post: Request -> Reply,
                         parse: string -> seq<RawItem>, retry: nat, k: nat)
    requires |s.geos| > 0 && retry <= k <= s.maxRetries
    requires forall a: nat :: retry <= a < k ==> Captcha(post(Request(url, GeoAt(s, a), a)))
    requires post(Request(url, GeoAt(s, k), k)).Html? && !Captcha(post(Request(url, GeoAt(s, k), k)))
    ensures var h := post(Request(url, GeoAt(s, k), k)).content;
      var (out, sent) := PageAttempts(s, url, post, parse, retry);
      out == (if parse(h) == [] then Stop else Papers(ToPapers(parse(h))))
      && |sent| == k - retry + 1
  {
    CaptchasRetrySamePage(s, url, post, parse, retry, k);
  }

  /** A successful search returns the first page's publications first, in
      item order, followed by those of the later pages. */
  lemma FirstPageFirst(s: OxylabsFetch.Scraper, author: string, maxPages: int, lang: string,
                       post: Request -> Reply, parse: string -> seq<RawItem>)
    requires |s.geos| > 0 && maxPages > 0
    requires FetchPublications(s, author, maxPages, lang, post, parse).0.Success?
    requires PageAttempts(s, PageUrl(author, 0, lang), post, parse, 0).0.Papers?
    ensures var first := PageAttempts(s, PageUrl(author, 0, lang), post, parse, 0).0.papers;
      var all := FetchPublications(s, author, maxPages, lang, post, parse).0.value;
      |first| <= |all| && all[..|first|] == first
  {
  }
}

=== FILE: scholar_worker.dfy ===
/** The scholar scraper's worker (`apps/scholar-scraper/app/worker.py`):
    for each `scrape_requests` message it fetches the author's
    publications and hands them to the DOI resolver. Its progress goes to
    the job's `state` field; the store and the queue are the effect log. */
module ScholarWorker {
  import opened Wrappers
  import opened Records
  import Effects
  import JobStore
  import StateStore
  import DoiResolver

  const InputQueue := "scrape_requests"
  const StateField := "state"
  const Started := "Scraping started."
  const ScraperFailed := "Scraper error."
  const NoResults := "Scraper found no results."
  const Completed := "Scraper completed successfully."

  /** `handle_scrape(payload)`: `fetch` is the publication fetch. A message
      without a job id or author (missing or empty) is dropped. */
  function HandleScrape(payload: Payload, fetch: string -> Result<seq<Article>>): (r: seq<Effects.Effect>)
    ensures !Truthy(payload.jobId) || !Truthy(payload.author) ==> r == []
    ensures Truthy(payload.jobId) && Truthy(payload.author) ==>
      |r| >= 2 && r[0] == Effects.Write(payload.jobId.value, StateField, Started)
  {
    if !Truthy(payload.jobId) || !Truthy(payload.author) then []
    else
      var k := payload.jobId.value;
      var w0 := Effects.Write(k, StateField, Started);
      match fetch(payload.author.value)
      case Failure(_) => [w0, Effects.Write(k, StateField, ScraperFailed)]
      case Success(pubs) =>
        if pubs == [] then [w0, Effects.Write(k, StateField, NoResults)]
        else [w0, Effects.Write(k, StateField, Completed),
              Effects.Publish(DoiResolver.ResolveQueue, Payload(payload.jobId, payload.author, Some(pubs)))]
  }

  /** The `state` trail: "Scraping started." and then exactly one of the
      three outcomes; a DOI-resolve request is published exactly when
      publications were found, after the success label, and carries them
      unchanged with the job id and author. */
  lemma HandleScrapeLog(payload: Payload, fetch: string -> Result<seq<Article>>)
    requires Truthy(payload.jobId) && Truthy(payload.author)
    ensures var r := HandleScrape(payload, fetch);
      var k := payload.jobId.value;
      var out := fetch(payload.author.value);
      Effects.WritesOnly(r, k, {StateField})
      && (out.Failure? ==> Effects.Written(r, k, StateField) == [Started, ScraperFailed] && Effects.Published(r) == [])
      && (out == Success([]) ==> Effects.Written(r, k, StateField) == [Started, NoResults] && Effects.Published(r) == [])
      && (out.Success? && out.value != [] ==>
            Effects.Written(r, k, StateField) == [Started, Completed]
            && Effects.Published(r) == [Effects.Publish(DoiResolver.ResolveQueue, Payload(payload.jobId, payload.author, Some(out.value)))]
            && r[|r| - 1].Publish?)
  {
    var k := payload.jobId.value;
    match fetch(payload.author.value)
    case Failure(_) =>
      EndedTrail(k, ScraperFailed);
    case Success(pubs) =>
      if pubs != [] {
        PublishingTrail(k, Effects.Publish(DoiResolver.ResolveQueue, Payload(payload.jobId, payload.author, Some(pubs))));
      } else {
        EndedTrail(k, NoResults);
      }
  }

  /** "Scraping started." followed by a final label, nothing published. */
  lemma EndedTrail(k: string, last: string)
    ensures var r := [Effects.Write(k, StateField, Started), Effects.Write(k, StateField, last)];
      Effects.WritesOnly(r, k, {StateField}) && Effects.Written(r, k, StateField) == [Started, last]
      && Effects.Published(r) == []
  {
    var w0 := Effects.Write(k, StateField, Started);
    var w1 := Effects.Write(k, StateField, last);
    assert [] + [w0] == [w0] && [w0] + [w1] == [w0, w1];
    Effects.Snoc([], w0, k, StateField);
    Effects.Snoc([w0], w1, k, StateField);
  }

  /** The success labels followed by the one publication. */
  lemma PublishingTrail(k: string, p: Effects.Effect)
    requires p.Publish?
    ensures var r := [Effects.Write(k, StateField, Started), Effects.Write(k, StateField, Completed), p];
      Effects.WritesOnly(r, k, {StateField}) && Effects.Written(r, k, StateField) == [Started, Completed]
      && Effects.Published(r) == [p]
  {
    var w0 := Effects.Write(k, StateField, Started);
    var w1 := Effects.Write(k, StateField, Completed);
    EndedTrail(k, Completed);
    assert [w0, w1] + [p] == [w0, w1, p];
    Effects.Snoc([w0, w1], p, k, StateField);
  }

  /** A log that writes nothing but `state`. */
  predicate StateOnly(log: seq<Effects.Effect>) {
    forall i :: 0 <= i < |log| && log[i].Write? ==> log[i].field == StateField
  }

  /** Writes to `state` leave every job's `status` as it was. */
  lemma {:induction false} StateWritesKeepStatus(st: JobStore.Store, log: seq<Effects.Effect>, other: string)
    requires StateOnly(log)
    ensures StateStore.GetStatus(Effects.Apply(st, log), other) == StateStore.GetStatus(st, other)
    decreases |log|
  {
    if |log| > 0 {
      var st' := match log[0]
        case Write(j, f, v) => JobStore.SetField(st, j, f, v)
        case Publish(_, _) => st;
      assert StateOnly(log[1..]) by {
        forall i | 0 <= i < |log[1..]| && log[1..][i].Write? ensures log[1..][i].field == StateField {
          assert log[1..][i] == log[i + 1];
        }
      }
      StateWritesKeepStatus(st', log[1..], other);
      if log[0].Write? {
        StateStore.StateInvisibleToStatus(st, log[0].jobId, log[0].value, other);
      }
    }
  }

  /** Nothing the scraper writes is visible through the gateway's status
      endpoint: every job's `status` reads as before the message. */
  lemma ScraperInvisibleToStatus(st: JobStore.Store, payload: Payload, fetch: string -> Result<seq<Article>>, other: string)
    ensures var r := HandleScrape(payload, fetch);
      StateStore.GetStatus(Effects.Apply(st, r), other) == StateStore.GetStatus(st, other)
  {
    var r := HandleScrape(payload, fetch);
    assert StateOnly(r);
    StateWritesKeepStatus(st, r, other);
  }
}

=== FILE: seqs.dfy ===
/** Sequence helpers shared by the services: Python's order-preserving
    de-duplication idioms (`list(dict.fromkeys(xs))` and the `seen` set
    comprehension) and first-match search. */
module Seqs {
  import opened Wrappers

  /** Index of the first occurrence of `x` in `s`. */
  function FirstIndex<T(==)>(s: seq<T>, x: T): (i: nat)
    requires x in s
    ensures i < |s| && s[i] == x
    ensures forall j :: 0 <= j < i ==> s[j] != x
  {
    if s[0] == x then 0 else 1 + FirstIndex(s[1..], x)
  }

  predicate NoDuplicates<T(==)>(s: seq<T>) {
    forall i, j :: 0 <= i < j < |s| ==> s[i] != s[j]
  }

  /** Keeps the first occurrence of every element, in order of first occurrence. */
  function Dedup<T(==)>(s: seq<T>): (r: seq<T>)
    decreases |s|
  {
    if |s| == 0 then []
    else
      var prefix := s[..|s| - 1];
      var last := s[|s| - 1];
      Dedup(prefix) + (if last in prefix then [] else [last])
  }

  lemma {:induction false} DedupMembers<T>(s: seq<T>)
    ensures forall x :: x in Dedup(s) <==> x in s
    decreases |s|
  {
    if |s| > 0 {
      var prefix := s[..|s| - 1];
      DedupMembers(prefix);
      assert s == prefix + [s[|s| - 1]];
    }
  }

  lemma {:induction false} DedupNoDuplicates<T>(s: seq<T>)
    ensures NoDuplicates(Dedup(s))
    decreases |s|
  {
    if |s| > 0 {
      var prefix := s[..|s| - 1];
      DedupNoDuplicates(prefix);
      DedupMembers(prefix);
    }
  }

  lemma DedupElement<T>(s: seq<T>, k: int)
    requires 0 <= k < |Dedup(s)|
    ensures Dedup(s)[k] in s
  {
    DedupMembers(s);
  }

  lemma FirstIndexPrefix<T>(s: seq<T>, x: T)
    requires |s| > 0 && x in s[..|s| - 1]
    ensures FirstIndex(s, x) == FirstIndex(s[..|s| - 1], x)
  {
    var p := s[..|s| - 1];
    var i := FirstIndex(p, x);
    var k := FirstIndex(s, x);
    assert s[i] == x;
    assert p[k] == x by { assert k <= i; }
  }

  /** Elements come out in the order of their first occurrence in `s`. */
  lemma {:induction false} DedupOrder<T>(s: seq<T>)
    ensures forall i, j :: 0 <= i < j < |Dedup(s)| ==>
      Dedup(s)[i] in s && Dedup(s)[j] in s &&
      FirstIndex(s, Dedup(s)[i]) < FirstIndex(s, Dedup(s)[j])
    decreases |s|
  {
    DedupMembers(s);
    if |s| > 0 {
      var prefix := s[..|s| - 1];
      var last := s[|s| - 1];
      var d := Dedup(prefix);
      DedupOrder(prefix);
      DedupMembers(prefix);
      forall k | 0 <= k < |d|
        ensures d[k] in prefix && FirstIndex(s, d[k]) == FirstIndex(prefix, d[k]) < |s| - 1
      {
        DedupElement(prefix, k);
        FirstIndexPrefix(s, d[k]);
      }
      if last !in prefix {
        assert Dedup(s) == d + [last];
        assert FirstIndex(s, last) == |s| - 1;
        forall i, j | 0 <= i < j < |Dedup(s)|
          ensures FirstIndex(s, Dedup(s)[i]) < FirstIndex(s, Dedup(s)[j])
        {
          assert Dedup(s)[i] == d[i];
          if j < |d| {
            assert Dedup(s)[j] == d[j];
          }
        }
      } else {
        assert Dedup(s) == d;
      }
    }
  }

  /** The characterisation of `Dedup` without reference to its definition:
      every element of `s` appears exactly once, in first-occurrence order. */
  lemma DedupSpec<T>(s: seq<T>)
    ensures forall x :: x in Dedup(s) <==> x in s
    ensures NoDuplicates(Dedup(s))
    ensures forall i, j :: 0 <= i < j < |Dedup(s)| ==>
      FirstIndex(s, Dedup(s)[i]) < FirstIndex(s, Dedup(s)[j])
  {
    DedupMembers(s);
    DedupNoDuplicates(s);
    DedupOrder(s);
  }

  /** De-duplication never lengthens a sequence. */
  lemma {:induction false} DedupLength<T>(s: seq<T>)
    ensures |Dedup(s)| <= |s|
    decreases |s|
  {
    if |s| > 0 {
      DedupLength(s[..|s| - 1]);
    }
  }

  /** The first element always survives de-duplication. */
  lemma {:induction false} DedupHead<T>(s: seq<T>)
    requires |s| > 0
    ensures |Dedup(s)| > 0 && Dedup(s)[0] == s[0]
    decreases |s|
  {
    var prefix := s[..|s| - 1];
    if |prefix| > 0 {
      DedupHead(prefix);
    }
  }

  /** The elements satisfying `p`, in order (a Python list comprehension
      with an `if`). */
  function Filter<T>(xs: seq<T>, p: T -> bool): (r: seq<T>)
    ensures |r| <= |xs|
    ensures forall k :: 0 <= k < |r| ==> p(r[k]) && r[k] in xs
    decreases |xs|
  {
    if |xs| == 0 then []
    else (if p(xs[0]) then [xs[0]] else []) + Filter(xs[1..], p)
  }

  /** Index of the first element satisfying `p`: a `for` loop that returns
      at its first hit. */
  function FirstWhere<T>(xs: seq<T>, p: T -> bool): (r: Option<nat>)
    ensures r.Some? ==> r.value < |xs| && p(xs[r.value])
    ensures r.Some? ==> forall j :: 0 <= j < r.value ==> !p(xs[j])
    ensures r.None? ==> forall j :: 0 <= j < |xs| ==> !p(xs[j])
    decreases |xs|
  {
    if |xs| == 0 then None
    else if p(xs[0]) then Some(0)
    else
      match FirstWhere(xs[1..], p)
      case None => None
      case Some(i) => Some(i + 1)
  }

  /** Applies `f` to every element in order, stopping at the first failure
      and passing its error on (a `for` loop whose body may raise). */
  function MapAll<T, U>(xs: seq<T>, f: T -> Result<U>): (r: Result<seq<U>>)
    ensures r.Success? <==> forall i :: 0 <= i < |xs| ==> f(xs[i]).Success?
    ensures r.Success? ==> |r.value| == |xs| && forall i :: 0 <= i < |xs| ==> Success(r.value[i]) == f(xs[i])
    ensures r.Failure? ==>
      exists i :: 0 <= i < |xs| && f(xs[i]) == Failure(r.error)
                  && forall j :: 0 <= j < i ==> f(xs[j]).Success?
    decreases |xs|
  {
    if |xs| == 0 then Success([])
    else
      var head := f(xs[0]);
      var rest := MapAll(xs[1..], f);
      assert forall i :: 0 <= i < |xs| - 1 ==> xs[1..][i] == xs[i + 1];
      if head.Failure? then Failure(head.error)
      else if rest.Failure? then
        var k :| 0 <= k < |xs| - 1 && f(xs[1..][k]) == Failure(rest.error)
                 && forall j :: 0 <= j < k ==> f(xs[1..][j]).Success?;
        assert f(xs[k + 1]) == Failure(rest.error);
        Failure(rest.error)
      else Success([head.value] + rest.value)
  }

  /** The element a search found, if any. */
  function At<T>(xs: seq<T>, i: Option<nat>): Option<T>
    requires i.Some? ==> i.value < |xs|
  {
    match i
    case None => None
    case Some(k) => Some(xs[k])
  }

  lemma {:induction false} FilterEmpty<T>(xs: seq<T>, p: T -> bool)
    ensures Filter(xs, p) == [] <==> forall k :: 0 <= k < |xs| ==> !p(xs[k])
    decreases |xs|
  {
    if |xs| > 0 {
      FilterEmpty(xs[1..], p);
      if !p(xs[0]) {
        assert forall k :: 1 <= k < |xs| ==> xs[k] == xs[1..][k - 1];
      }
    }
  }

  /** Filtering by `p` and then searching the survivors for `q` finds the
      same element as searching the whole sequence for both. */
  lemma {:induction false} FilterThenFirst<T>(xs: seq<T>, p: T -> bool, q: T -> bool, both: T -> bool)
    requires forall x :: both(x) == (p(x) && q(x))
    ensures var f := Filter(xs, p);
      At(f, FirstWhere(f, q)) == At(xs, FirstWhere(xs, both))
    decreases |xs|
  {
    if |xs| > 0 {
      var rest := Filter(xs[1..], p);
      FilterThenFirst(xs[1..], p, q, both);
      var tail := FirstWhere(xs[1..], both);
      assert At(xs[1..], tail) == At(xs, if tail.Some? then Some(tail.value + 1) else None);
      var restHit := FirstWhere(rest, q);
      if p(xs[0]) {
        var f := [xs[0]] + rest;
        assert Filter(xs, p) == f;
        assert f[1..] == rest;
        if !q(xs[0]) {
          assert At(f, FirstWhere(f, q)) == At(rest, restHit);
        }
      } else {
        assert Filter(xs, p) == rest;
      }
    }
  }

  /** Filtering distributes over concatenation: the survivors keep their
      relative order. */
  lemma {:induction false} FilterAppend<T>(xs: seq<T>, ys: seq<T>, p: T -> bool)
    ensures Filter(xs + ys, p) == Filter(xs, p) + Filter(ys, p)
    decreases |xs|
  {
    if |xs| == 0 {
      assert xs + ys == ys;
    } else {
      assert (xs + ys)[0] == xs[0] && (xs + ys)[1..] == xs[1..] + ys;
      FilterAppend(xs[1..], ys, p);
    }
  }

  /** Every element satisfying `p` survives filtering. */
  lemma {:induction false} FilterKeeps<T>(xs: seq<T>, p: T -> bool, x: T)
    requires x in xs && p(x)
    ensures x in Filter(xs, p)
    decreases |xs|
  {
    if xs[0] != x {
      assert x in xs[1..];
      FilterKeeps(xs[1..], p, x);
    }
  }
}

=== FILE: state_store.dfy ===
/** The per-job status line of `common/state_store.py` and of the
    gateway's `services/state_store.py`. Both keep it under the job store
    key `job:{job_id}:status` and read a missing or empty value as
    `"pending"`. */
module StateStore {
  import opened Wrappers
  import JobStore

  const StatusField := "status"
  const Pending := "pending"

  /** `StateStore.set_status`: a plain job-store write of the `status` field. */
  function SetStatus(st: JobStore.Store, jobId: string, status: string): (r: JobStore.Store)
    ensures JobStore.GetField(r, jobId, StatusField) == Some(status)
    ensures forall k :: k in st && k != JobStore.MakeKey(jobId, StatusField) ==> k in r && r[k] == st[k]
  {
    JobStore.SetField(st, jobId, StatusField, status)
  }

  /** `StateStore.get_status`: the stored value, or `"pending"` when it is
      missing or empty (Python's `val or "pending"`). */
  function GetStatus(st: JobStore.Store, jobId: string): (r: string)
    ensures r != ""
    ensures JobStore.GetField(st, jobId, StatusField) == Some(r)
         || (r == Pending && JobStore.GetField(st, jobId, StatusField) in {None, Some("")})
  {
    match JobStore.GetField(st, jobId, StatusField)
    case None => Pending
    case Some(v) => if v == "" then Pending else v
  }

  /** The status key is the job-store key of the field `status`. */
  lemma StatusKey(jobId: string)
    ensures JobStore.MakeKey(jobId, StatusField) == "job:" + jobId + ":status"
  {
  }

  /** A non-empty status is read back as written. */
  lemma SetThenGetStatus(st: JobStore.Store, jobId: string, status: string)
    requires status != ""
    ensures GetStatus(SetStatus(st, jobId, status), jobId) == status
  {
  }

  /** A status that was never set reads `"pending"`. */
  lemma NeverSetIsPending(st: JobStore.Store, jobId: string)
    requires JobStore.MakeKey(jobId, StatusField) !in st
    ensures GetStatus(st, jobId) == Pending
  {
  }

  /** A status set to the empty string also reads `"pending"`. */
  lemma EmptyIsPending(st: JobStore.Store, jobId: string)
    ensures GetStatus(SetStatus(st, jobId, ""), jobId) == Pending
  {
  }

  /** Status writes do not merge: the later one is read back. */
  lemma StatusLastWriteWins(st: JobStore.Store, jobId: string, s1: string, s2: string)
    ensures GetStatus(SetStatus(SetStatus(st, jobId, s1), jobId, s2), jobId)
         == GetStatus(SetStatus(st, jobId, s2), jobId)
  {
    JobStore.LastWriteWins(st, jobId, StatusField, s1, s2);
  }

  /** The scraper and the DOI resolver write the field `state`, which no
      status reader looks at: whatever they write there, every job's
      status reads as before. */
  lemma StateInvisibleToStatus(st: JobStore.Store, jobId: string, value: string, other: string)
    ensures GetStatus(JobStore.SetField(st, jobId, "state", value), other) == GetStatus(st, other)
  {
    var k1 := JobStore.MakeKey(jobId, "state");
    var k2 := JobStore.MakeKey(other, StatusField);
    assert k1[|k1| - 1] == 'e' && k2[|k2| - 1] == 's';
    JobStore.WriteFrame(st, jobId, "state", value, other, StatusField);
  }
}

=== FILE: text.dfy ===
/** String primitives the services rely on, written for the ASCII range:
    Python's `isalnum`, `isspace`, `lower`, `strip`, `split`, `in`,
    `endswith`, `" ".join` and JavaScript's `toLowerCase`/`includes`.
    Whitespace follows Python's `str.isspace` exactly (including the
    non-ASCII separators); letters and digits are the ASCII ones. */
module Text {

  predicate IsDigit(c: char) {
    '0' <= c <= '9'
  }

  predicate IsUpper(c: char) {
    'A' <= c <= 'Z'
  }

  predicate IsLower(c: char) {
    'a' <= c <= 'z'
  }

  predicate IsAlnum(c: char) {
    IsDigit(c) || IsUpper(c) || IsLower(c)
  }

  /** The characters for which Python's `str.isspace` holds. */
  predicate IsSpace(c: char) {
    var n := c as int;
    (9 <= n <= 13) || (28 <= n <= 32) || n == 0x85 || n == 0xA0 || n == 0x1680
    || (0x2000 <= n <= 0x200A) || n == 0x2028 || n == 0x2029 || n == 0x202F
    || n == 0x205F || n == 0x3000
  }

  /** A character that `\b` in a regular expression treats as part of a word. */
  predicate IsWordChar(c: char) {
    IsAlnum(c) || c == '_'
  }

  function LowerChar(c: char): (r: char)
    ensures !IsUpper(r)
    ensures IsUpper(c) ==> IsLower(r) && r as int == c as int + 32
    ensures !IsUpper(c) ==> r == c
  {
    if IsUpper(c) then (c as int + 32) as char else c
  }

  function Lower(s: string): (r: string)
    ensures |r| == |s|
    ensures forall i :: 0 <= i < |s| ==> r[i] == LowerChar(s[i])
  {
    seq(|s|, i requires 0 <= i < |s| => LowerChar(s[i]))
  }

  /** Lower-casing a string with no upper-case letter changes nothing. */
  lemma LowerNoUpper(s: string)
    requires forall i :: 0 <= i < |s| ==> !IsUpper(s[i])
    ensures Lower(s) == s
  {
  }

  /** Lower-casing works character by character, so it distributes over
      concatenation. */
  lemma LowerAppend(a: string, b: string)
    ensures Lower(a + b) == Lower(a) + Lower(b)
  {
  }

  predicate StartsWith(s: string, p: string) {
    |p| <= |s| && s[..|p|] == p
  }

  predicate EndsWith(s: string, p: string) {
    |p| <= |s| && s[|s| - |p|..] == p
  }

  predicate MatchesAt(s: string, p: string, i: int)
    requires 0 <= i <= |s| - |p|
  {
    s[i..i + |p|] == p
  }

  /** Python's `p in s` and JavaScript's `s.includes(p)`. */
  predicate Contains(s: string, p: string) {
    exists i :: 0 <= i <= |s| - |p| && MatchesAt(s, p, i)
  }

  lemma ContainsAt(s: string, p: string, i: int)
    requires 0 <= i <= |s| - |p| && s[i..i + |p|] == p
    ensures Contains(s, p)
  {
    assert MatchesAt(s, p, i);
  }

  /** An occurrence in the right part is an occurrence in the whole. */
  lemma ContainsRight(a: string, b: string, p: string)
    requires Contains(b, p)
    ensures Contains(a + b, p)
  {
    var i :| 0 <= i <= |b| - |p| && MatchesAt(b, p, i);
    assert (a + b)[|a| + i..|a| + i + |p|] == b[i..i + |p|];
    ContainsAt(a + b, p, |a| + i);
  }

  /** An occurrence in the left part is an occurrence in the whole. */
  lemma ContainsLeft(a: string, b: string, p: string)
    requires Contains(a, p)
    ensures Contains(a + b, p)
  {
    var i :| 0 <= i <= |a| - |p| && MatchesAt(a, p, i);
    assert (a + b)[i..i + |p|] == a[i..i + |p|];
    ContainsAt(a + b, p, i);
  }

  predicate Mismatch(s: string, p: string, i: int, j1: nat, j2: nat)
    requires 0 <= i <= |s| - |p| && j1 < |p| && j2 < |p|
  {
    s[i + j1] != p[j1] || s[i + j2] != p[j2]
  }

  /** `p` does not occur in `s` when every alignment of `p` against `s`
      disagrees at one of two fixed positions of `p`. */
  lemma NotContainsByAnchors(s: string, p: string, j1: nat, j2: nat)
    requires j1 < |p| && j2 < |p|
    requires forall i :: 0 <= i <= |s| - |p| ==> Mismatch(s, p, i, j1, j2)
    ensures !Contains(s, p)
  {
    forall i | 0 <= i <= |s| - |p|
      ensures !MatchesAt(s, p, i)
    {
      assert Mismatch(s, p, i, j1, j2);
    }
  }

  /** Python's `s.lstrip()`: drops the leading whitespace. */
  function TrimStart(s: string): (r: string)
    ensures |r| <= |s| && r == s[|s| - |r|..]
    ensures |r| > 0 ==> !IsSpace(r[0])
    ensures forall k :: 0 <= k < |s| - |r| ==> IsSpace(s[k])
  {
    if |s| > 0 && IsSpace(s[0]) then
      var r := TrimStart(s[1..]);
      assert s[1..][|s| - 1 - |r|..] == s[|s| - |r|..];
      assert forall k :: 1 <= k < |s| - |r| ==> s[k] == s[1..][k - 1];
      r
    else s
  }

  /** Python's `s.rstrip()`: drops the trailing whitespace. */
  function TrimEnd(s: string): (r: string)
    ensures |r| <= |s| && r == s[..|r|]
    ensures |r| > 0 ==> !IsSpace(r[|r| - 1])
    ensures forall k :: |r| <= k < |s| ==> IsSpace(s[k])
  {
    if |s| > 0 && IsSpace(s[|s| - 1]) then TrimEnd(s[..|s| - 1]) else s
  }

  /** Python's `s.strip()`. */
  function Trim(s: string): (r: string)
    ensures |r| > 0 ==> !IsSpace(r[0]) && !IsSpace(r[|r| - 1])
    ensures forall c :: c in r ==> c in s
  {
    var t := TrimStart(s);
    var r := TrimEnd(t);
    assert forall c :: c in r ==> c in t;
    r
  }

  /** Stripping a string without leading or trailing whitespace changes nothing. */
  lemma TrimNoop(s: string)
    requires |s| > 0 ==> !IsSpace(s[0]) && !IsSpace(s[|s| - 1])
    ensures Trim(s) == s
  {
  }

  /** The longest prefix of `s` holding no whitespace. */
  function TakeWord(s: string): (r: string)
    ensures |r| <= |s| && r == s[..|r|]
    ensures forall i :: 0 <= i < |r| ==> !IsSpace(r[i])
    ensures |r| < |s| ==> IsSpace(s[|r|])
    ensures |s| > 0 && !IsSpace(s[0]) ==> |r| > 0
  {
    if |s| == 0 || IsSpace(s[0]) then "" else [s[0]] + TakeWord(s[1..])
  }

  predicate IsWord(w: string) {
    |w| > 0 && forall i :: 0 <= i < |w| ==> !IsSpace(w[i])
  }

  /** Python's `s.split()` with no separator: the maximal runs of
      non-whitespace characters, in order. */
  function SplitWords(s: string): (r: seq<string>)
    decreases |s|
  {
    var t := TrimStart(s);
    if |t| == 0 then []
    else
      var w := TakeWord(t);
      [w] + SplitWords(t[|w|..])
  }

  /** Every token is a non-empty run of non-whitespace characters. */
  lemma {:induction false} SplitWordsAreWords(s: string)
    ensures forall k :: 0 <= k < |SplitWords(s)| ==> IsWord(SplitWords(s)[k])
    decreases |s|
  {
    var t := TrimStart(s);
    if |t| > 0 {
      var w := TakeWord(t);
      var rest := t[|w|..];
      assert IsWord(w);
      SplitWordsAreWords(rest);
      assert SplitWords(s) == [w] + SplitWords(rest);
      ConsWords(w, SplitWords(rest));
    }
  }

  /** A word in front of a list of words. */
  lemma ConsWords(w: string, ws: seq<string>)
    requires IsWord(w) && forall k :: 0 <= k < |ws| ==> IsWord(ws[k])
    ensures forall k :: 0 <= k < |[w] + ws| ==> IsWord(([w] + ws)[k])
  {
    forall k | 0 < k < |[w] + ws| ensures IsWord(([w] + ws)[k]) {
      assert ([w] + ws)[k] == ws[k - 1];
    }
  }

  /** `sep.join(parts)`. */
  function Join(sep: string, parts: seq<string>): (r: string)
    ensures |parts| == 0 ==> r == ""
    ensures |parts| == 1 ==> r == parts[0]
    decreases |parts|
  {
    if |parts| == 0 then ""
    else if |parts| == 1 then parts[0]
    else parts[0] + sep + Join(sep, parts[1..])
  }

  /** Joining two non-empty lists puts one separator between the two
      joins. */
  lemma {:induction false} JoinAppend(sep: string, a: seq<string>, b: seq<string>)
    requires |a| > 0 && |b| > 0
    ensures Join(sep, a + b) == Join(sep, a) + sep + Join(sep, b)
    decreases |a|
  {
    if |a| > 1 {
      assert (a + b)[1..] == a[1..] + b;
      JoinAppend(sep, a[1..], b);
    } else {
      assert (a + b)[1..] == b;
    }
  }

  /** Python's `s.replace(p, "")` for a two-character pattern: occurrences
      are removed left to right without rescanning the result. */
  function RemovePair(s: string, p: string): (r: string)
    requires |p| == 2
    ensures |r| <= |s|
    decreases |s|
  {
    if |s| < 2 then s
    else if s[..2] == p then RemovePair(s[2..], p)
    else [s[0]] + RemovePair(s[1..], p)
  }

  /** The value of a run of decimal digits, as Python's `int` reads it. */
  function DigitsValue(d: string): (n: nat)
    requires forall c :: c in d ==> IsDigit(c)
    decreases |d|
  {
    if |d| == 0 then 0
    else
      var last := d[|d| - 1];
      assert last in d && IsDigit(last);
      DigitsValue(d[..|d| - 1]) * 10 + (last as int - '0' as int)
  }

  /** The decimal rendering of a natural number, as Python's `str` writes it. */
  function NatToString(n: nat): (r: string)
    ensures |r| > 0
    ensures forall c :: c in r ==> IsDigit(c)
    ensures DigitsValue(r) == n
  {
    if n < 10 then [('0' as int + n) as char]
    else
      var r := NatToString(n / 10) + [('0' as int + n % 10) as char];
      assert r[..|r| - 1] == NatToString(n / 10);
      r
  }

  /** Python's `s.replace(a, b)` for single characters. */
  function ReplaceChar(s: string, a: char, b: char): (r: string)
    ensures |r| == |s|
    ensures forall i :: 0 <= i < |s| ==> r[i] == (if s[i] == a then b else s[i])
  {
    seq(|s|, i requires 0 <= i < |s| => if s[i] == a then b else s[i])
  }
}

=== FILE: text_extractor_service.dfy ===
/** `TextExtractorService` (`apps/text-extractor/app/service.py`): validates
    the job message, fetches the full text of every verified open-access
    article with a DOI, reports progress through the job's status line, and
    forwards the job to the AI detection queue. The extractor and the
    publisher are parameters. */
module TextExtractorService {
  import opened Wrappers
  import opened Records
  import Seqs
  import Effects
  import JobStore
  import StateStore

  const InputQueue := "text-extract-requests"
  const OutputQueue := "ai-detection-requests"
  const Started := "Extract service started."
  const Finished := "Extract service successfully finished."
  const PublishFailed := "error"

  /** A message that passed `Job.parse_obj`. */
  datatype Job = Job(jobId: string, author: string, results: seq<Article>)

  /** The fields the `Article` model requires beyond the title: `verified`
      and `open_access` have no default. */
  predicate ArticleParses(a: Article) {
    a.verified.Some? && a.openAccess.Some?
  }

  /** An article as the model keeps it: fields the model does not declare
      (the AI and plagiarism results) are dropped. */
  function AsModel(a: Article): (r: Article)
    ensures r.aiLabel == Absent && r.aiScore == Absent && r.plagiarism == Absent
    ensures r == a.(aiLabel := r.aiLabel, aiScore := r.aiScore, plagiarism := r.plagiarism)
  {
    a.(aiLabel := Absent, aiScore := Absent, plagiarism := Absent)
  }

  /** `Job.parse_obj(payload)`: `job_id`, `author` and `results` are
      required, and so is every article's pair of flags. */
  function ParseJob(p: Payload): (r: Option<Job>)
    ensures r.Some? <==> (p.jobId.Some? && p.author.Some? && p.results.Some?
                          && forall i :: 0 <= i < |p.results.value| ==> ArticleParses(p.results.value[i]))
    ensures r.Some? ==> r.value.jobId == p.jobId.value && r.value.author == p.author.value
    ensures r.Some? ==> |r.value.results| == |p.results.value|
    ensures r.Some? ==> forall i :: 0 <= i < |r.value.results| ==> r.value.results[i] == AsModel(p.results.value[i])
  {
    if p.jobId.None? || p.author.None? || p.results.None? then None
    else if exists i :: 0 <= i < |p.results.value| && !ArticleParses(p.results.value[i]) then None
    else
      var arts := p.results.value;
      Some(Job(p.jobId.value, p.author.value, seq(|arts|, i requires 0 <= i < |arts| => AsModel(arts[i]))))
  }

  /** `art.doi and art.verified and art.open_access`. */
  predicate Eligible(a: Article) {
    Truthy(a.doi) && IsTrue(a.verified) && IsTrue(a.openAccess)
  }

  function EligibleTest(): Article -> bool {
    (a: Article) => Eligible(a)
  }

  /** One article after the loop: the text is replaced by what the
      extractor returned, unless the article was skipped or extraction
      raised. */
  function Extracted(a: Article, getText: string -> Result<Option<string>>): (r: Article)
    ensures r == a.(text := r.text)
    ensures !Eligible(a) || getText(a.doi.value).Failure? ==> r == a
    ensures Eligible(a) && getText(a.doi.value).Success? ==> r.text == getText(a.doi.value).value
  {
    if Eligible(a) && getText(a.doi.value).Success? then a.(text := getText(a.doi.value).value) else a
  }

  /** The status line an eligible article leaves behind: `extracting:` and
      then `extracted:` or `error:`, each followed by the DOI. */
  function ArticleStatuses(a: Article, getText: string -> Result<Option<string>>): (r: seq<string>)
    requires Eligible(a)
    ensures |r| == 2 && r[0] == "extracting:" + a.doi.value
    ensures r[1] == (if getText(a.doi.value).Success? then "extracted:" else "error:") + a.doi.value
  {
    var d := a.doi.value;
    ["extracting:" + d, (if getText(d).Success? then "extracted:" else "error:") + d]
  }

  /** The `for art in job.results` loop: the articles afterwards and the
      status writes made on the way. */
  function ExtractLoop(j: string, arts: seq<Article>, getText: string -> Result<Option<string>>): (r: (seq<Article>, seq<Effects.Effect>))
    ensures |r.0| == |arts|
    ensures forall i :: 0 <= i < |arts| ==> r.0[i] == Extracted(arts[i], getText)
    ensures Effects.WritesOnly(r.1, j, {StateStore.StatusField})
    decreases |arts|
  {
    if |arts| == 0 then ([], [])
    else
      var rest := ExtractLoop(j, arts[1..], getText);
      var a := arts[0];
      var here := if Eligible(a) then
          var s := ArticleStatuses(a, getText);
          [Effects.Write(j, StateStore.StatusField, s[0]), Effects.Write(j, StateStore.StatusField, s[1])]
        else [];
      ([Extracted(a, getText)] + rest.0, here + rest.1)
  }

  /** `w` lists, for each article of `e` in turn, the two statuses it leaves. */
  predicate StatusPairs(w: seq<string>, e: seq<Article>, getText: string -> Result<Option<string>>)
    requires forall k :: 0 <= k < |e| ==> Eligible(e[k])
  {
    |w| == 2 * |e| && forall k :: 0 <= k < |e| ==> [w[2 * k], w[2 * k + 1]] == ArticleStatuses(e[k], getText)
  }

  lemma StatusPairsCons(a: Article, w: seq<string>, e: seq<Article>, getText: string -> Result<Option<string>>)
    requires Eligible(a) && forall k :: 0 <= k < |e| ==> Eligible(e[k])
    requires StatusPairs(w, e, getText)
    ensures forall k :: 0 <= k < |[a] + e| ==> Eligible(([a] + e)[k])
    ensures StatusPairs(ArticleStatuses(a, getText) + w, [a] + e, getText)
  {
    var w' := ArticleStatuses(a, getText) + w;
    var e' := [a] + e;
    forall k | 0 <= k < |e'| ensures [w'[2 * k], w'[2 * k + 1]] == ArticleStatuses(e'[k], getText) {
      if k > 0 {
        assert e'[k] == e[k - 1];
        assert w'[2 * k] == w[2 * (k - 1)] && w'[2 * k + 1] == w[2 * (k - 1) + 1];
      }
    }
  }

  /** The two writes for one eligible article. */
  lemma ArticleWrites(j: string, a: Article, getText: string -> Result<Option<string>>)
    requires Eligible(a)
    ensures var s := ArticleStatuses(a, getText);
      var here := [Effects.Write(j, StateStore.StatusField, s[0]), Effects.Write(j, StateStore.StatusField, s[1])];
      Effects.Written(here, j, StateStore.StatusField) == s && Effects.Published(here) == []
  {
    var s := ArticleStatuses(a, getText);
    var w0 := Effects.Write(j, StateStore.StatusField, s[0]);
    var w1 := Effects.Write(j, StateStore.StatusField, s[1]);
    assert [w0, w1] == [w0] + [w1];
    Effects.WrittenOne(w0, j, StateStore.StatusField);
    Effects.PublishedOne(w0);
    Effects.Snoc([w0], w1, j, StateStore.StatusField);
  }

  /** The loop writes two statuses per eligible article, in article order,
      and publishes nothing. */
  lemma {:induction false} LoopStatuses(j: string, arts: seq<Article>, getText: string -> Result<Option<string>>)
    ensures var e := Seqs.Filter(arts, EligibleTest());
      forall k :: 0 <= k < |e| ==> Eligible(e[k])
    ensures var log := ExtractLoop(j, arts, getText).1;
      Effects.Published(log) == []
      && StatusPairs(Effects.Written(log, j, StateStore.StatusField), Seqs.Filter(arts, EligibleTest()), getText)
    decreases |arts|
  {
    var e := Seqs.Filter(arts, EligibleTest());
    assert forall k :: 0 <= k < |e| ==> EligibleTest()(e[k]);
    if |arts| > 0 {
      var a := arts[0];
      LoopStatuses(j, arts[1..], getText);
      var tail := ExtractLoop(j, arts[1..], getText).1;
      var wt := Effects.Written(tail, j, StateStore.StatusField);
      var et := Seqs.Filter(arts[1..], EligibleTest());
      var log := ExtractLoop(j, arts, getText).1;
      if Eligible(a) {
        var s := ArticleStatuses(a, getText);
        var here := [Effects.Write(j, StateStore.StatusField, s[0]), Effects.Write(j, StateStore.StatusField, s[1])];
        assert log == here + tail;
        ArticleWrites(j, a, getText);
        Effects.WrittenAppend(here, tail, j, StateStore.StatusField);
        Effects.PublishedAppend(here, tail);
        assert e == [a] + et;
        StatusPairsCons(a, wt, et, getText);
      } else {
        assert log == tail;
        assert e == et;
      }
    }
  }

  /** `_on_message(payload)`: `getText` is `get_text_for_doi` (a `Failure`
      is an exception), `publishOk` says whether the publish succeeded. */
  function OnMessage(payload: Payload, getText: string -> Result<Option<string>>, publishOk: bool): (r: seq<Effects.Effect>)
    ensures ParseJob(payload).None? <==> r == []
    ensures r != [] ==> r[0] == Effects.Write(payload.jobId.value, StateStore.StatusField, Started)
  {
    match ParseJob(payload)
    case None => []
    case Some(job) =>
      var j := job.jobId;
      var (arts, log) := ExtractLoop(j, job.results, getText);
      var start := [Effects.Write(j, StateStore.StatusField, Started)];
      if publishOk then
        start + log + [Effects.Publish(OutputQueue, Payload(Some(j), Some(job.author), Some(arts)))]
          + [Effects.Write(j, StateStore.StatusField, Finished)]
      else
        start + log + [Effects.Write(j, StateStore.StatusField, PublishFailed)]
  }

  /** The status line of a parsed job runs "started", the per-article
      statuses, then "successfully finished" or "error"; exactly one
      message goes out, on success only, to the AI detection queue, holding
      every article (in order, without AI or plagiarism results) with the
      extracted text filled in. */
  lemma OnMessageLog(payload: Payload, getText: string -> Result<Option<string>>, publishOk: bool)
    requires ParseJob(payload).Some?
    ensures var job := ParseJob(payload).value;
      var r := OnMessage(payload, getText, publishOk);
      var loop := ExtractLoop(job.jobId, job.results, getText);
      var statuses := Effects.Written(r, job.jobId, StateStore.StatusField);
      Effects.WritesOnly(r, job.jobId, {StateStore.StatusField})
      && statuses == [Started] + Effects.Written(loop.1, job.jobId, StateStore.StatusField)
                     + [if publishOk then Finished else PublishFailed]
      && (publishOk ==> Effects.Published(r) == [Effects.Publish(OutputQueue, Payload(Some(job.jobId), Some(job.author), Some(loop.0)))])
      && (!publishOk ==> Effects.Published(r) == [])
  {
    var job := ParseJob(payload).value;
    var j := job.jobId;
    var loop := ExtractLoop(j, job.results, getText);
    var start := [Effects.Write(j, StateStore.StatusField, Started)];
    StartedTrail(j, job.results, getText);
    if publishOk {
      var p := Effects.Publish(OutputQueue, Payload(Some(j), Some(job.author), Some(loop.0)));
      assert OnMessage(payload, getText, publishOk) == start + loop.1 + [p] + [Effects.Write(j, StateStore.StatusField, Finished)];
      PublishedTrail(j, loop.1, p);
    } else {
      assert OnMessage(payload, getText, publishOk) == start + loop.1 + [Effects.Write(j, StateStore.StatusField, PublishFailed)];
      FailedTrail(j, loop.1);
    }
  }

  lemma PublishedTrail(j: string, log: seq<Effects.Effect>, p: Effects.Effect)
    requires p.Publish?
    ensures var w0 := Effects.Write(j, StateStore.StatusField, Finished);
      var start := [Effects.Write(j, StateStore.StatusField, Started)];
      var r := start + log + [p] + [w0];
      Effects.Written(r, j, StateStore.StatusField) == Effects.Written(start + log, j, StateStore.StatusField) + [Finished]
      && Effects.Published(r) == Effects.Published(start + log) + [p]
      && (Effects.WritesOnly(start + log, j, {StateStore.StatusField}) ==> Effects.WritesOnly(r, j, {StateStore.StatusField}))
  {
    var w0 := Effects.Write(j, StateStore.StatusField, Finished);
    var start := [Effects.Write(j, StateStore.StatusField, Started)];
    Effects.Snoc(start + log, p, j, StateStore.StatusField);
    Effects.Snoc(start + log + [p], w0, j, StateStore.StatusField);
    Effects.WritesOnlyAppend(start + log, [p], j, {StateStore.StatusField});
    Effects.WritesOnlyAppend(start + log + [p], [w0], j, {StateStore.StatusField});
  }

  lemma FailedTrail(j: string, log: seq<Effects.Effect>)
    ensures var w0 := Effects.Write(j, StateStore.StatusField, PublishFailed);
      var start := [Effects.Write(j, StateStore.StatusField, Started)];
      var r := start + log + [w0];
      Effects.Written(r, j, StateStore.StatusField) == Effects.Written(start + log, j, StateStore.StatusField) + [PublishFailed]
      && Effects.Published(r) == Effects.Published(start + log)
      && (Effects.WritesOnly(start + log, j, {StateStore.StatusField}) ==> Effects.WritesOnly(r, j, {StateStore.StatusField}))
  {
    var w0 := Effects.Write(j, StateStore.StatusField, PublishFailed);
    var start := [Effects.Write(j, StateStore.StatusField, Started)];
    Effects.Snoc(start + log, w0, j, StateStore.StatusField);
    Effects.WritesOnlyAppend(start + log, [w0], j, {StateStore.StatusField});
  }

  /** The log up to the end of the article loop: the "started" status, the
      loop's statuses, nothing published and no other field written. */
  lemma StartedTrail(j: string, arts: seq<Article>, getText: string -> Result<Option<string>>)
    ensures var log := ExtractLoop(j, arts, getText).1;
      var trail := [Effects.Write(j, StateStore.StatusField, Started)] + log;
      Effects.Written(trail, j, StateStore.StatusField) == [Started] + Effects.Written(log, j, StateStore.StatusField)
      && Effects.Published(trail) == []
      && Effects.WritesOnly(trail, j, {StateStore.StatusField})
  {
    var log := ExtractLoop(j, arts, getText).1;
    var start := [Effects.Write(j, StateStore.StatusField, Started)];
    LoopStatuses(j, arts, getText);
    Effects.WrittenOne(start[0], j, StateStore.StatusField);
    Effects.PublishedOne(start[0]);
    Effects.WrittenAppend(start, log, j, StateStore.StatusField);
    Effects.PublishedAppend(start, log);
    Effects.WritesOnlyAppend(start, log, j, {StateStore.StatusField});
  }

  /** After a parsed job, the status line reads "Extract service
      successfully finished." or "error", whatever the articles did. */
  lemma FinalStatus(st: JobStore.Store, payload: Payload, getText: string -> Result<Option<string>>, publishOk: bool)
    requires ParseJob(payload).Some? && ':' !in payload.jobId.value
    ensures StateStore.GetStatus(Effects.Apply(st, OnMessage(payload, getText, publishOk)), payload.jobId.value)
         == if publishOk then Finished else PublishFailed
  {
    var r := OnMessage(payload, getText, publishOk);
    var j := payload.jobId.value;
    OnMessageLog(payload, getText, publishOk);
    assert Effects.ColonFree(r);
    Effects.ApplyReadsLastWrite(st, r, j, StateStore.StatusField);
  }

  /** Articles that are not verified open-access with a DOI are forwarded
      untouched and leave no status. */
  lemma SkippedArticles(payload: Payload, getText: string -> Result<Option<string>>)
    requires ParseJob(payload).Some?
    requires forall i :: 0 <= i < |payload.results.value| ==> !Eligible(payload.results.value[i])
    ensures var job := ParseJob(payload).value;
      var loop := ExtractLoop(job.jobId, job.results, getText);
      loop.0 == job.results && Effects.Written(loop.1, job.jobId, StateStore.StatusField) == []
  {
    var job := ParseJob(payload).value;
    LoopStatuses(job.jobId, job.results, getText);
    assert forall i :: 0 <= i < |job.results| ==> !EligibleTest()(job.results[i]);
    Seqs.FilterEmpty(job.results, EligibleTest());
  }
}

=== FILE: wrappers.dfy ===
/** Failure-compatible wrappers shared by every module of the model.
    `Option` stands for Python's `None`-or-value and TypeScript's
    `null`-or-value; `Result` stands for "returned a value" versus
    "raised an exception", the exception being described by a string. */
module Wrappers {

  datatype Option<+T> = None | Some(value: T) {

    predicate IsFailure() {
      None?
    }

    function PropagateFailure<U>(): Option<U>
      requires None?
    {
      None
    }

    function Extract(): T
      requires Some?
    {
      value
    }

    /** Python's `d.get(key, default)` when the key may be missing. */
    function GetOr(default: T): T {
      match this
      case Some(v) => v
      case None => default
    }
  }

  datatype Result<+T> = Success(value: T) | Failure(error: string) {

    predicate IsFailure() {
      Failure?
    }

    function PropagateFailure<U>(): Result<U>
      requires Failure?
    {
      Failure(error)
    }

    function Extract(): T
      requires Success?
    {
      value
    }
  }
}
